=== FILE: README.md ===
# Synthara site logic in Dafny

This project models the client-side logic of the Synthara marketing site, a
React single-page application. It does not model the layout. The modelled
pieces are:

- the scripted chat assistant "Synth": its keyword classifier, name capture and auto-open;
- the GenAI panel: an API key kept in local storage behind a plaintext admin
  password, the chat history with the model, and the code zoom;
- the page shell: the global keyboard shortcuts, the active section chosen
  from intersection reports, the shortcut hint, the first-visit shortcuts
  overlay, and the model dialogs the assistant opens;
- the standalone keyboard-shortcuts overlay;
- the theme switcher: sixteen palettes, the seven CSS colour variables, the
  picker's category filter, persistence, and `hexToRgb`;
- the custom cursor and its trail;
- the technology-stack chart and its expanded view;
- the expanded AI-partner comparison, whose rankings are stable sorts;
- the documentation browser: section search and copy indicators;
- the registration form;
- the image-recognition panel;
- the code playground's simulated run and its download name;
- the image-generation service's URL-extraction cascade and validation.

Each React component becomes a module. Its state is an immutable datatype
and each handler or effect is a pure function from state to state. Browser
`localStorage` is a `map<string, string>` (`Storage`). Network calls,
timers and file reads are replaced by their outcomes, which the caller passes
in. For example, `GenAI.Complete` takes the model's reply or the thrown
message, and `Navigation.TimerFires` is the timer firing.

Modules:

| module | models |
|---|---|
| `Optional`, `Storage`, `Strings`, `Lists` | `null`/`undefined`, `localStorage`, the JavaScript string operations used, subsequences |
| `Keyboard` | key events, focus, the letter-to-section table shared by both key handlers |
| `Assistant` | `src/components/AIAssistant.tsx` |
| `GenAI` | `src/components/GenAI.tsx` |
| `Navigation` | `src/App.tsx` |
| `Shortcuts` | `src/components/KeyboardShortcuts.tsx` |
| `Theme` | `src/components/ThemeController.tsx` |
| `Cursor` | `src/components/CursorEffect.tsx` |
| `TechStack` | `src/components/TechStackChart.tsx`, `src/components/ExpandedTechStackView.tsx` |
| `Partners` | `src/components/ExpandedAIPartnersView.tsx` |
| `Docs` | `src/components/PremiumDocs.tsx` |
| `Register` | `src/components/RegisterModal.tsx` |
| `ImageRecognition` | `src/components/ImageRecognition.tsx` |
| `Playground`, `PlaygroundOutput` | `src/components/CodePlayground.tsx` |
| `ImageGeneration` | `src/services/ImageGenerationService.ts` |

Points where the code behaves differently from what a reader might expect:

- An input that no keyword rule matches first goes through a question
  test, which gives a technical or a general question reply. Only after
  that does it fall back to the random default pool (`Assistant.Classify`).
- Several keyword rules can never fire for some of their own keywords,
  because an earlier rule always matches first (`Assistant.Shadowed`,
  `Assistant.WhatCanYouDoIsNeverCapabilities`).

## Model

| member | source | states |
|---|---|---|
| Strings.ToLower | src/components/AIAssistant.tsx:121 | Lower-casing keeps the length and maps each character through ASCII lower-casing. No capital is left. |
| Strings.ToLowerIdempotent | src/components/AIAssistant.tsx:121 | Lower-casing twice is the same as lower-casing once. |
| Strings.Utf16Length | src/components/GenAI.tsx:132 | `length` counts code units: between one and two per character, and exactly one per character when none lies above U+FFFF. |
| Strings.ContainsIff | src/components/AIAssistant.tsx:123 | The `includes` test holds exactly when the needle occurs at some index. |
| Strings.Split | src/components/ImageRecognition.tsx:67 | `split` gives at least one field, and no field holds the separator. |
| Strings.JoinSplit | src/components/ImageRecognition.tsx:67 | Joining the fields of a split with the same separator gives back the original string. |
| Strings.SplitJoin | src/components/ImageRecognition.tsx:84 | Splitting a join of separator-free fields gives back exactly those fields. |
| Strings.Field | src/components/ImageRecognition.tsx:84 | `split(sep)[n]` is present exactly when there are more than `n` fields, and it is separator-free. |
| Storage.GetAfterSet | src/components/KeyboardShortcuts.tsx:12-33 | After `setItem`, `getItem` of that key gives the value just written, and every other key reads as before. |
| Storage.GetAfterRemove | src/components/GenAI.tsx:68-108 | After `removeItem`, `getItem` of that key gives null, and every other key reads as before. |
| Keyboard.SectionForKey | src/App.tsx:222-266 | A key maps to a section exactly when it is one of the ten shortcut letters. |
| Keyboard.ShortcutsMatchDots | src/App.tsx:341-352 | The i-th shortcut letter reaches the i-th navigation dot. Letters are distinct and section ids are distinct. |
| Keyboard.SectionForKeyInjective | src/App.tsx:222-266 | Two keys that reach the same section are the same key. |
| Assistant.FirstFiring | src/components/AIAssistant.tsx:126-306 | The rule found fires and no earlier rule fires. When none is found, no rule fires. |
| Assistant.ClassifyBy | src/components/AIAssistant.tsx:120-351 | The category is one of the rules' categories or one of the three catch-all replies. |
| Assistant.ClassifyByRule | src/components/AIAssistant.tsx:126-306 | When no two rules share a category and none uses a catch-all one, a rule's category is chosen exactly when that rule is the first to fire. |
| Assistant.ClassifyByCatchAll | src/components/AIAssistant.tsx:311-350 | For such rules a catch-all reply is given exactly when no rule fires. It is the technical-question reply exactly when the input starts with a question word or ends with `?` and holds a technical term, the general-question reply when it is a question without one, and the fallback when it is not a question. |
| Assistant.RulesWellFormed | src/components/AIAssistant.tsx:126-306 | The site's thirteen rules have distinct categories, none of them a catch-all. |
| Assistant.ClassifyRule | src/components/AIAssistant.tsx:126-306 | Each of the site's rules decides the reply exactly when it is the first to fire. |
| Assistant.ClassifyCatchAll | src/components/AIAssistant.tsx:311-350 | The site's question replies and fallback are given exactly when none of its rules fires, split as above. |
| Assistant.ClassifyTotal | src/components/AIAssistant.tsx:120-351 | Every input gets exactly one category: either the first firing rule's or one of the three catch-alls. |
| Assistant.ClassifyCaseInsensitive | src/components/AIAssistant.tsx:121 | Inputs that lower-case alike are classified alike. |
| Assistant.ClassifyOfLower | src/components/AIAssistant.tsx:121 | Lower-casing the input first does not change its category. |
| Assistant.FirstMatchWins | src/components/AIAssistant.tsx:126-306 | When a keyword of rule k occurs, the chosen rule is k or an earlier one, and it is the first to fire. |
| Assistant.Shadowed | src/components/AIAssistant.tsx:126-306 | A keyword of a later rule that contains a keyword of an earlier rule can never select the later rule. |
| Assistant.HiIsGreeting | src/components/AIAssistant.tsx:126 | Any input containing "hi", such as "this" or "which", is answered as a greeting. |
| Assistant.WhichIsGreeting | src/components/AIAssistant.tsx:126 | "which" is classified as a greeting. |
| Assistant.WhatCanYouDoIsNeverCapabilities | src/components/AIAssistant.tsx:294 | "what can you do" never reaches the capabilities rule. The help rule or an earlier one takes it. |
| Assistant.GuideIsNeverLearning | src/components/AIAssistant.tsx:233 | An input containing "guide" is never given the learning reply, because the tour rule comes first. |
| Assistant.GuideIsTour | src/components/AIAssistant.tsx:137 | The word "guide" alone is a tour request. |
| Assistant.WhoQuestionsAreCompany | src/components/AIAssistant.tsx:277 | Questions starting with "who" never get a question reply. The company rule fires first. |
| Assistant.MainOptionsCategories | src/components/AIAssistant.tsx:354-387 | Lists exactly which reply categories carry the five main option buttons. |
| Assistant.Submit | src/components/AIAssistant.tsx:67-117 | Blank input is ignored. Otherwise the user turn is appended and then one reply. Without a name, the input becomes the name, is stored under `userName`, and gets a name greeting with its four options. With a name, the reply is the input's category and that category's options. |
| Assistant.ShowKeyboardShortcuts | src/components/AIAssistant.tsx:558-571 | The follow-up appends the introduction and then the toggle hint, changes nothing else, and asks the page to open the shortcuts overlay. |
| Assistant.ShortcutsRequestOpensOverlay | src/components/AIAssistant.tsx:198-207 | With a name known, a shortcuts question ends with the question, the category reply without options, the introduction and the toggle hint, and the overlay opens. Name and storage are unchanged. |
| Assistant.Toggle | src/components/AIAssistant.tsx:585-613 | Toggling flips the panel and marks it as interacted. Opening onto an empty transcript welcomes back the stored name with the main options, or gives the first-time greeting when none is stored. Otherwise the transcript and name are kept. |
| Assistant.AutoOpen | src/components/AIAssistant.tsx:39-47 | The five-second timer toggles the assistant only when the visitor has not interacted yet. |
| Assistant.NameRememberedNextVisit | src/components/AIAssistant.tsx:74-76 | A name given once is stored, so the next visit's opening welcomes the visitor back under exactly that text. |
| GenAI.Mount | src/components/GenAI.tsx:67-84 | The key and password count as present exactly when their stored entries are truthy. The panel starts with an empty history, nothing loading, and the storage invariant. |
| GenAI.EditApiKey | src/components/GenAI.tsx:461-472 | The key field edits the key text only while no key is present. |
| GenAI.SaveApiKey | src/components/GenAI.tsx:87-99 | A blank key does nothing. Without a password, the dialog opens to set one. With a password, the key is stored. The stored password is never touched. |
| GenAI.RemoveKey | src/components/GenAI.tsx:108-111 | The key entry is removed and the key is cleared. Every other storage entry and the password are kept. |
| GenAI.StoreKey | src/components/GenAI.tsx:121-122 | The key text is stored and marked present. Every other storage entry and the password are kept. |
| GenAI.ClearApiKey | src/components/GenAI.tsx:102-112 | With a password, the dialog is asked to verify a clear. Without one, the key is removed at once. |
| GenAI.ChangeApiKey | src/components/GenAI.tsx:115-124 | With a password, the dialog is asked to verify a change. Without one, the new key is stored at once. |
| GenAI.EnterPassword | src/components/GenAI.tsx:844 | Typing sets the entered password and keeps the invariant. |
| GenAI.SubmitPassword | src/components/GenAI.tsx:127-168 | Setting a password shorter than four UTF-16 code units only reports an error. Otherwise the password and the key are stored and the dialog closes. A wrong verification only reports an error. A correct one clears or stores the key as asked. The admin password is never removed or changed by a verification. |
| GenAI.SubmitPasswordForm | src/components/GenAI.tsx:835-851 | The `required` field keeps an empty entry from being submitted: nothing changes. Any other entry goes to `handlePasswordSubmit`. |
| GenAI.ShortErrorOnlyForShortEntries | src/components/GenAI.tsx:127-851 | When setting a password through the form, the "too short" message appears exactly for an entry of one to three UTF-16 code units. |
| GenAI.CancelPassword | src/components/GenAI.tsx:855-862 | Cancelling closes the dialog and empties both the entered password and the error message. Storage and the key and password flags are unchanged. |
| GenAI.CancelForgetsError | src/components/GenAI.tsx:792-797 | After a cancel, reopening the dialog to clear or change the key shows no error. |
| GenAI.AstralPasswordAccepted | src/components/GenAI.tsx:132 | Two emoji count as four code units, so they are accepted as a new password and stored. |
| GenAI.TranscriptSnoc | src/components/GenAI.tsx:352-358 | Adding a turn appends a blank line and that turn's labelled text to the displayed conversation. |
| GenAI.Send | src/components/GenAI.tsx:371-378 | Blank input, no key or a request in flight does nothing. Otherwise the user turn is appended, the request starts from the new history and the input box is cleared. Storage is untouched. |
| GenAI.Complete | src/components/GenAI.tsx:306-368 | A reply replaces the history with the request's history plus the answer and shows the whole transcript. A failure shows `Error: ` and the message and keeps the history. Loading stops either way. |
| GenAI.ExchangeSucceeds | src/components/GenAI.tsx:306-368 | A successful exchange adds exactly the question and then the answer. |
| GenAI.ExchangeFails | src/components/GenAI.tsx:306-368 | A failed exchange adds exactly the question and shows the error message. |
| GenAI.StartNewChat | src/components/GenAI.tsx:300-303 | A new chat empties the history and the response. It does not cancel a request in flight. |
| GenAI.NewChatDuringRequest | src/components/GenAI.tsx:300-368 | A reply that arrives after a new chat was started brings the old history back. |
| GenAI.Zoom | src/components/GenAI.tsx:281-284 | Zooming in or out moves by one tenth and saturates at 50% and 200%. Reset gives 100%. The result stays in bounds. |
| GenAI.ZoomAllBounded | src/components/GenAI.tsx:613-620 | Any sequence of zoom presses stays within [50%, 200%]. |
| GenAI.ZoomResetLast | src/components/GenAI.tsx:618 | A reset as the last press gives 100%, whatever came before. |
| GenAI.PanelKey | src/components/GenAI.tsx:258-297 | The panel's keys do nothing while it is closed. Escape closes it. Without Cmd+Shift, or inside a text field, a key changes nothing. History and storage are never touched. |
| GenAI.ResetZoom | src/components/GenAI.tsx:618 | Clicking the zoom label sets 100%. |
| Navigation.HandleKey | src/App.tsx:186-266 | Escape closes an open overlay. Shift with `/` or `?` opens it, even from a text field. A navigation happens exactly for a mapped letter pressed alone, outside text fields, with the overlay closed, and it goes to that letter's section. Only the overlay flag ever changes. |
| Navigation.LettersReachDots | src/App.tsx:222-266 | Each shortcut letter, pressed alone, scrolls to its navigation dot's section. |
| Navigation.Intersecting | src/App.tsx:149 | The filter keeps exactly the intersecting entries. |
| Navigation.MostVisible | src/App.tsx:153-155 | The reduce picks a highest ratio, and it is the last entry with that ratio. |
| Navigation.LastMaximumUnique | src/App.tsx:153-155 | Only one position can be the last maximum, so the reduce's choice is determined. |
| Navigation.ObserveSections | src/App.tsx:147-158 | With no intersecting entry nothing changes. Otherwise the active section becomes the id of the last most-visible intersecting entry, and nothing else changes. |
| Navigation.TieGoesToLater | src/App.tsx:153-155 | Of two sections with equal ratios, the one reported later becomes active. |
| Navigation.HintFollowsObserver | src/App.tsx:104-158 | After an observer report with an intersecting entry, the hint shows exactly when the last most-visible entry is `hero`, the agent is not mobile and the window is at least 1024 pixels wide. A report with no intersecting entry leaves the hint as it was. |
| Navigation.InitialSeen | src/App.tsx:125-127 | The flag starts true exactly when the stored entry is the string "true". |
| Navigation.Rendered | src/App.tsx:125-127 | The first render starts on the hero section with the overlay closed, nothing scheduled, and the seen flag read from storage. |
| Navigation.FirstVisitEffect | src/App.tsx:279-289 | The overlay timer is scheduled exactly when the seen flag is unset. |
| Navigation.MarkSeenEffect | src/App.tsx:292-298 | As written, the flag is stored and set whenever the overlay is closed and not yet seen. Nothing else changes. |
| Navigation.TimerFires | src/App.tsx:282-284 | A scheduled timer opens the overlay. Without one nothing happens. |
| Navigation.MountAsWritten | src/App.tsx:279-298 | After mounting as written, no timer is pending and the flag is already stored as seen. |
| Navigation.FirstVisitOverlayNeverOpens | src/App.tsx:279-298 | On a first visit the scheduled overlay never opens, yet storage records it as seen. |
| Navigation.MarkSeenOnClose | src/App.tsx:292-298 | Intended behaviour: the flag is stored only when the overlay goes from open to closed. |
| Navigation.Mount | src/App.tsx:279-289 | With the intended effect, mounting schedules the overlay exactly on a first visit. |
| Navigation.CloseWithEscape | src/App.tsx:190-195 | Closing an unseen overlay with Escape stores the seen flag. A closed overlay is unaffected. |
| Navigation.FirstVisitOverlayOpensOnce | src/App.tsx:279-298 | With the intended effect, a first visit opens the overlay. Once it is closed, the next visit schedules nothing. |
| Navigation.OpenShortcuts | src/App.tsx:303-305 | The assistant's event opens the overlay and changes nothing else. |
| Navigation.OpenModelModal | src/App.tsx:308-317 | The event opens exactly the named model's dialog and leaves the others as they were. |
| Shortcuts.Mount | src/components/KeyboardShortcuts.tsx:10-24 | The overlay starts hidden. The timer is scheduled exactly when the `tutorialSeen` entry is not truthy, and then the tutorial counts as unseen. |
| Shortcuts.TimerFires | src/components/KeyboardShortcuts.tsx:14-20 | A scheduled timer shows the overlay. |
| Shortcuts.Close | src/components/KeyboardShortcuts.tsx:27-35 | Closing hides the overlay, marks the tutorial seen and stores "true". |
| Shortcuts.HandleKey | src/components/KeyboardShortcuts.tsx:38-103 | A key scrolls somewhere exactly when the overlay is hidden and the key is one of the shortcut letters, and then to that letter's section. Afterwards the overlay shows exactly when it already did or the key was `?`. Storage and the seen flag are never touched. |
| Shortcuts.EscapeKeepsOverlayOpen | src/components/KeyboardShortcuts.tsx:41 | Escape does not close a visible overlay. |
| Shortcuts.ModifiersIgnored | src/components/KeyboardShortcuts.tsx:43-94 | A shortcut letter navigates whatever modifiers are held. |
| Shortcuts.ClosingHidesForGood | src/components/KeyboardShortcuts.tsx:27-106 | After closing, the component renders nothing, on later visits too, and it stays that way under any key but `?`. |
| Shortcuts.FirstVisitLifecycle | src/components/KeyboardShortcuts.tsx:10-35 | A first visit shows the overlay when the timer fires. Once it is closed, a later visit renders nothing. |
| Theme.With | src/components/ThemeController.tsx:412 | The spread update sets the one field and keeps every other field. |
| Theme.Themes | src/components/ThemeController.tsx:39-252 | There are sixteen palettes: the fifteen fixed ones, then `custom` holding the custom colours. |
| Theme.ThemeIdsDistinct | src/components/ThemeController.tsx:39-252 | The palette ids are the listed sixteen, in order, and no id repeats. |
| Theme.Find | src/components/ThemeController.tsx:260 | `find` fails exactly when no palette has the id. Otherwise it returns the colours of the first palette with that id. |
| Theme.Palette | src/components/ThemeController.tsx:260 | The active palette is the one with the active id. An unknown id gives the default palette. |
| Theme.CustomPaletteIsCustomColors | src/components/ThemeController.tsx:247-251 | The `custom` palette is the custom colours. |
| Theme.CssVariables | src/components/ThemeController.tsx:263-269 | Seven variables are set, the i-th holding the i-th colour field. |
| Theme.FieldIndex | src/components/ThemeController.tsx:263-269 | Every colour field has a place among the seven. |
| Theme.CssVariablesCoverFields | src/components/ThemeController.tsx:263-269 | Each field gets exactly one variable, holding that field of the palette. Field and variable names do not repeat. |
| Theme.UnknownThemeFallsBack | src/components/ThemeController.tsx:260 | An unknown theme id sets the same variables as `default`. |
| Theme.IdOf | src/components/ThemeController.tsx:39-252 | Every palette constructor names a listed id. |
| Theme.ThemeOrderMatchesIds | src/components/ThemeController.tsx:39-252 | The constructors list the palettes' ids in picker order. |
| Theme.FilterFromMembers | src/components/ThemeController.tsx:512-519 | The filter keeps exactly the shown palettes and never lengthens the list. |
| Theme.FilterThemesMembers | src/components/ThemeController.tsx:512-519 | A palette is kept exactly when the picker's predicate accepts its id. |
| Theme.ShownThemeAgrees | src/components/ThemeController.tsx:513-518 | The predicate on constructors agrees with the picker's predicate on ids. |
| Theme.AllCategory | src/components/ThemeController.tsx:514 | `all` shows all sixteen palettes in order. |
| Theme.LightCategory | src/components/ThemeController.tsx:515 | `light` shows only the light palette. |
| Theme.DarkCategory | src/components/ThemeController.tsx:516 | `dark` shows every palette except `light` and `custom`, in order. |
| Theme.ColorfulCategory | src/components/ThemeController.tsx:517 | `colorful` shows exactly the seven listed palettes, in picker order. |
| Theme.Load | src/components/ThemeController.tsx:382-397 | A truthy saved theme id is restored. Only then are saved colours that parse restored. Otherwise the defaults stay. Storage is not written. |
| Theme.SaveTheme | src/components/ThemeController.tsx:400-408 | The id is activated and stored. The custom colours are stored exactly when the id is `custom`. |
| Theme.ColorChange | src/components/ThemeController.tsx:411-422 | The one colour field changes and the others are kept. The colours are stored exactly when `custom` is active. |
| Theme.CustomThemeSurvivesReload | src/components/ThemeController.tsx:382-422 | Choosing `custom` and editing a colour is exactly what the next visit loads. |
| Theme.HexRun | src/components/ThemeController.tsx:373 | The longest prefix of hex digits: every character in it is a digit and the next one is not. |
| Theme.HexRunAll | src/components/ThemeController.tsx:373 | A string of hex digits is entirely its own run. |
| Theme.TrimStart | src/components/ThemeController.tsx:373 | The trimmed string is a suffix of the input that does not start with white space. |
| Theme.ParseHexDigits | src/components/ThemeController.tsx:373 | `parseInt(s, 16)` of a non-empty string of hex digits is the number it denotes. |
| Theme.ByteAt | src/components/ThemeController.tsx:374-376 | A shift and mask always gives a byte. |
| Theme.StripHash | src/components/ThemeController.tsx:370 | At most one leading `#` is removed. |
| Theme.HexToRgb | src/components/ThemeController.tsx:368-379 | Every component is a byte. A string that does not parse gives black. |
| Theme.HexChar | src/components/ThemeController.tsx:368-379 | The digit written for a value below sixteen reads back as that value. |
| Theme.HexDigitsOfColour | src/components/ThemeController.tsx:368-379 | The six digits written for a colour are hex digits and denote its 24-bit number. |
| Theme.ToHex | src/components/ThemeController.tsx:368-379 | The `#rrggbb` form has seven characters and starts with `#`. |
| Theme.ToHexParses | src/components/ThemeController.tsx:370-373 | Stripping and parsing the `#rrggbb` form gives the colour's 24-bit number. |
| Theme.HexRoundTrip | src/components/ThemeController.tsx:368-379 | `hexToRgb` inverts the `#rrggbb` encoding of every colour. |
| Theme.HexToRgbOfColour | src/components/ThemeController.tsx:368-379 | Any string that parses to a colour's 24-bit number converts back to that colour. |
| Theme.HexToRgbOfValue | src/components/ThemeController.tsx:373-376 | A string that parses to `v` converts to the low three bytes of `v`. |
| Theme.ShorthandNotExpanded | src/components/ThemeController.tsx:368-379 | The three-digit form `#fff` is not expanded: it gives (0, 15, 255), not white. |
| Cursor.Resize | src/components/CursorEffect.tsx:13-15 | The mobile flag is set exactly when the window is at most 768 pixels wide. Nothing else changes. |
| Cursor.EffectsRun | src/components/CursorEffect.tsx:27-66 | After a render the effects re-install the listeners: none on mobile, otherwise a `mousemove` listener holding the current count and the press and release listeners. Nothing else changes. |
| Cursor.Mount | src/components/CursorEffect.tsx:4-50 | Mounting starts with an empty trail and count 0. The mobile flag follows the width, and outside mobile the listener holds count 0. |
| Cursor.Move | src/components/CursorEffect.tsx:29-42 | Without a `mousemove` listener nothing changes. Otherwise the mouse moves, the counter grows by one, and the new position goes in front tagged with the count the listener captured. At most fifteen earlier positions are kept, as a prefix of the old trail. |
| Cursor.Press | src/components/CursorEffect.tsx:54-56 | While the press listener is installed, a press switches to the click variant. Otherwise nothing changes. |
| Cursor.Release | src/components/CursorEffect.tsx:54-57 | While the release listener is installed, a release switches back to the default variant. Otherwise nothing changes. |
| Cursor.RingOf | src/components/CursorEffect.tsx:68-82 | Nothing is drawn exactly on mobile. The ring sits 16 pixels up and left of the mouse, at scale 0.8 exactly for a click and 1 exactly for the default. |
| Cursor.PressReleaseRestores | src/components/CursorEffect.tsx:56-57 | A press followed by a release leaves the cursor as it was. |
| Cursor.StaleListenerRepeatsId | src/components/CursorEffect.tsx:36-50 | Moves handled before a re-render all tag their points with the one count the listener captured, while the counter still grows by one per move. |
| Cursor.TwoQuickMovesShareId | src/components/CursorEffect.tsx:36-50 | Two moves right after mounting both carry id 0, and the counter ends at 2. |
| Cursor.TrailIsLatestPositions | src/components/CursorEffect.tsx:37-50 | When a re-render re-installs the listener after every move, the trail from empty holds the latest (at most sixteen) positions, newest first, each tagged with its move number. |
| Cursor.MoveAllKeepsMobile | src/components/CursorEffect.tsx:27-50 | Moves never change the mobile flag. |
| Cursor.MoveAllSnoc | src/components/CursorEffect.tsx:31-42 | Running moves then one more is running the longer list. |
| Cursor.TrailBounded | src/components/CursorEffect.tsx:39-42 | The trail never grows past sixteen entries. |
| TechStack.FilterItems | src/components/TechStackChart.tsx:78-80 | The filter keeps exactly the items of the active category, in order. `all` keeps everything. |
| TechStack.FilterItemsAppend | src/components/TechStackChart.tsx:78-80 | Filtering distributes over concatenation. |
| TechStack.Compact | src/components/TechStackChart.tsx:83 | The compact chart is a prefix of the filtered items, of length min(6, count). |
| TechStack.MoreButton | src/components/TechStackChart.tsx:230-236 | The "View N More" button appears exactly when more than six items pass, and N is the excess. |
| TechStack.CompactAndMoreCoverFiltered | src/components/TechStackChart.tsx:83-236 | The compact items followed by the N counted ones are exactly the filtered items. |
| TechStack.ShippedChartButtons | src/components/TechStackChart.tsx:39-66 | With the shipped data, only `all` shows the button, as "View 13 More". |
| TechStack.ChartRuns | src/components/TechStackChart.tsx:39-66 | The chart's nineteen items come as runs of 4, 5, 5 and 5 items, one run per category. |
| TechStack.FourBlocks | src/components/TechStackChart.tsx:78-80 | Filtering data laid out in four category runs gives exactly that category's run. |
| TechStack.BlockCount | src/components/TechStackChart.tsx:78-80 | A run of one category passes whole for that category and not at all for another. |
| TechStack.ExpandedIsChartMinusThree | src/components/ExpandedTechStackView.tsx:15-40 | The expanded view's list is the chart's without Firebase, Hugging Face and Cloudinary, in the same order. |
| TechStack.Describe | src/components/ExpandedTechStackView.tsx:203-227 | A name with an entry gets its entry. A name without one that `Object.prototype` carries gets that inherited member, not a sentence. Any other name gets the fallback sentence. A sentence is never empty. |
| TechStack.InheritedExactlyForPrototypeKeys | src/components/ExpandedTechStackView.tsx:203-227 | An inherited member comes back exactly for the `Object.prototype` names, since no technology shares one. |
| TechStack.FallbackExactlyForUnknownNames | src/components/ExpandedTechStackView.tsx:203-227 | The fallback sentence is shown exactly for names that have no entry and are not `Object.prototype` members. |
| TechStack.DescriptionsAreNotFallback | src/components/ExpandedTechStackView.tsx:204-225 | No entry is empty or equal to the fallback sentence. |
| TechStack.EveryShownItemDescribed | src/components/ExpandedTechStackView.tsx:15-227 | Every technology on either list has its own entry, so the fallback is never shown. |
| Partners.WithScore | src/components/ExpandedAIPartnersView.tsx:155 | A score group holds only entries with that score. |
| Partners.Insert | src/components/ExpandedAIPartnersView.tsx:155 | Insertion adds one entry. |
| Partners.InsertAt | src/components/ExpandedAIPartnersView.tsx:155 | The entry lands just before the first entry that scores less. |
| Partners.InsertMultiset | src/components/ExpandedAIPartnersView.tsx:155 | Insertion adds exactly one copy of the entry. |
| Partners.InsertSorted | src/components/ExpandedAIPartnersView.tsx:155 | Insertion keeps a descending list descending. |
| Partners.InsertGroups | src/components/ExpandedAIPartnersView.tsx:155 | Insertion appends the entry to the end of its own score group and leaves the other groups alone. |
| Partners.RankFromStable | src/components/ExpandedAIPartnersView.tsx:155 | Inserting the rest of the list into a sorted prefix gives a descending permutation, with each score group in original order. |
| Partners.RankIsStable | src/components/ExpandedAIPartnersView.tsx:155 | `sort((a, b) => b.m - a.m)` is a stable descending sort of its input. |
| Partners.StableSortUnique | src/components/ExpandedAIPartnersView.tsx:155 | Two descending lists with the same score groups are equal, so the stable sort is determined by its input. |
| Partners.SameGroupsSameLength | src/components/ExpandedAIPartnersView.tsx:155 | Lists with the same score groups are permutations of each other. |
| Partners.Take | src/components/ExpandedAIPartnersView.tsx:218 | `slice(0, k)` is a prefix of length min(k, n). |
| Partners.TopAreLeaders | src/components/ExpandedAIPartnersView.tsx:272 | Every entry taken from the front of a ranking scores at least as much as every entry left behind. |
| Partners.ShippedRanking | src/components/ExpandedAIPartnersView.tsx:16-272 | The shipped efficiency ranking, spelt out, keeps source order on ties. The feature cards are its first four and the leader board its first three. |
| Partners.ShippedAccuracyLeaders | src/components/ExpandedAIPartnersView.tsx:286 | The accuracy leader board is Gemini 2.5 Pro, then GPT-4o and Claude 3.7 Sonnet, in source order. |
| Partners.ScoresArePercentages | src/components/ExpandedAIPartnersView.tsx:185-199 | Every bar width lies between 0% and 100%, in either ranking. |
| Docs.FilterSections | src/components/PremiumDocs.tsx:200-202 | The sidebar keeps exactly the sections whose lower-cased label contains the lower-cased query, in order. An empty query keeps all. |
| Docs.FilterIgnoresCase | src/components/PremiumDocs.tsx:200-202 | Queries that lower-case alike select the same sections. |
| Docs.EmptyQueryKeepsAll | src/components/PremiumDocs.tsx:10-18 | An empty search shows all seven sections. |
| Docs.Search | src/components/PremiumDocs.tsx:212 | Typing changes the query only. |
| Docs.Select | src/components/PremiumDocs.tsx:226 | Clicking changes the active section only. |
| Docs.FilteredOutStillShown | src/components/PremiumDocs.tsx:225-255 | A search that matches nothing empties the sidebar, while the active section stays displayed. |
| Docs.LongQueryMatchesNothing | src/components/PremiumDocs.tsx:200-202 | A query longer than a section's title is never a substring of it, so that section is filtered out. |
| Docs.NothingMatches | src/components/PremiumDocs.tsx:200-202 | When no section's label contains the query, the sidebar list is empty. |
| Docs.TitlesAreShort | src/components/PremiumDocs.tsx:10-18 | No section title is longer than 15 characters. |
| Docs.Copy | src/components/PremiumDocs.tsx:193-197 | A copy records that snippet as the copied one. |
| Docs.CopyTimerFires | src/components/PremiumDocs.tsx:196 | The timer clears the indicator, whichever snippet it shows. |
| Docs.CopyMarksExactlyThatBlock | src/components/PremiumDocs.tsx:193-278 | Right after a copy, exactly the copied block shows the check. |
| Docs.EarlierTimerClearsLaterCopy | src/components/PremiumDocs.tsx:196 | Timers are not cancelled: the first copy's timer also clears a later copy's check. |
| Register.Validate | src/components/RegisterModal.tsx:22-30 | A blank address is reported as missing. Otherwise it is reported as invalid exactly when it lacks an `@` or a `.`. It passes exactly when neither message applies. |
| Register.PassingAddress | src/components/RegisterModal.tsx:22-30 | An address passes exactly when it holds an `@` and a `.` somewhere. |
| Register.BlankReportedFirst | src/components/RegisterModal.tsx:22-25 | Spaces are reported as missing, not invalid. |
| Register.WeakCheck | src/components/RegisterModal.tsx:27-39 | `@.` passes, and the name plays no part in the check. |
| Register.Submit | src/components/RegisterModal.tsx:18-39 | The address and name are posted exactly when the check passes. Otherwise the check's message is set and nothing is sent. |
| Register.Answer | src/components/RegisterModal.tsx:46-59 | An OK answer marks the form submitted and clears the error. Any other outcome sets the failure message. What was typed is kept. |
| Register.Close | src/components/RegisterModal.tsx:62-71 | Closing resets the form exactly after a successful submission. |
| Register.SubmitRounds | src/components/RegisterModal.tsx:18-71 | After an OK answer, closing returns the initial form. A failed answer keeps what was typed and reports the problem. |
| ImageRecognition.ChooseFile | src/components/ImageRecognition.tsx:30-52 | No file does nothing. The type is checked before the size, each with its message. The file is read exactly when it is an image of at most 10 MiB, and then the error is cleared. |
| ImageRecognition.ImageRead | src/components/ImageRecognition.tsx:48-50 | The read data URL becomes the image. Nothing else changes. |
| ImageRecognition.SizeBoundary | src/components/ImageRecognition.tsx:41 | Exactly 10 MiB is accepted and one byte more is refused. A non-image is refused on its type. |
| ImageRecognition.ChoosePrompt | src/components/ImageRecognition.tsx:63 | The prompt is the first non-empty of the selected prompt, the custom prompt and the default. It is never empty. |
| ImageRecognition.Analyze | src/components/ImageRecognition.tsx:55-90 | Without an image or key nothing happens. Otherwise loading starts, result and error clear, and the request carries the chosen prompt and the image's MIME type and payload. |
| ImageRecognition.DataUrlSplits | src/components/ImageRecognition.tsx:67-84 | For a `data:<mime>;base64,<payload>` URL the request carries exactly that MIME type and payload. |
| ImageRecognition.Complete | src/components/ImageRecognition.tsx:100-114 | An answer is shown as the result. An error shows its own message, or the fixed fallback when that is empty. Loading stops either way. |
| ImageRecognition.Clear | src/components/ImageRecognition.tsx:118-121 | Clearing removes the image, result and error. |
| ImageRecognition.ClearedCannotAnalyze | src/components/ImageRecognition.tsx:56-121 | After clearing, analysing sends nothing. |
| Playground.CaptureEnd | src/components/CodePlayground.tsx:38 | The lazy capture ends at the first quote followed by `)`. It is non-empty and crosses no line terminator. |
| Playground.LogMatches | src/components/CodePlayground.tsx:38-39 | Every capture is non-empty with no line terminator. Captures exist only if the code contains `console.log(`. |
| Playground.NoQuotesNoMatches | src/components/CodePlayground.tsx:38 | Code without a quote character has no captures. |
| Playground.SimpleCallEchoed | src/components/CodePlayground.tsx:38-44 | A quoted literal inside a call is captured, followed by the captures of the rest. |
| Playground.CaptureAt | src/components/CodePlayground.tsx:38 | The capture closes at the first quote followed by `)`. |
| Playground.LogLines | src/components/CodePlayground.tsx:42-44 | One output line per capture, in order, and nothing else. |
| Playground.InOrderAppend | src/components/CodePlayground.tsx:33-90 | Output parts appended in rule order stay in rule order. |
| Playground.Scan | src/components/CodePlayground.tsx:34-76 | Each flag is the corresponding `includes` test of the code. |
| Playground.ConsoleBlocks | src/components/CodePlayground.tsx:34-47 | The header appears exactly when the code mentions `console.log`. Each capture is echoed exactly then. The "none found" line appears exactly when, in addition, there is no capture. |
| Playground.ScriptOrder | src/components/CodePlayground.tsx:33-61 | The console blocks, then the training block, then the model-created block come out in rule order. |
| Playground.ScriptBlocksPresent | src/components/CodePlayground.tsx:33-61 | Each JavaScript block is present exactly when its phrase occurs. |
| Playground.ScriptBlocksEcho | src/components/CodePlayground.tsx:41-44 | The echoed lines are exactly the captures, under the header. |
| Playground.ShellBlocks | src/components/CodePlayground.tsx:62-84 | Each shell block is present exactly when its command occurs, in source order. |
| Playground.Build | src/components/CodePlayground.tsx:33-90 | The output is never empty and keeps rule order. The default message appears exactly when it stands alone, and that is exactly when no rule of the language applies. |
| Playground.BuildScriptPresent | src/components/CodePlayground.tsx:33-61 | JavaScript blocks appear only for JavaScript or TypeScript, each exactly when its phrase occurs. |
| Playground.BuildEcho | src/components/CodePlayground.tsx:33-47 | Captures are echoed only for JavaScript or TypeScript code that mentions `console.log`. |
| Playground.RunBlocks | src/components/CodePlayground.tsx:22-99 | A run's output is non-empty and in rule order. The default message stands alone when present. |
| Playground.RunRules | src/components/CodePlayground.tsx:33-84 | Each block is present exactly when the language and the `includes` test of its rule hold. "None found" appears exactly when the code mentions `console.log` without a capture. |
| Playground.RunEcho | src/components/CodePlayground.tsx:34-44 | A line is echoed exactly when it is a capture of JavaScript or TypeScript code mentioning `console.log`. |
| Playground.DefaultExactlyWhenNothingApplies | src/components/CodePlayground.tsx:86-90 | The run gives only the default message exactly when no rule of its language applies. |
| Playground.ConsoleFirst | src/components/CodePlayground.tsx:34-47 | Mentioning `console.log` without a capture starts the output with the header and the "none found" line. |
| Playground.NoQuotesNoEcho | src/components/CodePlayground.tsx:38-44 | Code without a quote character never echoes anything. |
| Playground.BashIgnoresJavaScriptRules | src/components/CodePlayground.tsx:62-84 | Bash code never gets JavaScript blocks. |
| Playground.Extension | src/components/CodePlayground.tsx:110 | `ts`, `js` and `sh` correspond one to one to TypeScript, JavaScript and Bash. |
| Playground.DownloadName | src/components/CodePlayground.tsx:115 | The file is named `synthara-example.` followed by the extension. |
| Playground.DownloadNamesDistinct | src/components/CodePlayground.tsx:110-115 | The three languages download under three different names. |
| PlaygroundOutput.BlockText | src/components/CodePlayground.tsx:35-89 | Every block contributes some text. |
| PlaygroundOutput.RenderAppend | src/components/CodePlayground.tsx:31-90 | The output text is built by appending, so rendering distributes over concatenation. |
| PlaygroundOutput.Output | src/components/CodePlayground.tsx:22-99 | The text shown after a run is never empty. |
| PlaygroundOutput.ConsoleWithoutLiteral | src/components/CodePlayground.tsx:34-47 | Code mentioning `console.log` without a quoted call prints the header and then the "none found" line. |
| ImageGeneration.FieldOf | src/services/ImageGenerationService.ts:68-70 | An object gives `url`, `image_url` or `imageUrl`, the first that is truthy, and nothing exactly when none is. |
| ImageGeneration.JsonScanFindsFirst | src/services/ImageGenerationService.ts:64-75 | The loop finds a value exactly when some object with a truthy field is preceded only by objects that parsed without one. It returns that object's field. |
| ImageGeneration.UnparsableAbandonsRest | src/services/ImageGenerationService.ts:66-75 | A piece that does not parse ends the search: nothing after it is looked at. |
| ImageGeneration.FirstFoundIsEarliest | src/services/ImageGenerationService.ts:49-77 | The first finding is the earliest try that found something. Nothing is found exactly when every try fails. |
| ImageGeneration.ExtractImageUrl | src/services/ImageGenerationService.ts:46-78 | The first strategy that finds something gives the result, in the order markdown, URL, base64, JSON. When none finds anything it throws "No valid image data found in response". |
| ImageGeneration.CascadeOrder | src/services/ImageGenerationService.ts:49-77 | A markdown target wins over everything, then a direct URL, then base64, then the JSON search. |
| ImageGeneration.GenerateImage | src/services/ImageGenerationService.ts:80-113 | Without a session it throws "not initialized". A result is returned exactly when the reply is non-empty, extraction succeeds with a string, and that string starts with `http` or `data:image`. The result is the extracted string. Every other failure becomes "Failed to generate image. Please try again.". |
| ImageGeneration.EmptyReplyFails | src/services/ImageGenerationService.ts:94-96 | An empty reply fails, whatever the searches found. |
| ImageGeneration.RelativeMarkdownRejected | src/services/ImageGenerationService.ts:50-51 | A relative markdown target is taken before any other strategy and then rejected, even when a valid URL follows. |
| ImageGeneration.BrokenObjectHidesLaterAddress | src/services/ImageGenerationService.ts:64-75 | An object that does not parse hides a usable address in a later object. |
| ImageGeneration.NumberAddressFails | src/services/ImageGenerationService.ts:68-105 | A truthy non-string field, such as a number, is extracted and then fails validation. |

## Left out

- Timers are not modelled as time, and the delays are not modelled. Some timers are separate transitions (`TimerFires`, `AutoOpen`, `CopyTimerFires`, `ShowKeyboardShortcuts`). Others are collapsed into the step that starts them: the assistant's one-second typing delay before each reply, the half-second wait before the name greeting, and the second wait inside `showKeyboardShortcuts`. So a message appears in the same step that asks for it, and no other transition can come in between.
- Randomness: the assistant's reply texts are picked at random from small pools. A reply is modelled by its category and option ids, not its wording.
- The assistant's guided tour (`startTour` and its chained timers) and the options' scroll actions are left out. They only drive the page.
- The network is not modelled. The Gemini calls, the form-service post and the image-recognition fetch are replaced by their outcomes.
- File reading, clipboard writes, the Blob download, speech recognition, sounds and animation are side effects with no logic of their own, so they are left out.
- Strings.ToLower: only ASCII letters are lower-cased. JavaScript's full Unicode case mapping is not modelled.
- GenAI.Zoom: the zoom factor is in integer tenths. JavaScript adds and subtracts 0.1 in floating point, so its drift is not modelled.
- Theme.Load: saved custom colours are modelled as parsed or unparsable. JSON text and its parser are left out.
- Theme.ParseHexDigits: `parseInt` is modelled on unbounded integers. The precision loss of large floating-point values is not modelled, and `ByteAt` takes the 32-bit form explicitly.
- The CSS override block and the `-rgb` variables built from `hexToRgb` are string templating, so they are left out.
- ImageGeneration.ExtractImageUrl: the results of the markdown, URL and base64 regular expressions are inputs, and so are the list of brace-delimited pieces and how each parses. The regular expressions themselves are not modelled.
- ImageGeneration.FieldOf: JSON numbers are integers, and only the three fields looked at are modelled.
- `generateHeroImage` and the wording of the enhanced prompt are left out. They only format a prompt for the same call.
- Playground: the `try`/`catch` around the simulated run is left out. None of the modelled operations throws.
- `src/components/AIPartnersChart.tsx`, `src/components/ImageGeneration.tsx` and `src/components/ExpandableContentModal.tsx` are presentation around the modelled logic, so they are left out.
- Partner colours, descriptions, features and use cases are display-only, so they are left out.
- The parent `onClose` callbacks and the dialogs' open flags belong to the parents, so they are left out.
- Markdown rendering (`parseMarkdown`) in the GenAI panel is left out.
- GenAI.SubmitPassword — models `handlePasswordSubmit` alone, so it also gives the error states for an empty entry. On the page the `required` attribute (src/components/GenAI.tsx:849) blocks that submission in the browser. `GenAI.SubmitPasswordForm` models the form with that gate. No other browser validation of the field is modelled.
- The browser's own checks on the registration e-mail field (`type="email"` and `required`, src/components/RegisterModal.tsx:144 and 153) are not modelled. Only the component's `validateEmail` is.
- Navigation.OpenShortcuts is the page's reaction to the assistant's event. The event itself is modelled as the `opensOverlay` flag of `Assistant.ShowKeyboardShortcuts`, and the two modules are not composed into one state.

## Findings

| source | as written | input that shows it | evidently intended | confidence | as-written member | corrected member |
|---|---|---|---|---|---|---|
| src/App.tsx:279-298 | The mark-seen effect runs on mount and stores the flag while the overlay is still closed. The flag change then cancels the first-visit timer. | A first visit with no `keyboardShortcutsSeen` entry: the overlay never opens, but storage records it as seen. | Mark the overlay seen when it is closed after being shown, so that the first visit shows it once. | not executed | Navigation.MountAsWritten, Navigation.FirstVisitOverlayNeverOpens | Navigation.MarkSeenOnClose, Navigation.FirstVisitOverlayOpensOnce |

=== FILE: assistant.dfy ===
/** The scripted chat assistant ("Synth"): the first non-blank submission is
    taken as the visitor's name; after that every submission is lower-cased
    and run through an ordered list of keyword rules, the first rule with a
    keyword occurring in the input choosing the reply. Replies are modelled
    by their category and the ids of the option buttons they carry; the
    phrase picked at random from a category's pool and the typing delay are
    not modelled. */
module Assistant {
  import opened Optional
  import opened Strings
  import opened Storage

  /** Reply categories of the classifier, one per rule, plus the two question
      replies and the default pool. */
  datatype Intent =
    | Greeting | Tour | GenAIOffer | ModelInfo | Shortcuts | Developer | Learning
    | Help | Thanks | Company | Capabilities | Negative | Compliment
    | TechQuestion | GeneralQuestion | Fallback

  datatype Rule = Rule(intent: Intent, keywords: seq<string>)

  /** The keyword rules, in the order they are tried. */
  const Rules: seq<Rule> := [
    Rule(Greeting, ["hello", "hi", "hey", "greetings", "howdy", "sup"]),
    Rule(Tour, ["tour", "show me", "guide", "walk", "explore"]),
    Rule(GenAIOffer, ["genai", "gemini api", "try gemini", "google ai", "chat with gemini"]),
    Rule(ModelInfo, ["model", "llama", "gemini", "grok", "ai", "language model", "ml"]),
    Rule(Shortcuts, ["keyboard", "shortcut", "hotkey", "key", "press", "command"]),
    Rule(Developer, ["developer", "code", "api", "sdk", "programming", "develop", "build", "create", "tech", "technology"]),
    Rule(Learning, ["doc", "documentation", "learn", "course", "tutorial", "guide", "how to", "example"]),
    Rule(Help, ["help", "assist", "support", "guidance", "confused", "lost", "what can you do"]),
    Rule(Thanks, ["thank", "thanks", "appreciate", "helpful", "awesome", "great", "good job"]),
    Rule(Company, ["who", "team", "company", "founder", "about", "devrel", "people"]),
    Rule(Capabilities, ["what can you do", "capabilities", "features", "function"]),
    Rule(Negative, ["not working", "broken", "stupid", "useless", "bad", "terrible", "hate", "sucks", "awful"]),
    Rule(Compliment, ["smart", "intelligent", "clever", "good", "amazing", "excellent", "love", "like"])
  ]

  /** Indexes of the rules in `Rules`. */
  const GreetingRule := 0
  const TourRule := 1
  const LearningRule := 6
  const HelpRule := 7
  const CompanyRule := 9
  const CapabilitiesRule := 10

  /** Beginnings that mark a question when no keyword rule fired. */
  const QuestionStarts: seq<string> := ["how", "what", "where", "when", "why", "who", "can"]

  /** Words that turn a question into a technical one. */
  const TechnicalWords: seq<string> := ["work", "use", "implement", "integrate", "setup", "configure", "install"]

  /** `containsAny`: some term occurs in the (already lower-cased) input. */
  predicate ContainsAny(lower: string, terms: seq<string>) {
    exists i :: 0 <= i < |terms| && Contains(lower, terms[i])
  }

  /** Rule `k` of a rule list fires on the lower-cased input. */
  predicate Fires(rules: seq<Rule>, lower: string, k: nat)
    requires k < |rules|
  {
    ContainsAny(lower, rules[k].keywords)
  }

  /** Rule `k` fires and no earlier one does. */
  ghost predicate FirstToFire(rules: seq<Rule>, lower: string, k: nat)
    requires k < |rules|
  {
    Fires(rules, lower, k) && forall j :: 0 <= j < k ==> !Fires(rules, lower, j)
  }

  /** The question test applied once no keyword rule fired. */
  predicate IsQuestion(lower: string) {
    (exists i :: 0 <= i < |QuestionStarts| && StartsWith(lower, QuestionStarts[i]))
    || EndsWith(lower, "?")
  }

  /** The first rule at or after `from` that fires, if any. */
  function FirstFiring(rules: seq<Rule>, lower: string, from: nat): (r: Option<nat>)
    requires from <= |rules|
    ensures r.Some? ==> from <= r.value < |rules| && Fires(rules, lower, r.value)
    ensures r.Some? ==> forall j :: from <= j < r.value ==> !Fires(rules, lower, j)
    ensures r.None? ==> forall j :: from <= j < |rules| ==> !Fires(rules, lower, j)
    decreases |rules| - from
  {
    if from == |rules| then None
    else if Fires(rules, lower, from) then Some(from)
    else FirstFiring(rules, lower, from + 1)
  }

  /** The three replies given when no keyword rule fires. */
  predicate CatchAll(intent: Intent) {
    intent == TechQuestion || intent == GeneralQuestion || intent == Fallback
  }

  /** The classifier for a given list of rules: the first firing rule's
      category, else a question reply or the fallback. */
  function ClassifyBy(rules: seq<Rule>, input: string): (r: Intent)
    ensures CatchAll(r) || exists k :: 0 <= k < |rules| && r == rules[k].intent
  {
    var lower := ToLower(input);
    match FirstFiring(rules, lower, 0)
    case Some(k) => rules[k].intent
    case None =>
      if IsQuestion(lower) then
        if ContainsAny(lower, TechnicalWords) then TechQuestion else GeneralQuestion
      else Fallback
  }

  /** `handleUserInput` as a classifier: the reply category for an input. */
  function Classify(input: string): Intent {
    ClassifyBy(Rules, input)
  }

  /** A rule list the classifier can be read back from: no two rules share
      a category, and no rule uses a catch-all one. */
  ghost predicate WellFormedRules(rules: seq<Rule>) {
    && (forall i, j :: 0 <= i < j < |rules| ==> rules[i].intent != rules[j].intent)
    && (forall i :: 0 <= i < |rules| ==> !CatchAll(rules[i].intent))
  }

  /** With well-formed rules, a rule's category is chosen exactly when that
      rule is the first to fire. */
  lemma ClassifyByRule(rules: seq<Rule>, input: string, k: nat)
    requires WellFormedRules(rules) && k < |rules|
    ensures ClassifyBy(rules, input) == rules[k].intent <==> FirstToFire(rules, ToLower(input), k)
  {
    var r := FirstFiring(rules, ToLower(input), 0);
    if r.Some? && r.value != k {
      if r.value < k {
        assert rules[r.value].intent != rules[k].intent;
      } else {
        assert rules[k].intent != rules[r.value].intent;
      }
    }
    if r.None? {
      assert !CatchAll(rules[k].intent);
    }
  }

  /** With well-formed rules, the catch-all replies are given exactly when no
      rule fires, split by the question test and the technical words. */
  lemma ClassifyByCatchAll(rules: seq<Rule>, input: string)
    requires WellFormedRules(rules)
    ensures var lower := ToLower(input);
            var none := forall k :: 0 <= k < |rules| ==> !Fires(rules, lower, k);
            && (CatchAll(ClassifyBy(rules, input)) <==> none)
            && (ClassifyBy(rules, input) == TechQuestion <==> none && IsQuestion(lower) && ContainsAny(lower, TechnicalWords))
            && (ClassifyBy(rules, input) == GeneralQuestion <==> none && IsQuestion(lower) && !ContainsAny(lower, TechnicalWords))
            && (ClassifyBy(rules, input) == Fallback <==> none && !IsQuestion(lower))
  {
    var r := FirstFiring(rules, ToLower(input), 0);
    if r.Some? {
      assert !CatchAll(rules[r.value].intent);
    }
  }

  /** The site's rules are well formed. */
  lemma RulesWellFormed()
    ensures WellFormedRules(Rules)
  {
    PositionsWellFormed(Rules);
  }

  /** Where each category's rule sits in the site's list; the catch-all
      categories come after the thirteen rules. */
  function RulePosition(intent: Intent): nat {
    match intent
    case Greeting => 0 case Tour => 1 case GenAIOffer => 2 case ModelInfo => 3
    case Shortcuts => 4 case Developer => 5 case Learning => 6 case Help => 7
    case Thanks => 8 case Company => 9 case Capabilities => 10 case Negative => 11
    case Compliment => 12 case TechQuestion => 13 case GeneralQuestion => 14 case Fallback => 15
  }

  /** A list whose rules sit at their categories' positions is well formed. */
  lemma PositionsWellFormed(rules: seq<Rule>)
    requires |rules| <= 13
    requires forall i :: 0 <= i < |rules| ==> RulePosition(rules[i].intent) == i
    ensures WellFormedRules(rules)
  {
  }

  /** Each of the site's keyword rules decides the reply exactly when it is
      the first to fire. */
  lemma ClassifyRule(input: string, k: nat)
    requires k < |Rules|
    ensures Classify(input) == Rules[k].intent <==> FirstToFire(Rules, ToLower(input), k)
  {
    RulesWellFormed();
    ClassifyByRule(Rules, input, k);
  }

  /** The site's question replies and fallback are given exactly when none of
      its rules fires. */
  lemma ClassifyCatchAll(input: string)
    ensures var lower := ToLower(input);
            var none := forall k :: 0 <= k < |Rules| ==> !Fires(Rules, lower, k);
            && (CatchAll(Classify(input)) <==> none)
            && (Classify(input) == TechQuestion <==> none && IsQuestion(lower) && ContainsAny(lower, TechnicalWords))
            && (Classify(input) == GeneralQuestion <==> none && IsQuestion(lower) && !ContainsAny(lower, TechnicalWords))
            && (Classify(input) == Fallback <==> none && !IsQuestion(lower))
  {
    RulesWellFormed();
    ClassifyByCatchAll(Rules, input);
  }

  // ---------------------------------------------------------------------------
  // Reply options
  // ---------------------------------------------------------------------------

  /** `getMainOptions`: the ids of the five main option buttons. */
  const MainOptions: seq<string> := ["tour", "models", "developer", "shortcuts", "genai"]

  /** The options offered after the visitor gives their name (a different
      set and order from the main options: no GenAI entry). */
  const NameGreetingOptions: seq<string> := ["tour", "models", "shortcuts", "developer"]

  /** The option ids attached to the reply of each category. */
  function OptionsFor(intent: Intent): seq<string> {
    match intent
    case Greeting => MainOptions
    case Tour => []
    case GenAIOffer => ["genai", "more-info"]
    case ModelInfo => ["llama", "gemini", "grok"]
    case Shortcuts => []
    case Developer => ["dev-tools", "cli-tools", "tech-stack"]
    case Learning => ["docs", "courses", "config"]
    case Help => MainOptions
    case Thanks => MainOptions
    case Company => ["founder", "connect"]
    case Capabilities => MainOptions
    case Negative => MainOptions
    case Compliment => MainOptions
    case TechQuestion => ["docs", "developer", "config"]
    case GeneralQuestion => MainOptions
    case Fallback => MainOptions
  }

  /** Which categories carry the main options: the conversational ones and
      the two catch-all replies, and no others. */
  lemma MainOptionsCategories(intent: Intent)
    ensures OptionsFor(intent) == MainOptions <==>
      intent in {Greeting, Help, Thanks, Capabilities, Negative, Compliment, GeneralQuestion, Fallback}
  {
  }

  // ---------------------------------------------------------------------------
  // Conversation state
  // ---------------------------------------------------------------------------

  datatype ReplyKind =
    | NameGreeting(name: string)
    | IntentReply(intent: Intent)
    | WelcomeBack(name: string)
    | FirstTimeGreeting
    | ShortcutsIntro
    | ShortcutsToggleHint

  datatype Message =
    | UserMessage(text: string)
    | AiMessage(kind: ReplyKind, options: seq<string>)

  datatype AssistantState = AssistantState(
    isOpen: bool,
    messages: seq<Message>,
    userName: Option<string>,
    hasInteracted: bool,
    store: Store)

  const UserNameKey := "userName"

  /** `!userName`: no name, or the empty one. */
  predicate NameKnown(st: AssistantState) {
    st.userName.Some? && st.userName.value != ""
  }

  /** `handleSubmit`: ignore blank input; otherwise record the user turn and
      either capture the name or answer with the classified category. */
  function Submit(st: AssistantState, input: string): (st': AssistantState)
    ensures IsBlank(input) ==> st' == st
    ensures !IsBlank(input) ==>
              |st'.messages| == |st.messages| + 2
              && st'.messages[..|st.messages|] == st.messages
              && st'.messages[|st.messages|] == UserMessage(input)
    ensures !IsBlank(input) && !NameKnown(st) ==>
              st'.userName == Some(input)
              && st'.store == st.store[UserNameKey := input]
              && st'.messages[|st.messages| + 1] == AiMessage(NameGreeting(input), NameGreetingOptions)
    ensures !IsBlank(input) && NameKnown(st) ==>
              st'.userName == st.userName && st'.store == st.store
              && st'.messages[|st.messages| + 1] == AiMessage(IntentReply(Classify(input)), OptionsFor(Classify(input)))
    ensures st'.isOpen == st.isOpen && st'.hasInteracted == st.hasInteracted
  {
    if IsBlank(input) then st
    else
      var withUser := st.messages + [UserMessage(input)];
      if !NameKnown(st) then
        st.(userName := Some(input),
            store := st.store[UserNameKey := input],
            messages := withUser + [AiMessage(NameGreeting(input), NameGreetingOptions)])
      else
        var c := Classify(input);
        st.(messages := withUser + [AiMessage(IntentReply(c), OptionsFor(c))])
  }

  /** The shortcuts category is the one reply that schedules more: a second
      later `showKeyboardShortcuts` runs. */
  predicate SchedulesShortcutsFollowUp(st: AssistantState, input: string) {
    !IsBlank(input) && NameKnown(st) && Classify(input) == Shortcuts
  }

  /** What `showKeyboardShortcuts` leaves behind: the transcript, and whether
      it asked the page to open the shortcuts overlay. */
  datatype FollowUp = FollowUp(state: AssistantState, opensOverlay: bool)

  /** `showKeyboardShortcuts`: two more assistant lines, the second together
      with the `openKeyboardShortcuts` event. The timers between them are
      collapsed into this one step. */
  function ShowKeyboardShortcuts(st: AssistantState): (r: FollowUp)
    ensures r.opensOverlay
    ensures r.state.messages == st.messages + [AiMessage(ShortcutsIntro, []), AiMessage(ShortcutsToggleHint, [])]
    ensures r.state == st.(messages := r.state.messages)
  {
    FollowUp(st.(messages := st.messages + [AiMessage(ShortcutsIntro, []), AiMessage(ShortcutsToggleHint, [])]), true)
  }

  /** Asking about shortcuts, once the name is known, ends with four new
      lines — the question, the category reply (no option buttons), the
      introduction and the toggle hint — and with the overlay opened; the
      name and storage are untouched. */
  lemma ShortcutsRequestOpensOverlay(st: AssistantState, input: string)
    requires SchedulesShortcutsFollowUp(st, input)
    ensures var r := ShowKeyboardShortcuts(Submit(st, input));
            && r.opensOverlay
            && r.state.messages == st.messages + [UserMessage(input), AiMessage(IntentReply(Shortcuts), []),
                                                  AiMessage(ShortcutsIntro, []), AiMessage(ShortcutsToggleHint, [])]
            && r.state.userName == st.userName && r.state.store == st.store
  {
    var s1 := Submit(st, input);
    assert s1.messages == st.messages + [UserMessage(input), AiMessage(IntentReply(Shortcuts), [])];
  }

  /** `toggleAssistant`: flips the panel; opening it on an empty transcript
      greets the visitor, by the saved name when there is one. */
  function Toggle(st: AssistantState): (st': AssistantState)
    ensures st'.isOpen == !st.isOpen && st'.hasInteracted
    ensures st'.store == st.store
    ensures (st.isOpen || |st.messages| > 0) ==>
              st'.messages == st.messages && st'.userName == st.userName
    ensures !st.isOpen && |st.messages| == 0 && Truthy(GetItem(st.store, UserNameKey)) ==>
              st'.userName == Some(st.store[UserNameKey])
              && st'.messages == [AiMessage(WelcomeBack(st.store[UserNameKey]), MainOptions)]
    ensures !st.isOpen && |st.messages| == 0 && !Truthy(GetItem(st.store, UserNameKey)) ==>
              st'.userName == st.userName
              && st'.messages == [AiMessage(FirstTimeGreeting, [])]
  {
    var flipped := st.(isOpen := !st.isOpen, hasInteracted := true);
    if !st.isOpen && |st.messages| == 0 then
      var saved := GetItem(st.store, UserNameKey);
      if Truthy(saved) then
        flipped.(userName := saved, messages := [AiMessage(WelcomeBack(saved.value), MainOptions)])
      else
        flipped.(messages := [AiMessage(FirstTimeGreeting, [])])
    else flipped
  }

  /** The five-second timer started on mount opens the assistant unless the
      visitor already toggled it. */
  function AutoOpen(st: AssistantState): (st': AssistantState)
    ensures st.hasInteracted ==> st' == st
    ensures !st.hasInteracted ==> st'.isOpen == !st.isOpen && st'.hasInteracted
  {
    if st.hasInteracted then st else Toggle(st)
  }

  /** A name given once is remembered: on the next visit (a fresh, closed
      assistant over the same storage) opening the panel, by hand or by the
      timer, welcomes the visitor back under exactly the text they typed. */
  lemma NameRememberedNextVisit(st: AssistantState, input: string)
    requires !IsBlank(input) && !NameKnown(st)
    ensures var next := AssistantState(false, [], None, false, Submit(st, input).store);
            && Toggle(next).userName == Some(input)
            && Toggle(next).messages == [AiMessage(WelcomeBack(input), MainOptions)]
            && AutoOpen(next) == Toggle(next)
  {
    var store := Submit(st, input).store;
    assert store[UserNameKey] == input;
    assert input != "";
  }

  // ---------------------------------------------------------------------------
  // Properties of the classifier
  // ---------------------------------------------------------------------------

  /** Only the lower-cased form of the input matters. */
  lemma ClassifyCaseInsensitive(a: string, b: string)
    requires ToLower(a) == ToLower(b)
    ensures Classify(a) == Classify(b)
  {
  }

  /** In particular, lower-casing the input first changes nothing. */
  lemma ClassifyOfLower(input: string)
    ensures Classify(ToLower(input)) == Classify(input)
  {
    ToLowerIdempotent(input);
    ClassifyCaseInsensitive(ToLower(input), input);
  }

  /** First match wins: a rule whose keyword occurs in the input decides the
      reply unless an earlier rule already fired, so the chosen rule is never
      later than any firing one. */
  lemma FirstMatchWins(input: string, k: nat, t: string)
    requires k < |Rules| && t in Rules[k].keywords && Contains(ToLower(input), t)
    ensures exists j :: 0 <= j <= k && Classify(input) == Rules[j].intent && FirstToFire(Rules, ToLower(input), j)
  {
    var lower := ToLower(input);
    var i :| 0 <= i < |Rules[k].keywords| && Rules[k].keywords[i] == t;
    assert Fires(Rules, lower, k);
    var r := FirstFiring(Rules, lower, 0);
    assert r.Some?;
    assert FirstToFire(Rules, lower, r.value);
  }

  /** Shadowing: when a keyword of rule `k` occurs and some keyword of an
      earlier rule `j` occurs inside it, rule `k` cannot be the one chosen. */
  lemma Shadowed(input: string, j: nat, k: nat, t: string, u: string)
    requires j < k < |Rules|
    requires t in Rules[k].keywords && u in Rules[j].keywords && Contains(t, u)
    requires Contains(ToLower(input), t)
    ensures Classify(input) != Rules[k].intent
  {
    var lower := ToLower(input);
    ContainsTransitive(lower, t, u);
    var i :| 0 <= i < |Rules[j].keywords| && Rules[j].keywords[i] == u;
    assert Fires(Rules, lower, j);
    assert !FirstToFire(Rules, lower, k);
    ClassifyRule(input, k);
  }

  /** Any input containing "hi" (such as "which" or "this") is a greeting. */
  lemma HiIsGreeting(input: string)
    requires Contains(ToLower(input), "hi")
    ensures Classify(input) == Greeting
  {
    var lower := ToLower(input);
    assert Rules[GreetingRule].keywords[1] == "hi";
    assert FirstToFire(Rules, lower, GreetingRule);
  }

  lemma WhichIsGreeting()
    ensures Classify("which") == Greeting
  {
    assert ToLower("which") == "which";
    assert Contains("which", "hi") by {
      assert "which"[1..] == "hich";
      assert StartsWith("hich", "hi");
    }
    HiIsGreeting("which");
  }

  /** The capabilities rule never answers "what can you do": the help rule
      lists the same phrase and is tried first. */
  lemma WhatCanYouDoIsNeverCapabilities(input: string)
    requires Contains(ToLower(input), "what can you do")
    ensures Classify(input) != Capabilities
  {
    ContainsSelf("what can you do");
    assert Rules[CapabilitiesRule].keywords[0] == "what can you do";
    assert Rules[HelpRule].keywords[6] == "what can you do";
    Shadowed(input, HelpRule, CapabilitiesRule, "what can you do", "what can you do");
  }

  /** "guide" is listed by the learning rule too, but the tour rule comes
      first, so no input containing "guide" gets the learning reply through
      that keyword; the word alone is a tour request. */
  lemma GuideIsNeverLearning(input: string)
    requires Contains(ToLower(input), "guide")
    ensures Classify(input) != Learning
  {
    ContainsSelf("guide");
    assert Rules[LearningRule].keywords[5] == "guide";
    assert Rules[TourRule].keywords[2] == "guide";
    Shadowed(input, TourRule, LearningRule, "guide", "guide");
  }

  /** The word "guide" on its own is a tour request. */
  lemma GuideIsTour()
    ensures Classify("guide") == Tour
  {
    assert ToLower("guide") == "guide";
    ContainsSelf("guide");
    assert Rules[TourRule].keywords[2] == "guide";
    assert Fires(Rules, "guide", TourRule);
    forall i | 0 <= i < |Rules[GreetingRule].keywords|
      ensures !Contains("guide", Rules[GreetingRule].keywords[i])
    {
      var t := Rules[GreetingRule].keywords[i];
      assert |t| > |"guide"| || (|t| > 0 && t[0] !in "guide");
      if Contains("guide", t) {
        ContainsNecessary("guide", t);
        assert false;
      }
    }
    assert FirstToFire(Rules, "guide", TourRule);
  }

  /** Questions beginning with "who" never reach the question replies: the
      company rule lists "who" and fires first. */
  lemma WhoQuestionsAreCompany(input: string)
    requires StartsWith(ToLower(input), "who")
    ensures !CatchAll(Classify(input))
  {
    var lower := ToLower(input);
    StartsWithContains(lower, "who");
    assert Rules[CompanyRule].keywords[0] == "who";
    assert Fires(Rules, lower, CompanyRule);
    ClassifyCatchAll(input);
  }

  /** Totality in the strong sense: every input yields exactly one category,
      either the first firing rule's or one of the three catch-alls. */
  lemma ClassifyTotal(input: string)
    ensures (exists k :: 0 <= k < |Rules| && FirstToFire(Rules, ToLower(input), k) && Classify(input) == Rules[k].intent)
            || CatchAll(Classify(input))
  {
    var r := FirstFiring(Rules, ToLower(input), 0);
    if r.Some? {
      assert FirstToFire(Rules, ToLower(input), r.value);
    }
  }
}

=== FILE: cursor.dfy ===
/** The custom cursor: a ring that follows the mouse, shrinks while a
    button is held, and leaves a trail of the latest sixteen positions.
    Nothing of it exists on narrow (mobile) windows. */
module Cursor {
  import opened Optional

  const MobileMaxWidth := 768
  /** Previous positions kept behind the newest one. */
  const KeptPositions := 15
  const RingOffset := 16

  datatype Point = Point(x: int, y: int)
  datatype TrailPoint = TrailPoint(x: int, y: int, id: int)
  datatype Variant = DefaultVariant | ClickVariant

  /** The rendered state, plus what the effects have installed: the
      `mousemove` listener, holding the `trailCount` of the render whose
      effect installed it, and the press and release listeners. */
  datatype CursorState = CursorState(
    isMobile: bool,
    mouse: Point,
    variant: Variant,
    trail: seq<TrailPoint>,
    trailCount: int,
    moveListener: Option<int>,
    clickListeners: bool)

  /** The first render, before any effect has run. */
  const Initial := CursorState(false, Point(0, 0), DefaultVariant, [], 0, None, false)

  /** `checkMobile`, run on mount and on every resize. */
  function Resize(st: CursorState, innerWidth: int): (st': CursorState)
    ensures st'.isMobile <==> innerWidth <= MobileMaxWidth
    ensures st' == st.(isMobile := st'.isMobile)
  {
    st.(isMobile := innerWidth <= MobileMaxWidth)
  }

  /** The effects re-running after a render: the old listeners are removed
      and, outside mobile, new ones installed; the new `mousemove` listener
      captures the current `trailCount`. */
  function EffectsRun(st: CursorState): (st': CursorState)
    ensures st'.moveListener == (if st.isMobile then None else Some(st.trailCount))
    ensures st'.clickListeners <==> !st.isMobile
    ensures st' == st.(moveListener := st'.moveListener, clickListeners := st'.clickListeners)
  {
    st.(moveListener := if st.isMobile then None else Some(st.trailCount),
        clickListeners := !st.isMobile)
  }

  /** Mounting: the first render's effects, with the width check applied. */
  function Mount(innerWidth: int): (st: CursorState)
    ensures st.isMobile <==> innerWidth <= MobileMaxWidth
    ensures st.trail == [] && st.trailCount == 0 && st.variant == DefaultVariant
    ensures st.moveListener == (if st.isMobile then None else Some(0))
  {
    EffectsRun(Resize(Initial, innerWidth))
  }

  /** `mouseMove`, run by the installed listener: the newest position goes in
      front, tagged with the count the listener captured, followed by at most
      fifteen of the previous entries; the counter itself advances through a
      functional update. Without a listener nothing happens. */
  function Move(st: CursorState, p: Point): (st': CursorState)
    ensures st.moveListener.None? ==> st' == st
    ensures st.moveListener.Some? ==> st'.mouse == p && st'.trailCount == st.trailCount + 1
    ensures st.moveListener.Some? ==> |st'.trail| >= 1 && st'.trail[0] == TrailPoint(p.x, p.y, st.moveListener.value)
    ensures st.moveListener.Some? ==> |st'.trail| <= KeptPositions + 1 && |st'.trail| <= |st.trail| + 1
    ensures st.moveListener.Some? ==> st'.trail[1..] <= st.trail
    ensures st.moveListener.Some? ==> |st'.trail| - 1 == if |st.trail| < KeptPositions then |st.trail| else KeptPositions
    ensures st'.variant == st.variant && st'.isMobile == st.isMobile
    ensures st'.moveListener == st.moveListener && st'.clickListeners == st.clickListeners
  {
    match st.moveListener
    case None => st
    case Some(captured) =>
      var kept := if |st.trail| < KeptPositions then st.trail else st.trail[..KeptPositions];
      st.(mouse := p, trailCount := st.trailCount + 1,
          trail := [TrailPoint(p.x, p.y, captured)] + kept)
  }

  /** `mouseDown` */
  function Press(st: CursorState): (st': CursorState)
    ensures st.clickListeners ==> st' == st.(variant := ClickVariant)
    ensures !st.clickListeners ==> st' == st
  {
    if st.clickListeners then st.(variant := ClickVariant) else st
  }

  /** `mouseUp` */
  function Release(st: CursorState): (st': CursorState)
    ensures st.clickListeners ==> st' == st.(variant := DefaultVariant)
    ensures !st.clickListeners ==> st' == st
  {
    if st.clickListeners then st.(variant := DefaultVariant) else st
  }

  /** Where the ring is drawn and its scale in tenths; nothing on mobile. */
  datatype Ring = Ring(x: int, y: int, scaleTenths: int)

  function RingOf(st: CursorState): (r: Option<Ring>)
    ensures st.isMobile <==> r.None?
    ensures r.Some? ==> r.value.x == st.mouse.x - RingOffset && r.value.y == st.mouse.y - RingOffset
    ensures r.Some? ==> (r.value.scaleTenths == 8 <==> st.variant == ClickVariant)
    ensures r.Some? ==> (r.value.scaleTenths == 10 <==> st.variant == DefaultVariant)
  {
    if st.isMobile then None
    else Some(Ring(st.mouse.x - RingOffset, st.mouse.y - RingOffset,
                   if st.variant == ClickVariant then 8 else 10))
  }

  /** A button press then release leaves the ring as it was. */
  lemma PressReleaseRestores(st: CursorState)
    requires st.variant == DefaultVariant
    ensures Release(Press(st)) == st
  {
  }

  /** Moves applied in order. */
  function MoveAll(st: CursorState, ps: seq<Point>): CursorState
    decreases |ps|
  {
    if |ps| == 0 then st else MoveAll(Move(st, ps[0]), ps[1..])
  }

  /** Moves applied in order, each followed by the re-render that re-runs the
      effects and so re-installs the listener with the new count. */
  function MoveAllRendered(st: CursorState, ps: seq<Point>): CursorState
    decreases |ps|
  {
    if |ps| == 0 then st else MoveAllRendered(EffectsRun(Move(st, ps[0])), ps[1..])
  }

  /** Moves handled before React re-renders all run the same listener, so
      every point they add carries the same captured id, while the counter
      still advances once per move. */
  lemma {:induction false} StaleListenerRepeatsId(st: CursorState, ps: seq<Point>, n: int)
    requires st.moveListener == Some(n)
    ensures var end := MoveAll(st, ps);
            && end.trailCount == st.trailCount + |ps|
            && end.moveListener == Some(n)
            && forall i :: 0 <= i < |end.trail| && i < |ps| ==> end.trail[i].id == n
    decreases |ps|
  {
    if |ps| > 0 {
      var ps' := ps[..|ps| - 1];
      StaleListenerRepeatsId(st, ps', n);
      MoveAllSnoc(st, ps', ps[|ps| - 1]);
      assert ps' + [ps[|ps| - 1]] == ps;
      var mid := MoveAll(st, ps');
      var end := MoveAll(st, ps);
      assert end == Move(mid, ps[|ps| - 1]);
      forall i | 1 <= i < |end.trail| && i < |ps|
        ensures end.trail[i].id == n
      {
        assert end.trail[i] == mid.trail[i - 1];
      }
    }
  }

  /** Two quick moves from a fresh listener: both points carry id 0. */
  lemma TwoQuickMovesShareId(p: Point, q: Point)
    ensures var st := Move(Move(Mount(1024), p), q);
            && st.trailCount == 2
            && st.trail == [TrailPoint(q.x, q.y, 0), TrailPoint(p.x, p.y, 0)]
  {
  }

  /** When the page re-renders after every move, the trail holds the latest
      sixteen positions, newest first, each tagged with its move number. */
  lemma {:induction false} TrailIsLatestPositions(st: CursorState, ps: seq<Point>)
    requires !st.isMobile && st.trail == [] && st.moveListener == Some(st.trailCount)
    ensures var end := MoveAllRendered(st, ps);
            && end.trailCount == st.trailCount + |ps|
            && end.moveListener == Some(end.trailCount)
            && |end.trail| == (if |ps| < KeptPositions + 1 then |ps| else KeptPositions + 1)
            && forall i :: 0 <= i < |end.trail| ==>
                 end.trail[i] == TrailPoint(ps[|ps| - 1 - i].x, ps[|ps| - 1 - i].y, st.trailCount + |ps| - 1 - i)
    decreases |ps|
  {
    if |ps| > 0 {
      var ps' := ps[..|ps| - 1];
      TrailIsLatestPositions(st, ps');
      MoveAllRenderedSnoc(st, ps', ps[|ps| - 1]);
      assert ps' + [ps[|ps| - 1]] == ps;
      var mid := MoveAllRendered(st, ps');
      MoveAllRenderedKeepsMobile(st, ps');
      var end := MoveAllRendered(st, ps);
      assert end == EffectsRun(Move(mid, ps[|ps| - 1]));
      forall i | 1 <= i < |end.trail|
        ensures end.trail[i] == TrailPoint(ps[|ps| - 1 - i].x, ps[|ps| - 1 - i].y, st.trailCount + |ps| - 1 - i)
      {
        assert end.trail[i] == mid.trail[i - 1];
        assert ps'[|ps'| - 1 - (i - 1)] == ps[|ps| - 1 - i];
      }
    }
  }

  /** Moves never change the mobile flag. */
  lemma {:induction false} MoveAllKeepsMobile(st: CursorState, ps: seq<Point>)
    ensures MoveAll(st, ps).isMobile == st.isMobile
    decreases |ps|
  {
    if |ps| > 0 {
      MoveAllKeepsMobile(Move(st, ps[0]), ps[1..]);
    }
  }

  /** Running a list of moves and then one more is running the longer list. */
  lemma {:induction false} MoveAllSnoc(st: CursorState, ps: seq<Point>, p: Point)
    ensures MoveAll(st, ps + [p]) == Move(MoveAll(st, ps), p)
    decreases |ps|
  {
    if |ps| == 0 {
      assert ps + [p] == [p];
    } else {
      assert (ps + [p])[1..] == ps[1..] + [p];
      MoveAllSnoc(Move(st, ps[0]), ps[1..], p);
    }
  }

  /** Re-rendered moves never change the mobile flag either. */
  lemma {:induction false} MoveAllRenderedKeepsMobile(st: CursorState, ps: seq<Point>)
    ensures MoveAllRendered(st, ps).isMobile == st.isMobile
    decreases |ps|
  {
    if |ps| > 0 {
      MoveAllRenderedKeepsMobile(EffectsRun(Move(st, ps[0])), ps[1..]);
    }
  }

  lemma {:induction false} MoveAllRenderedSnoc(st: CursorState, ps: seq<Point>, p: Point)
    ensures MoveAllRendered(st, ps + [p]) == EffectsRun(Move(MoveAllRendered(st, ps), p))
    decreases |ps|
  {
    if |ps| == 0 {
      assert ps + [p] == [p];
    } else {
      assert (ps + [p])[1..] == ps[1..] + [p];
      MoveAllRenderedSnoc(EffectsRun(Move(st, ps[0])), ps[1..], p);
    }
  }

  /** The trail never grows past sixteen entries, whatever the moves. */
  lemma {:induction false} TrailBounded(st: CursorState, ps: seq<Point>)
    requires |st.trail| <= KeptPositions + 1
    ensures |MoveAll(st, ps).trail| <= KeptPositions + 1
    decreases |ps|
  {
    if |ps| > 0 {
      TrailBounded(Move(st, ps[0]), ps[1..]);
    }
  }
}

=== FILE: docs.dfy ===
/** The documentation browser: a sidebar of seven sections narrowed by a
    case-insensitive search, the section on display, and the "copied"
    indicator of the code blocks. */
module Docs {
  import opened Optional
  import opened Strings
  import opened Lists

  /** A sidebar entry. */
  datatype Section = Section(id: string, title: string, premium: bool)

  /** `sections` */
  const Sections: seq<Section> := [
    Section("getting-started", "Getting Started", false),
    Section("api-reference", "API Reference", false),
    Section("cli-commands", "CLI Commands", false),
    Section("configuration", "Configuration", false),
    Section("database", "Database", false),
    Section("playground", "Code Playground", true),
    Section("resources", "Resources", true)
  ]

  /** The search test for one section: its lower-cased label contains the
      lower-cased query. */
  predicate Matches(sec: Section, query: string) {
    Contains(ToLower(sec.title), ToLower(query))
  }

  /** `filteredSections`: the sections that match, in sidebar order. */
  function FilterSections(sections: seq<Section>, query: string): (r: seq<Section>)
    ensures forall x :: x in r <==> x in sections && Matches(x, query)
    ensures IsSubsequence(r, sections)
    ensures query == "" ==> r == sections
    decreases |sections|
  {
    if |sections| == 0 then []
    else
      var rest := FilterSections(sections[1..], query);
      assert forall x :: x in sections <==> x == sections[0] || x in sections[1..];
      assert query == "" ==> StartsWith(ToLower(sections[0].title), ToLower(query));
      if Matches(sections[0], query) then [sections[0]] + rest else rest
  }

  /** Queries that lower-case alike select the same sections. */
  lemma {:induction false} FilterIgnoresCase(sections: seq<Section>, q1: string, q2: string)
    requires ToLower(q1) == ToLower(q2)
    ensures FilterSections(sections, q1) == FilterSections(sections, q2)
    decreases |sections|
  {
    if |sections| > 0 {
      FilterIgnoresCase(sections[1..], q1, q2);
    }
  }

  /** An empty search keeps all seven sections. */
  lemma EmptyQueryKeepsAll()
    ensures FilterSections(Sections, "") == Sections
    ensures |FilterSections(Sections, "")| == 7
  {
  }

  // ---------------------------------------------------------------------------
  // The page state
  // ---------------------------------------------------------------------------

  datatype DocsState = DocsState(
    searchQuery: string,
    activeSection: string,
    // The snippet last copied, while its indicator is showing.
    copiedCode: Option<string>)

  const Initial := DocsState("", "getting-started", None)

  /** Typing in the search box changes the query and nothing else. */
  function Search(st: DocsState, query: string): (st': DocsState)
    ensures st'.searchQuery == query
    ensures st'.activeSection == st.activeSection && st'.copiedCode == st.copiedCode
  {
    st.(searchQuery := query)
  }

  /** Clicking a sidebar entry. */
  function Select(st: DocsState, id: string): (st': DocsState)
    ensures st'.activeSection == id
    ensures st'.searchQuery == st.searchQuery && st'.copiedCode == st.copiedCode
  {
    st.(activeSection := id)
  }

  /** The sidebar as drawn. */
  function Sidebar(st: DocsState): seq<Section> {
    FilterSections(Sections, st.searchQuery)
  }

  /** A search matching nothing empties the sidebar while the section that
      was open stays open. */
  lemma FilteredOutStillShown(st: DocsState, query: string)
    requires |query| > 15
    ensures Sidebar(Search(st, query)) == []
    ensures Search(st, query).activeSection == st.activeSection
  {
    TitlesAreShort(Sections);
    forall x | x in Sections
      ensures !Matches(x, query)
    {
      LongQueryMatchesNothing(x, query);
    }
    NothingMatches(Sections, query);
  }

  /** No title is longer than fifteen characters. */
  lemma TitlesAreShort(sections: seq<Section>)
    requires sections == Sections
    ensures forall x :: x in sections ==> |x.title| <= 15
  {
    forall x | x in sections
      ensures |x.title| <= 15
    {
      var i :| 0 <= i < |sections| && sections[i] == x;
    }
  }

  /** When no section matches, the filter keeps none. */
  lemma {:induction false} NothingMatches(sections: seq<Section>, query: string)
    requires forall x :: x in sections ==> !Matches(x, query)
    ensures FilterSections(sections, query) == []
    decreases |sections|
  {
    if |sections| > 0 {
      assert sections[0] in sections;
      NothingMatches(sections[1..], query);
    }
  }

  /** A query longer than a title cannot occur in it. */
  lemma LongQueryMatchesNothing(x: Section, query: string)
    requires |x.title| < |query|
    ensures !Matches(x, query)
  {
    if Matches(x, query) {
      ContainsNecessary(ToLower(x.title), ToLower(query));
    }
  }

  /** `handleCopyCode`: the snippet is recorded as the copied one. */
  function Copy(st: DocsState, code: string): (st': DocsState)
    ensures st'.copiedCode == Some(code)
    ensures st'.searchQuery == st.searchQuery && st'.activeSection == st.activeSection
  {
    st.(copiedCode := Some(code))
  }

  /** A copy's two-second timer: it clears the indicator, whichever snippet
      is recorded by then. */
  function CopyTimerFires(st: DocsState): (st': DocsState)
    ensures st'.copiedCode.None?
    ensures st'.searchQuery == st.searchQuery && st'.activeSection == st.activeSection
  {
    st.(copiedCode := None)
  }

  /** A code block shows the check icon iff its snippet is the recorded one. */
  function ShowsCheck(st: DocsState, snippet: string): (r: bool)
    ensures r <==> st.copiedCode == Some(snippet)
  {
    st.copiedCode.Some? && st.copiedCode.value == snippet
  }

  /** Right after a copy, exactly the copied block shows the check icon. */
  lemma CopyMarksExactlyThatBlock(st: DocsState, code: string, other: string)
    ensures ShowsCheck(Copy(st, code), code)
    ensures other != code ==> !ShowsCheck(Copy(st, code), other)
  {
  }

  /** The timers are not cancelled: when a second snippet is copied before
      the first copy's timer runs out, that timer clears the second
      snippet's indicator early. */
  lemma EarlierTimerClearsLaterCopy(st: DocsState, first: string, second: string)
    ensures !ShowsCheck(CopyTimerFires(Copy(Copy(st, first), second)), second)
  {
  }
}

=== FILE: genai.dfy ===
/** The GenAI panel: a Gemini API key kept in local storage behind a
    plaintext admin password, a chat history with the model, and a zoom
    factor for code blocks. The network call is replaced by its outcome,
    which the caller supplies when the request completes. */
module GenAI {
  import opened Optional
  import opened Strings
  import opened Storage
  import opened Keyboard

  const ApiKeyKey := "gemini_api_key"
  const PasswordKey := "gemini_admin_password"

  const MinPasswordLength := 4
  const ShortPasswordError := "Password must be at least 4 characters"
  const WrongPasswordError := "Incorrect password"

  /** What the password dialog was opened for. */
  datatype PasswordAction = SetPassword | ClearKey | ChangeKey

  datatype Role = UserRole | AssistantRole
  datatype Turn = Turn(role: Role, content: string)

  /** How the model call ended: the reply text, or the thrown error's message. */
  datatype ApiOutcome = Replied(text: string) | Failed(message: string)

  /** Code zoom in tenths: 10 is 100%, bounded by 5 (50%) and 20 (200%). */
  const MinZoom := 5
  const MaxZoom := 20
  const DefaultZoom := 10

  datatype GenAIState = GenAIState(
    isOpen: bool,
    input: string,
    response: string,
    history: seq<Turn>,
    // The in-flight request: the history it will extend on success.
    pending: Option<seq<Turn>>,
    apiKey: string,
    hasApiKey: bool,
    codeZoom: int,
    adminPassword: string,
    hasPassword: bool,
    enteredPassword: string,
    showPasswordModal: bool,
    passwordAction: PasswordAction,
    passwordError: string,
    store: Store)
  {
    /** `isLoading` */
    predicate IsLoading() {
      pending.Some?
    }
  }

  /** What the panel's flags say about storage, kept by every transition:
      a key marked present is the stored one, a password marked present is
      stored and not empty, a dialog asking to set a password is only open
      while none exists, and zoom stays within its bounds. */
  ghost predicate Valid(st: GenAIState) {
    && (st.hasApiKey ==> ApiKeyKey in st.store && st.store[ApiKeyKey] == st.apiKey)
    && (st.hasPassword ==>
          PasswordKey in st.store && st.store[PasswordKey] == st.adminPassword && st.adminPassword != "")
    && (st.showPasswordModal ==> (st.passwordAction == SetPassword <==> !st.hasPassword))
    && MinZoom <= st.codeZoom <= MaxZoom
  }

  /** The mount effect: restore a saved key and password when they are
      present and not empty. */
  function Mount(store: Store): (st: GenAIState)
    ensures Valid(st)
    ensures st.hasApiKey <==> Truthy(GetItem(store, ApiKeyKey))
    ensures st.hasPassword <==> Truthy(GetItem(store, PasswordKey))
    ensures st.store == store && st.history == [] && !st.IsLoading()
  {
    var savedKey := GetItem(store, ApiKeyKey);
    var savedPassword := GetItem(store, PasswordKey);
    GenAIState(
      isOpen := false, input := "", response := "", history := [], pending := None,
      apiKey := if Truthy(savedKey) then savedKey.value else "",
      hasApiKey := Truthy(savedKey),
      codeZoom := DefaultZoom,
      adminPassword := if Truthy(savedPassword) then savedPassword.value else "",
      hasPassword := Truthy(savedPassword),
      enteredPassword := "", showPasswordModal := false, passwordAction := SetPassword,
      passwordError := "", store := store)
  }

  // ---------------------------------------------------------------------------
  // Key management
  // ---------------------------------------------------------------------------

  /** Typing into the key field, which is only shown while no key is present. */
  function EditApiKey(st: GenAIState, text: string): (st': GenAIState)
    requires Valid(st)
    ensures Valid(st')
    ensures st.hasApiKey ==> st' == st
    ensures !st.hasApiKey ==> st' == st.(apiKey := text)
  {
    if st.hasApiKey then st else st.(apiKey := text)
  }

  /** `saveApiKey`: a blank key does nothing; without a password the dialog
      opens to set one first; otherwise the key is stored. */
  function SaveApiKey(st: GenAIState): (st': GenAIState)
    requires Valid(st)
    ensures Valid(st')
    ensures IsBlank(st.apiKey) ==> st' == st
    ensures !IsBlank(st.apiKey) && !st.hasPassword ==>
              st' == st.(showPasswordModal := true, passwordAction := SetPassword)
    ensures !IsBlank(st.apiKey) && st.hasPassword ==>
              st'.hasApiKey && st'.store == st.store[ApiKeyKey := st.apiKey]
    ensures PasswordKey in st.store ==> PasswordKey in st'.store && st'.store[PasswordKey] == st.store[PasswordKey]
  {
    if IsBlank(st.apiKey) then st
    else if !st.hasPassword then st.(showPasswordModal := true, passwordAction := SetPassword)
    else st.(store := st.store[ApiKeyKey := st.apiKey], hasApiKey := true)
  }

  /** Removes the stored key: the shared effect of a verified or unprotected
      clear. The password entry is left alone. */
  function RemoveKey(st: GenAIState): (st': GenAIState)
    ensures ApiKeyKey !in st'.store && !st'.hasApiKey && st'.apiKey == ""
    ensures forall k :: k in st.store && k != ApiKeyKey ==> k in st'.store && st'.store[k] == st.store[k]
    ensures st'.hasPassword == st.hasPassword && st'.adminPassword == st.adminPassword
  {
    st.(store := st.store - {ApiKeyKey}, apiKey := "", hasApiKey := false)
  }

  /** Stores the current key text: the shared effect of a verified or
      unprotected change. */
  function StoreKey(st: GenAIState): (st': GenAIState)
    ensures st'.hasApiKey && ApiKeyKey in st'.store && st'.store[ApiKeyKey] == st.apiKey
    ensures forall k :: k in st.store && k != ApiKeyKey ==> k in st'.store && st'.store[k] == st.store[k]
    ensures st'.hasPassword == st.hasPassword && st'.adminPassword == st.adminPassword
  {
    st.(store := st.store[ApiKeyKey := st.apiKey], hasApiKey := true)
  }

  /** `clearApiKey`: asks for the password when one exists, else clears at once. */
  function ClearApiKey(st: GenAIState): (st': GenAIState)
    requires Valid(st)
    ensures Valid(st')
    ensures st.hasPassword ==> st' == st.(showPasswordModal := true, passwordAction := ClearKey)
    ensures !st.hasPassword ==> st' == RemoveKey(st)
  {
    if st.hasPassword then st.(showPasswordModal := true, passwordAction := ClearKey)
    else RemoveKey(st)
  }

  /** `changeApiKey`: asks for the password when one exists, else stores the
      current key text at once. */
  function ChangeApiKey(st: GenAIState): (st': GenAIState)
    requires Valid(st)
    ensures Valid(st')
    ensures st.hasPassword ==> st' == st.(showPasswordModal := true, passwordAction := ChangeKey)
    ensures !st.hasPassword ==> st' == StoreKey(st)
  {
    if st.hasPassword then st.(showPasswordModal := true, passwordAction := ChangeKey)
    else StoreKey(st)
  }

  /** Typing into the password field. */
  function EnterPassword(st: GenAIState, text: string): (st': GenAIState)
    requires Valid(st)
    ensures Valid(st') && st'.enteredPassword == text
  {
    st.(enteredPassword := text)
  }

  /** `handlePasswordSubmit` */
  function SubmitPassword(st: GenAIState): (st': GenAIState)
    requires Valid(st)
    ensures Valid(st')
    // Setting: a short password is refused and nothing is stored.
    ensures st.passwordAction == SetPassword && Utf16Length(st.enteredPassword) < MinPasswordLength ==>
              st' == st.(passwordError := ShortPasswordError)
    // Setting: password and key are both stored, the dialog closes.
    ensures st.passwordAction == SetPassword && Utf16Length(st.enteredPassword) >= MinPasswordLength ==>
              && st'.hasPassword && st'.adminPassword == st.enteredPassword
              && st'.store == st.store[PasswordKey := st.enteredPassword][ApiKeyKey := st.apiKey]
              && st'.hasApiKey
              && !st'.showPasswordModal && st'.enteredPassword == "" && st'.passwordError == ""
    // Verifying: a wrong password changes nothing but the error.
    ensures st.passwordAction != SetPassword && st.enteredPassword != st.adminPassword ==>
              st' == st.(passwordError := WrongPasswordError)
    ensures st.passwordAction == ClearKey && st.enteredPassword == st.adminPassword ==>
              && ApiKeyKey !in st'.store && !st'.hasApiKey && st'.apiKey == ""
              && !st'.showPasswordModal && st'.enteredPassword == ""
    ensures st.passwordAction == ChangeKey && st.enteredPassword == st.adminPassword ==>
              && st'.hasApiKey && ApiKeyKey in st'.store && st'.store[ApiKeyKey] == st.apiKey
              && !st'.showPasswordModal && st'.enteredPassword == ""
    // The admin password is never removed.
    ensures PasswordKey in st.store ==> PasswordKey in st'.store
    ensures st.passwordAction != SetPassword ==>
              st'.hasPassword == st.hasPassword && st'.adminPassword == st.adminPassword
  {
    var cleared := st.(passwordError := "");
    if st.passwordAction == SetPassword then
      if Utf16Length(st.enteredPassword) < MinPasswordLength then
        cleared.(passwordError := ShortPasswordError)
      else
        var withPassword := cleared.(store := cleared.store[PasswordKey := st.enteredPassword],
                                     adminPassword := st.enteredPassword, hasPassword := true);
        StoreKey(withPassword).(showPasswordModal := false, enteredPassword := "")
    else if st.enteredPassword != st.adminPassword then
      cleared.(passwordError := WrongPasswordError)
    else
      var acted := if st.passwordAction == ClearKey then RemoveKey(cleared) else StoreKey(cleared);
      acted.(showPasswordModal := false, enteredPassword := "")
  }

  /** Submitting the dialog's form. The password field is `required`, so the
      browser refuses an empty entry and `handlePasswordSubmit` only ever
      sees a non-empty one. */
  function SubmitPasswordForm(st: GenAIState): (st': GenAIState)
    requires Valid(st)
    ensures Valid(st')
    ensures st.enteredPassword == "" ==> st' == st
    ensures st.enteredPassword != "" ==> st' == SubmitPassword(st)
  {
    if st.enteredPassword == "" then st else SubmitPassword(st)
  }

  /** On the page, the "too short" message is reached exactly by an entry of
      one to three UTF-16 code units: the empty entry never gets that far. */
  lemma ShortErrorOnlyForShortEntries(st: GenAIState)
    requires Valid(st) && st.passwordAction == SetPassword && st.passwordError == ""
    ensures SubmitPasswordForm(st).passwordError == ShortPasswordError <==>
              1 <= Utf16Length(st.enteredPassword) < MinPasswordLength
  {
    if st.enteredPassword != "" {
      assert Utf16Length(st.enteredPassword) >= 1;
    }
  }

  /** The dialog's Cancel and close buttons. */
  function CancelPassword(st: GenAIState): (st': GenAIState)
    requires Valid(st)
    ensures Valid(st')
    ensures !st'.showPasswordModal && st'.enteredPassword == "" && st'.passwordError == ""
    ensures st'.store == st.store && st'.hasApiKey == st.hasApiKey && st'.hasPassword == st.hasPassword
  {
    st.(showPasswordModal := false, enteredPassword := "", passwordError := "")
  }

  /** A refused password's message does not outlive the dialog: after
      Cancel, reopening the dialog shows no error. */
  lemma CancelForgetsError(st: GenAIState)
    requires Valid(st) && st.hasPassword
    ensures ClearApiKey(CancelPassword(st)).passwordError == ""
    ensures ChangeApiKey(CancelPassword(st)).passwordError == ""
  {
  }

  /** The length rule counts UTF-16 units: two astral characters (an emoji
      each) make a password long enough, and so do four ASCII letters. */
  lemma AstralPasswordAccepted(st: GenAIState)
    requires Valid(st) && st.passwordAction == SetPassword
    requires st.enteredPassword == "\U{1F600}\U{1F600}"
    ensures SubmitPassword(st).hasPassword && SubmitPassword(st).adminPassword == st.enteredPassword
  {
    assert IsAstral(st.enteredPassword[0]) && IsAstral(st.enteredPassword[1]);
    assert st.enteredPassword[1..][1..] == [];
  }

  // ---------------------------------------------------------------------------
  // Chat
  // ---------------------------------------------------------------------------

  function TurnText(t: Turn): string {
    (if t.role == UserRole then "**You:**" else "**Synthara AI:**") + " " + t.content
  }

  /** The displayed conversation: every turn, labelled, separated by a blank line. */
  function Transcript(turns: seq<Turn>): string
    decreases |turns|
  {
    if |turns| == 0 then ""
    else if |turns| == 1 then TurnText(turns[0])
    else TurnText(turns[0]) + "\n\n" + Transcript(turns[1..])
  }

  /** Appending a turn appends its labelled text after a blank line. */
  lemma {:induction false} TranscriptSnoc(turns: seq<Turn>, t: Turn)
    requires |turns| > 0
    ensures Transcript(turns + [t]) == Transcript(turns) + "\n\n" + TurnText(t)
    decreases |turns|
  {
    if |turns| == 1 {
      assert (turns + [t])[1..] == [t];
    } else {
      assert (turns + [t])[1..] == turns[1..] + [t];
      TranscriptSnoc(turns[1..], t);
    }
  }

  /** `handleSubmit` and the synchronous part of `callGeminiAPI`: with
      non-blank input, a key present and nothing in flight, the user turn is
      appended and the request starts; the input box is cleared whenever the
      first guard passes. */
  function Send(st: GenAIState): (st': GenAIState)
    requires Valid(st)
    ensures Valid(st')
    ensures IsBlank(st.input) || !st.hasApiKey || st.IsLoading() ==> st' == st
    ensures !IsBlank(st.input) && st.hasApiKey && !st.IsLoading() && st.apiKey != "" ==>
              && st'.history == st.history + [Turn(UserRole, st.input)]
              && st'.pending == Some(st'.history)
              && st'.input == ""
    ensures st'.store == st.store && st'.hasApiKey == st.hasApiKey
  {
    if IsBlank(st.input) || !st.hasApiKey || st.IsLoading() then st
    else if st.apiKey == "" then st.(input := "")
    else
      var updated := st.history + [Turn(UserRole, st.input)];
      st.(history := updated, pending := Some(updated), input := "")
  }

  /** The request finishing: success replaces the history with the one the
      request started from plus the reply and shows the whole transcript;
      failure shows `Error: ` and the message and adds nothing. */
  function Complete(st: GenAIState, outcome: ApiOutcome): (st': GenAIState)
    requires Valid(st)
    ensures Valid(st')
    ensures !st.IsLoading() ==> st' == st
    ensures st.IsLoading() ==> !st'.IsLoading()
    ensures st.IsLoading() && outcome.Replied? ==>
              && st'.history == st.pending.value + [Turn(AssistantRole, outcome.text)]
              && st'.response == Transcript(st'.history)
    ensures st.IsLoading() && outcome.Failed? ==>
              st'.history == st.history && st'.response == "Error: " + outcome.message
    ensures st'.store == st.store
  {
    if !st.IsLoading() then st
    else match outcome
      case Replied(text) =>
        var full := st.pending.value + [Turn(AssistantRole, text)];
        st.(history := full, response := Transcript(full), pending := None)
      case Failed(message) =>
        st.(response := "Error: " + message, pending := None)
  }

  /** A successful exchange adds exactly two turns, the question then the answer. */
  lemma ExchangeSucceeds(st: GenAIState, text: string)
    requires Valid(st) && !IsBlank(st.input) && st.hasApiKey && !st.IsLoading() && st.apiKey != ""
    ensures Complete(Send(st), Replied(text)).history
            == st.history + [Turn(UserRole, st.input), Turn(AssistantRole, text)]
  {
  }

  /** A failed exchange adds exactly the question. */
  lemma ExchangeFails(st: GenAIState, message: string)
    requires Valid(st) && !IsBlank(st.input) && st.hasApiKey && !st.IsLoading() && st.apiKey != ""
    ensures Complete(Send(st), Failed(message)).history == st.history + [Turn(UserRole, st.input)]
    ensures Complete(Send(st), Failed(message)).response == "Error: " + message
  {
  }

  /** `startNewChat` */
  function StartNewChat(st: GenAIState): (st': GenAIState)
    requires Valid(st)
    ensures Valid(st')
    ensures st'.history == [] && st'.response == ""
    ensures st'.pending == st.pending && st'.store == st.store
  {
    st.(history := [], response := "")
  }

  /** Starting a new chat while a request is in flight does not stop the
      reply from restoring the old conversation: the success handler
      rebuilds the history from the one captured when the request started. */
  lemma NewChatDuringRequest(st: GenAIState, text: string)
    requires Valid(st) && !IsBlank(st.input) && st.hasApiKey && !st.IsLoading() && st.apiKey != ""
    ensures Complete(StartNewChat(Send(st)), Replied(text)).history
            == st.history + [Turn(UserRole, st.input), Turn(AssistantRole, text)]
  {
  }

  // ---------------------------------------------------------------------------
  // Code zoom
  // ---------------------------------------------------------------------------

  datatype ZoomStep = ZoomIn | ZoomOut | ZoomReset

  /** One press of the zoom buttons or shortcuts, in tenths. */
  function Zoom(z: int, step: ZoomStep): (r: int)
    requires MinZoom <= z <= MaxZoom
    ensures MinZoom <= r <= MaxZoom
    ensures step == ZoomIn ==> r == if z < MaxZoom then z + 1 else MaxZoom
    ensures step == ZoomOut ==> r == if z > MinZoom then z - 1 else MinZoom
    ensures step == ZoomReset ==> r == DefaultZoom
  {
    match step
    case ZoomIn => if z + 1 < MaxZoom then z + 1 else MaxZoom
    case ZoomOut => if z - 1 > MinZoom then z - 1 else MinZoom
    case ZoomReset => DefaultZoom
  }

  /** A sequence of presses, applied in order. */
  function ZoomAll(z: int, steps: seq<ZoomStep>): int
    requires MinZoom <= z <= MaxZoom
    decreases |steps|
  {
    if |steps| == 0 then z else ZoomAll(Zoom(z, steps[0]), steps[1..])
  }

  /** Zoom stays within [50%, 200%] under any sequence of presses. */
  lemma {:induction false} ZoomAllBounded(z: int, steps: seq<ZoomStep>)
    requires MinZoom <= z <= MaxZoom
    ensures MinZoom <= ZoomAll(z, steps) <= MaxZoom
    decreases |steps|
  {
    if |steps| > 0 {
      ZoomAllBounded(Zoom(z, steps[0]), steps[1..]);
    }
  }

  /** Whatever came before, a reset as the last press gives 100%. */
  lemma {:induction false} ZoomResetLast(z: int, steps: seq<ZoomStep>)
    requires MinZoom <= z <= MaxZoom
    ensures ZoomAll(z, steps + [ZoomReset]) == DefaultZoom
    decreases |steps|
  {
    if |steps| == 0 {
      assert steps + [ZoomReset] == [ZoomReset];
    } else {
      assert (steps + [ZoomReset])[1..] == steps[1..] + [ZoomReset];
      ZoomResetLast(Zoom(z, steps[0]), steps[1..]);
    }
  }

  /** The panel's own `keydown` handler: nothing while closed; Escape closes
      it even from a text field; otherwise, outside text fields, Meta+Shift
      with `-` zooms out and with `=` or `+` zooms in. */
  function PanelKey(st: GenAIState, e: KeyEvent, focus: Option<Focus>): (st': GenAIState)
    requires Valid(st)
    ensures Valid(st')
    ensures !st.isOpen ==> st' == st
    ensures st.isOpen && e.key == "Escape" ==> st' == st.(isOpen := false)
    ensures st.isOpen && e.key != "Escape" && (IsTextEntry(focus) || !(e.meta && e.shift)) ==> st' == st
    ensures st'.store == st.store && st'.history == st.history
  {
    if !st.isOpen then st
    else if e.key == "Escape" then st.(isOpen := false)
    else if IsTextEntry(focus) then st
    else if e.meta && e.shift && e.key == "-" then st.(codeZoom := Zoom(st.codeZoom, ZoomOut))
    else if e.meta && e.shift && (e.key == "=" || e.key == "+") then st.(codeZoom := Zoom(st.codeZoom, ZoomIn))
    else st
  }

  /** The zoom label's click handler. */
  function ResetZoom(st: GenAIState): (st': GenAIState)
    requires Valid(st)
    ensures Valid(st') && st'.codeZoom == DefaultZoom
  {
    st.(codeZoom := Zoom(st.codeZoom, ZoomReset))
  }
}

=== FILE: image_generation.dfy ===
/** The image-generation service: the cascade that pulls an image address
    out of the model's reply, and the checks and error wrapping around it.
    The four regular-expression searches are inputs: what each found in the
    reply, if anything. */
module ImageGeneration {
  import opened Optional
  import opened Strings

  const NotInitializedError := "Image generation service not initialized"
  const NoImageDataError := "No valid image data found in response"
  const GenerateFailedError := "Failed to generate image. Please try again."

  // ---------------------------------------------------------------------------
  // JSON candidates
  // ---------------------------------------------------------------------------

  /** A value read from a parsed object's field; `Undefined` when the field
      is missing. Numbers are integers here. */
  datatype JsonValue =
    | Undefined | Null | Bool(b: bool) | Number(n: int) | Str(s: string)
    | Array | Object

  /** JavaScript truthiness of a field value. */
  predicate Truthy(v: JsonValue) {
    match v
    case Undefined => false
    case Null => false
    case Bool(b) => b
    case Number(n) => n != 0
    case Str(s) => s != ""
    case Array => true
    case Object => true
  }

  /** A brace-delimited piece of the reply: either `JSON.parse` throws on it,
      or it is an object whose three address fields are these. */
  datatype Candidate =
    | Unparsable
    | Parsed(url: JsonValue, image_url: JsonValue, imageUrl: JsonValue)

  /** The fields tried on one object, in order `url`, `image_url`,
      `imageUrl`: the first truthy one. */
  function FieldOf(c: Candidate): (r: Option<JsonValue>)
    requires c.Parsed?
    ensures r.Some? <==> Truthy(c.url) || Truthy(c.image_url) || Truthy(c.imageUrl)
    ensures Truthy(c.url) ==> r == Some(c.url)
    ensures !Truthy(c.url) && Truthy(c.image_url) ==> r == Some(c.image_url)
    ensures !Truthy(c.url) && !Truthy(c.image_url) && Truthy(c.imageUrl) ==> r == Some(c.imageUrl)
  {
    if Truthy(c.url) then Some(c.url)
    else if Truthy(c.image_url) then Some(c.image_url)
    else if Truthy(c.imageUrl) then Some(c.imageUrl)
    else None
  }

  /** The loop over the candidates inside the `try`: the first object with a
      truthy address field gives it; a candidate that does not parse ends
      the whole loop, since the `catch` is outside it. */
  function JsonScan(cs: seq<Candidate>): Option<JsonValue>
  {
    if |cs| == 0 then None
    else if cs[0].Unparsable? then None
    else if FieldOf(cs[0]).Some? then FieldOf(cs[0])
    else JsonScan(cs[1..])
  }

  /** Whether every candidate before position `i` parsed and gave nothing. */
  ghost predicate NothingBefore(cs: seq<Candidate>, i: int)
    requires 0 <= i <= |cs|
  {
    forall j :: 0 <= j < i ==> cs[j].Parsed? && FieldOf(cs[j]).None?
  }

  /** The loop in plain terms: it finds a value exactly when some candidate
      that parsed gives one and everything before it parsed and gave
      nothing; and then it is that candidate's value. */
  lemma {:induction false} JsonScanFindsFirst(cs: seq<Candidate>)
    ensures JsonScan(cs).Some? <==>
              exists i :: 0 <= i < |cs| && NothingBefore(cs, i) && cs[i].Parsed? && FieldOf(cs[i]).Some?
    ensures forall i :: 0 <= i < |cs| && NothingBefore(cs, i) && cs[i].Parsed? && FieldOf(cs[i]).Some? ==>
              JsonScan(cs) == FieldOf(cs[i])
    decreases |cs|
  {
    if |cs| > 0 && cs[0].Parsed? && FieldOf(cs[0]).None? {
      JsonScanFindsFirst(cs[1..]);
      forall i | 0 <= i < |cs| && NothingBefore(cs, i) && cs[i].Parsed? && FieldOf(cs[i]).Some?
        ensures i >= 1 && NothingBefore(cs[1..], i - 1) && cs[1..][i - 1] == cs[i]
      {
      }
      if JsonScan(cs).Some? {
        var k :| 0 <= k < |cs[1..]| && NothingBefore(cs[1..], k) && cs[1..][k].Parsed? && FieldOf(cs[1..][k]).Some?;
        assert NothingBefore(cs, k + 1);
      }
    } else if |cs| > 0 && cs[0].Parsed? {
      assert NothingBefore(cs, 0);
    } else if |cs| > 0 {
      assert forall i :: 0 < i <= |cs| && NothingBefore(cs, i) ==> cs[0].Parsed?;
    }
  }

  /** A candidate that does not parse hides everything after it. */
  lemma {:induction false} UnparsableAbandonsRest(pre: seq<Candidate>, rest: seq<Candidate>)
    ensures JsonScan(pre + [Unparsable] + rest) == JsonScan(pre + [Unparsable])
    ensures JsonScan(pre + [Unparsable]) == JsonScan(pre) || JsonScan(pre).None?
    decreases |pre|
  {
    if |pre| == 0 {
      assert ([] + [Unparsable] + rest)[0] == Unparsable;
      assert ([] + [Unparsable])[0] == Unparsable;
    } else {
      assert (pre + [Unparsable] + rest)[0] == pre[0];
      assert (pre + [Unparsable] + rest)[1..] == pre[1..] + [Unparsable] + rest;
      assert (pre + [Unparsable])[1..] == pre[1..] + [Unparsable];
      UnparsableAbandonsRest(pre[1..], rest);
    }
  }

  // ---------------------------------------------------------------------------
  // The cascade
  // ---------------------------------------------------------------------------

  /** What each search found in the reply text: the markdown image target
      (`![..](target)`), an http(s) address ending in an image extension, a
      base64 data address, and the brace-delimited pieces. */
  datatype Scans = Scans(
    markdown: Option<string>,
    url: Option<string>,
    base64: Option<string>,
    json: seq<Candidate>)

  /** How a call ended: a value, or an error with its message. */
  datatype Outcome<T> = Returned(value: T) | Threw(message: string)

  /** The strategies' findings in the order they are tried. */
  function Strategies(sc: Scans): (r: seq<Option<JsonValue>>)
    ensures |r| == 4
  {
    [MapStr(sc.markdown), MapStr(sc.url), MapStr(sc.base64), JsonScan(sc.json)]
  }

  function MapStr(o: Option<string>): (r: Option<JsonValue>)
    ensures r.Some? <==> o.Some?
    ensures o.Some? ==> r.value == Str(o.value)
  {
    match o
    case Some(s) => Some(Str(s))
    case None => None
  }

  /** The first finding in a list of tries, if any. */
  function FirstFound<T>(tries: seq<Option<T>>): Option<T> {
    if |tries| == 0 then None
    else if tries[0].Some? then tries[0]
    else FirstFound(tries[1..])
  }

  /** "First success wins" in plain terms: the first finding is the value
      of the earliest try that found something, and there is none exactly
      when every try came back empty. */
  lemma {:induction false} FirstFoundIsEarliest<T>(tries: seq<Option<T>>)
    ensures FirstFound(tries).None? <==> forall i :: 0 <= i < |tries| ==> tries[i].None?
    ensures forall i :: 0 <= i < |tries| && tries[i].Some? && (forall j :: 0 <= j < i ==> tries[j].None?) ==>
              FirstFound(tries) == tries[i]
    decreases |tries|
  {
    if |tries| > 0 && tries[0].None? {
      FirstFoundIsEarliest(tries[1..]);
      forall i | 0 < i < |tries| && tries[i].Some? && (forall j :: 0 <= j < i ==> tries[j].None?)
        ensures FirstFound(tries) == tries[i]
      {
        assert tries[1..][i - 1] == tries[i];
        assert forall j :: 0 <= j < i - 1 ==> tries[1..][j] == tries[j + 1];
      }
    }
  }

  /** `extractImageUrl`: the first strategy that finds something gives the
      result; when none does, it throws its own message. */
  function ExtractImageUrl(sc: Scans): (r: Outcome<JsonValue>)
    ensures r.Threw? <==> FirstFound(Strategies(sc)).None?
    ensures r.Threw? ==> r.message == NoImageDataError
    ensures r.Returned? ==> r.value == FirstFound(Strategies(sc)).value
  {
    var st := Strategies(sc);
    var s1, s2, s3 := st[1..], st[1..][1..], st[1..][1..][1..];
    assert s3 == [JsonScan(sc.json)] && FirstFound(s3) == JsonScan(sc.json);
    assert FirstFound(s2) == if sc.base64.Some? then Some(Str(sc.base64.value)) else JsonScan(sc.json);
    assert FirstFound(s1) == if sc.url.Some? then Some(Str(sc.url.value)) else FirstFound(s2);
    assert FirstFound(st) == if sc.markdown.Some? then Some(Str(sc.markdown.value)) else FirstFound(s1);
    if sc.markdown.Some? then Returned(Str(sc.markdown.value))
    else if sc.url.Some? then Returned(Str(sc.url.value))
    else if sc.base64.Some? then Returned(Str(sc.base64.value))
    else match JsonScan(sc.json)
      case Some(v) => Returned(v)
      case None => Threw(NoImageDataError)
  }

  /** The cascade's order: a markdown target wins over everything, an
      address over a data address and the JSON objects, and so on. */
  lemma CascadeOrder(sc: Scans)
    ensures sc.markdown.Some? ==> ExtractImageUrl(sc) == Returned(Str(sc.markdown.value))
    ensures sc.markdown.None? && sc.url.Some? ==> ExtractImageUrl(sc) == Returned(Str(sc.url.value))
    ensures sc.markdown.None? && sc.url.None? && sc.base64.Some? ==>
              ExtractImageUrl(sc) == Returned(Str(sc.base64.value))
    ensures sc.markdown.None? && sc.url.None? && sc.base64.None? ==>
              ExtractImageUrl(sc) == (match JsonScan(sc.json)
                                      case Some(v) => Returned(v)
                                      case None => Threw(NoImageDataError))
  {
    FirstFoundIsEarliest(Strategies(sc));
    var st := Strategies(sc);
    assert st[0] == MapStr(sc.markdown) && st[1] == MapStr(sc.url);
    assert st[2] == MapStr(sc.base64) && st[3] == JsonScan(sc.json);
  }

  // ---------------------------------------------------------------------------
  // generateImage
  // ---------------------------------------------------------------------------

  /** The chat call: its reply text, or a failure anywhere in sending or
      reading the reply. */
  datatype Reply = Reply(text: string) | SendFailed

  /** The format check: an `http` or a `data:image` prefix. */
  predicate WellFormed(address: string) {
    StartsWith(address, "http") || StartsWith(address, "data:image")
  }

  /** `generateImage`: outside the `try`, a missing chat session fails with
      its own message. Inside it, an empty reply, a failed extraction, a
      non-string value (whose `startsWith` throws) and an ill-formed address
      all fail, and every such failure is replaced by one message. */
  function GenerateImage(initialized: bool, reply: Reply, sc: Scans): (r: Outcome<string>)
    ensures !initialized ==> r == Threw(NotInitializedError)
    ensures initialized && r.Threw? ==> r.message == GenerateFailedError
    ensures r.Returned? ==> WellFormed(r.value)
    ensures r.Returned? <==>
              && initialized && reply.Reply? && reply.text != ""
              && ExtractImageUrl(sc).Returned? && ExtractImageUrl(sc).value.Str?
              && WellFormed(ExtractImageUrl(sc).value.s)
    ensures r.Returned? ==> r.value == ExtractImageUrl(sc).value.s
  {
    if !initialized then Threw(NotInitializedError)
    else match Attempt(reply, sc)
      case Returned(address) => Returned(address)
      case Threw(_) => Threw(GenerateFailedError)
  }

  /** The body of the `try`, with the error each step throws. */
  function Attempt(reply: Reply, sc: Scans): Outcome<string> {
    if reply.SendFailed? then Threw("send failed")
    else if reply.text == "" then Threw("Empty response from the model")
    else match ExtractImageUrl(sc)
      case Threw(m) => Threw(m)
      case Returned(v) =>
        if !v.Str? then Threw("imageUrl.startsWith is not a function")
        else if !WellFormed(v.s) then Threw("Invalid image URL format received")
        else Returned(v.s)
  }

  /** An empty reply fails, whatever the searches found. */
  lemma EmptyReplyFails(sc: Scans)
    ensures GenerateImage(true, Reply(""), sc) == Threw(GenerateFailedError)
  {
  }

  /** A relative markdown target is taken before any other strategy and
      then rejected, even when the reply also holds a usable address. */
  lemma RelativeMarkdownRejected(text: string, target: string, sc: Scans)
    requires text != "" && sc.markdown == Some(target)
    requires |target| > 0 && target[0] != 'h' && target[0] != 'd'
    ensures GenerateImage(true, Reply(text), sc) == Threw(GenerateFailedError)
  {
    assert !StartsWith(target, "http") by {
      assert "http"[0] == 'h';
    }
    assert !StartsWith(target, "data:image") by {
      assert "data:image"[0] == 'd';
    }
  }

  /** An object that does not parse hides a usable address in a later one. */
  lemma BrokenObjectHidesLaterAddress(text: string, address: string)
    requires text != ""
    ensures GenerateImage(true, Reply(text),
              Scans(None, None, None, [Unparsable, Parsed(Str(address), Undefined, Undefined)]))
            == Threw(GenerateFailedError)
  {
    UnparsableAbandonsRest([], [Parsed(Str(address), Undefined, Undefined)]);
    assert [] + [Unparsable] == [Unparsable];
    assert [] + [Unparsable] + [Parsed(Str(address), Undefined, Undefined)]
        == [Unparsable, Parsed(Str(address), Undefined, Undefined)];
  }

  /** A truthy non-string field (a number, say) is extracted but then fails,
      since only strings have `startsWith`. */
  lemma NumberAddressFails(text: string)
    requires text != ""
    ensures ExtractImageUrl(Scans(None, None, None, [Parsed(Number(7), Undefined, Undefined)])) == Returned(Number(7))
    ensures GenerateImage(true, Reply(text), Scans(None, None, None, [Parsed(Number(7), Undefined, Undefined)]))
            == Threw(GenerateFailedError)
  {
  }
}

=== FILE: image_recognition.dfy ===
/** The image-recognition panel: the checks on a chosen file, the choice of
    prompt, how the request is cut out of the image's data URL, how the
    answer or failure is shown, and clearing. */
module ImageRecognition {
  import opened Optional
  import opened Strings

  const NotAnImageError := "Please select an image file"
  const TooLargeError := "Image size should be less than 10MB"
  const ServiceErrorFallback := "Error analyzing image"
  const FailureFallback := "Failed to analyze image"
  const DefaultPrompt := "Analyze this image in detail. Describe what you see, identify any objects, people, text, or notable elements. If there's text in the image, transcribe it. If there are charts or diagrams, explain them."

  /** The largest accepted file: 10 MiB. */
  const MaxImageBytes := 10 * 1024 * 1024

  /** The fields of a chosen `File` that are looked at. */
  datatype File = File(mimeType: string, size: int)

  datatype RecognitionState = RecognitionState(
    image: Option<string>,    // the data URL read from the file
    result: string,
    isLoading: bool,
    error: Option<string>,
    customPrompt: string)

  // ---------------------------------------------------------------------------
  // Choosing a file
  // ---------------------------------------------------------------------------

  /** The new state and whether the file is handed to the reader; the image
      itself arrives later, through `ImageRead`. */
  datatype FileResult = FileResult(state: RecognitionState, readStarted: bool)

  /** `handleFileChange`: no file does nothing; the type is checked before
      the size; an accepted file clears the error and is read. */
  function ChooseFile(st: RecognitionState, file: Option<File>): (r: FileResult)
    ensures file.None? ==> r == FileResult(st, false)
    ensures file.Some? && !StartsWith(file.value.mimeType, "image/") ==>
              r == FileResult(st.(error := Some(NotAnImageError)), false)
    ensures file.Some? && StartsWith(file.value.mimeType, "image/") && file.value.size > MaxImageBytes ==>
              r == FileResult(st.(error := Some(TooLargeError)), false)
    ensures r.readStarted <==> file.Some? && StartsWith(file.value.mimeType, "image/") && file.value.size <= MaxImageBytes
    ensures r.readStarted ==> r.state == st.(error := None)
  {
    match file
    case None => FileResult(st, false)
    case Some(f) =>
      if !StartsWith(f.mimeType, "image/") then FileResult(st.(error := Some(NotAnImageError)), false)
      else if f.size > MaxImageBytes then FileResult(st.(error := Some(TooLargeError)), false)
      else FileResult(st.(error := None), true)
  }

  /** The reader's `onload`. */
  function ImageRead(st: RecognitionState, dataUrl: string): (st': RecognitionState)
    ensures st'.image == Some(dataUrl)
    ensures st' == st.(image := st'.image)
  {
    st.(image := Some(dataUrl))
  }

  /** The size limit is inclusive: exactly 10 MiB is accepted, one byte more
      is not. A non-image is refused on its type whatever its size. */
  lemma SizeBoundary(st: RecognitionState, mime: string)
    requires StartsWith(mime, "image/")
    ensures ChooseFile(st, Some(File(mime, 10485760))).readStarted
    ensures ChooseFile(st, Some(File(mime, 10485761))).state.error == Some(TooLargeError)
    ensures ChooseFile(st, Some(File("text/plain", 10485761))).state.error == Some(NotAnImageError)
  {
    assert "text/plain"[..6] != "image/" by {
      assert "text/plain"[0] != "image/"[0];
    }
  }

  // ---------------------------------------------------------------------------
  // Analysing
  // ---------------------------------------------------------------------------

  /** `selectedPrompt || customPrompt || default`: the first non-empty one. */
  function ChoosePrompt(selected: Option<string>, custom: string): (p: string)
    ensures p != ""
    ensures selected.Some? && selected.value != "" ==> p == selected.value
    ensures (selected.None? || selected.value == "") && custom != "" ==> p == custom
    ensures (selected.None? || selected.value == "") && custom == "" ==> p == DefaultPrompt
  {
    if selected.Some? && selected.value != "" then selected.value
    else if custom != "" then custom
    else DefaultPrompt
  }

  /** `image.split(',')[1]`: the payload after the first comma. */
  function PayloadOf(image: string): Option<string> {
    Field(image, ',', 1)
  }

  /** `image.split(';')[0].split(':')[1]`: the MIME type between the colon
      and the first semicolon. */
  function MimeOf(image: string): Option<string> {
    Field(Field(image, ';', 0).GetOr(""), ':', 1)
  }

  /** What is sent: the prompt and the image's `inline_data` fields, either
      of which may be missing when the image is not a well-formed data URL. */
  datatype Request = Request(prompt: string, mimeType: Option<string>, data: Option<string>)

  datatype AnalyzeResult = AnalyzeResult(state: RecognitionState, request: Option<Request>)

  /** `analyzeImage` up to the request: without an image or an API key it
      does nothing; otherwise it starts loading, clears the result and the
      error, and sends the chosen prompt with the image. */
  function Analyze(st: RecognitionState, apiKey: string, selected: Option<string>): (r: AnalyzeResult)
    ensures st.image.None? || st.image.value == "" || apiKey == "" ==> r == AnalyzeResult(st, None)
    ensures r.request.Some? <==> st.image.Some? && st.image.value != "" && apiKey != ""
    ensures r.request.Some? ==>
              && r.state == st.(isLoading := true, result := "", error := None)
              && r.request.value.prompt == ChoosePrompt(selected, st.customPrompt)
              && r.request.value.mimeType == MimeOf(st.image.value)
              && r.request.value.data == PayloadOf(st.image.value)
  {
    if st.image.None? || st.image.value == "" || apiKey == "" then AnalyzeResult(st, None)
    else
      var image := st.image.value;
      AnalyzeResult(st.(isLoading := true, result := "", error := None),
                    Some(Request(ChoosePrompt(selected, st.customPrompt), MimeOf(image), PayloadOf(image))))
  }

  /** The data URL the reader produces: `data:<mime>;base64,<payload>`. */
  function DataUrl(mime: string, payload: string): string {
    "data:" + mime + ";base64," + payload
  }

  /** For a data URL the request carries exactly its MIME type and payload. */
  lemma DataUrlSplits(mime: string, payload: string)
    requires ';' !in mime && ':' !in mime && ',' !in mime && ',' !in payload
    ensures MimeOf(DataUrl(mime, payload)) == Some(mime)
    ensures PayloadOf(DataUrl(mime, payload)) == Some(payload)
  {
    var url := DataUrl(mime, payload);
    // Cut at the first ';'.
    var head := "data:" + mime;
    assert ';' !in head by {
      assert forall i :: 0 <= i < |head| ==> head[i] == (if i < 5 then "data:"[i] else mime[i - 5]);
    }
    assert url == head + [';'] + ("base64," + payload);
    SplitCons(head, ';', "base64," + payload);
    assert Field(url, ';', 0) == Some(head);
    // Cut the head at ':'.
    assert head == "data" + [':'] + mime;
    assert ':' !in "data";
    SplitCons("data", ':', mime);
    SplitNoSep(mime, ':');
    // Cut at the first ','.
    var front := "data:" + mime + ";base64";
    assert ',' !in front by {
      assert forall i :: 0 <= i < |front| ==>
        front[i] == (if i < 5 then "data:"[i] else if i < 5 + |mime| then mime[i - 5] else ";base64"[i - 5 - |mime|]);
    }
    assert url == front + [','] + payload;
    SplitCons(front, ',', payload);
    SplitNoSep(payload, ',');
  }

  /** How the call ended: the reply text, an error object in the reply, or a
      thrown failure, each with its message (possibly empty). */
  datatype Outcome = Answered(text: string) | ServiceError(message: string) | Thrown(message: string)

  /** The end of `analyzeImage`: the reply text is shown, or the error's own
      message, or a fixed fallback when that message is empty. Loading stops
      either way. */
  function Complete(st: RecognitionState, o: Outcome): (st': RecognitionState)
    ensures !st'.isLoading
    ensures o.Answered? ==> st'.result == o.text && st'.error == st.error
    ensures o.ServiceError? ==> st'.result == st.result && st'.error.Some? && st'.error.value != ""
    ensures o.ServiceError? && o.message == "" ==> st'.error == Some(ServiceErrorFallback)
    ensures o.Thrown? && o.message == "" ==> st'.error == Some(FailureFallback)
    ensures !o.Answered? && o.message != "" ==> st'.error == Some(o.message)
    ensures st'.image == st.image && st'.customPrompt == st.customPrompt
  {
    match o
    case Answered(text) => st.(result := text, isLoading := false)
    case ServiceError(m) =>
      // `new Error(m || fallback)`, whose message is then non-empty.
      st.(error := Some(if m != "" then m else ServiceErrorFallback), isLoading := false)
    case Thrown(m) =>
      st.(error := Some(if m != "" then m else FailureFallback), isLoading := false)
  }

  /** `clearImage` */
  function Clear(st: RecognitionState): (st': RecognitionState)
    ensures st'.image.None? && st'.result == "" && st'.error.None?
    ensures st'.isLoading == st.isLoading && st'.customPrompt == st.customPrompt
  {
    st.(image := None, result := "", error := None)
  }

  /** After clearing, analysing does nothing until another image is read. */
  lemma ClearedCannotAnalyze(st: RecognitionState, apiKey: string, selected: Option<string>)
    ensures Analyze(Clear(st), apiKey, selected).request.None?
  {
  }
}

=== FILE: keyboard.dfy ===
/** Keyboard events and the single-letter section shortcuts shared by the
    page's global handler and the standalone shortcuts overlay. */
module Keyboard {
  import opened Optional

  /** The fields of a `KeyboardEvent` the handlers read. */
  datatype KeyEvent = KeyEvent(key: string, shift: bool, ctrl: bool, meta: bool, alt: bool)

  predicate AnyModifier(e: KeyEvent) {
    e.ctrl || e.meta || e.alt || e.shift
  }

  /** The element holding focus, as far as the handlers look at it: its tag
      name and its `contenteditable` attribute, if any. */
  datatype Focus = Focus(tagName: string, contentEditable: Option<string>)

  /** An input, a textarea or an editable element has focus. */
  predicate IsTextEntry(f: Option<Focus>) {
    f.Some? && (f.value.tagName == "INPUT" || f.value.tagName == "TEXTAREA"
                || f.value.contentEditable == Some("true"))
  }

  /** A section of the page with its navigation-dot label. */
  datatype NavDot = NavDot(id: string, title: string)

  /** `navigationDots`, top of the page to bottom. */
  const NavigationDots: seq<NavDot> := [
    NavDot("hero", "Home"), NavDot("models", "Models"), NavDot("developer", "Developer"),
    NavDot("cli", "CLI"), NavDot("config", "Config"), NavDot("docs", "Docs"),
    NavDot("course", "Course"), NavDot("tech", "Tech Stack"), NavDot("founder", "Founder"),
    NavDot("connect", "Connect")
  ]

  /** The shortcut letters, in the order of the sections they reach. */
  const ShortcutKeys: seq<string> := ["h", "m", "d", "c", "g", "o", "u", "t", "r", "s"]

  /** The `switch (e.key)` of both handlers: the section a plain key scrolls to. */
  function SectionForKey(key: string): (r: Option<string>)
    ensures r.Some? <==> key in ShortcutKeys
  {
    match key
    case "h" => Some("hero")
    case "m" => Some("models")
    case "d" => Some("developer")
    case "c" => Some("cli")
    case "g" => Some("config")
    case "o" => Some("docs")
    case "u" => Some("course")
    case "t" => Some("tech")
    case "r" => Some("founder")
    case "s" => Some("connect")
    case _ => None
  }

  /** The letters and the navigation dots line up one to one: the i-th
      letter reaches the i-th section, so every section has a letter and no
      two letters share a section. */
  lemma ShortcutsMatchDots()
    ensures |ShortcutKeys| == |NavigationDots|
    ensures forall i :: 0 <= i < |ShortcutKeys| ==> SectionForKey(ShortcutKeys[i]) == Some(NavigationDots[i].id)
    ensures forall i, j :: 0 <= i < j < |ShortcutKeys| ==> ShortcutKeys[i] != ShortcutKeys[j]
    ensures forall i, j :: 0 <= i < j < |NavigationDots| ==> NavigationDots[i].id != NavigationDots[j].id
  {
    ShortcutsReachDots();
    DotIdsDistinct();
  }

  /** The i-th letter reaches the i-th dot's section. */
  lemma ShortcutsReachDots()
    ensures |ShortcutKeys| == |NavigationDots| == 10
    ensures forall i :: 0 <= i < |ShortcutKeys| ==> SectionForKey(ShortcutKeys[i]) == Some(NavigationDots[i].id)
  {
    forall i | 0 <= i < 5
      ensures SectionForKey(ShortcutKeys[i]) == Some(NavigationDots[i].id)
    {
    }
    forall i | 5 <= i < 10
      ensures SectionForKey(ShortcutKeys[i]) == Some(NavigationDots[i].id)
    {
    }
  }

  /** The position of a section among the dots. */
  function DotPosition(id: string): int {
    match id
    case "hero" => 0 case "models" => 1 case "developer" => 2 case "cli" => 3
    case "config" => 4 case "docs" => 5 case "course" => 6 case "tech" => 7
    case "founder" => 8 case "connect" => 9
    case _ => -1
  }

  /** No two dots share a section id: each id sits at its own position. */
  lemma DotIdsDistinct()
    ensures forall i, j :: 0 <= i < j < |NavigationDots| ==> NavigationDots[i].id != NavigationDots[j].id
  {
    forall i | 0 <= i < |NavigationDots|
      ensures DotPosition(NavigationDots[i].id) == i
    {
    }
  }

  /** Two keys reaching the same section are the same key. */
  lemma SectionForKeyInjective(a: string, b: string)
    requires SectionForKey(a).Some? && SectionForKey(a) == SectionForKey(b)
    ensures a == b
  {
  }
}

=== FILE: lists.dfy ===
/** Sequence notions shared by the list pipelines. */
module Lists {

  /** `s` can be obtained from `t` by deleting elements: the kept elements
      stay in their original order. */
  ghost predicate IsSubsequence<T>(s: seq<T>, t: seq<T>)
    decreases |t|
  {
    if |s| == 0 then true
    else if |t| == 0 then false
    else if s[0] == t[0] then IsSubsequence(s[1..], t[1..])
    else IsSubsequence(s, t[1..])
  }
}

=== FILE: navigation.dfy ===
/** The page shell: the global keyboard handler, the choice of the active
    section from intersection reports, the shortcut hint, the shortcuts
    overlay with its persisted "seen" flag, and the model dialogs opened by
    the assistant. */
module Navigation {
  import opened Optional
  import opened Storage
  import opened Keyboard

  const SeenKey := "keyboardShortcutsSeen"

  datatype AppState = AppState(
    activeSection: string,
    shortcutsOpen: bool,
    hasSeenShortcuts: bool,
    // The first-visit timer that opens the overlay is scheduled.
    timerPending: bool,
    llamaOpen: bool,
    geminiOpen: bool,
    grokOpen: bool,
    store: Store)

  /** What a key press did: the new state and the section scrolled to, if any. */
  datatype KeyResult = KeyResult(state: AppState, scrollTo: Option<string>)

  // ---------------------------------------------------------------------------
  // The global keyboard handler
  // ---------------------------------------------------------------------------

  predicate IsQuestionMark(e: KeyEvent) {
    e.shift && (e.key == "/" || e.key == "?")
  }

  /** `handleKeyDown` */
  function HandleKey(st: AppState, e: KeyEvent, focus: Option<Focus>): (r: KeyResult)
    // Escape only ever closes an open overlay.
    ensures e.key == "Escape" && st.shortcutsOpen ==>
              r.state == st.(shortcutsOpen := false) && r.scrollTo == None
    // Shift with '/' or '?' opens the overlay, even from a text field.
    ensures !(e.key == "Escape" && st.shortcutsOpen) && IsQuestionMark(e) ==>
              r.state == st.(shortcutsOpen := true) && r.scrollTo == None
    // No navigation from a text field, under the overlay, or with a modifier.
    ensures IsTextEntry(focus) || st.shortcutsOpen || AnyModifier(e) ==> r.scrollTo == None
    // Only the overlay flag ever changes.
    ensures r.state == st.(shortcutsOpen := r.state.shortcutsOpen)
    // A navigation happens exactly for a mapped key pressed alone, outside
    // text fields and with the overlay closed.
    ensures r.scrollTo.Some? <==>
              !IsTextEntry(focus) && !st.shortcutsOpen && !AnyModifier(e) && SectionForKey(e.key).Some?
    ensures r.scrollTo.Some? ==> r.scrollTo == SectionForKey(e.key) && r.state == st
  {
    if e.key == "Escape" && st.shortcutsOpen then KeyResult(st.(shortcutsOpen := false), None)
    else if IsQuestionMark(e) then KeyResult(st.(shortcutsOpen := true), None)
    else if IsTextEntry(focus) || st.shortcutsOpen then KeyResult(st, None)
    else if AnyModifier(e) then KeyResult(st, None)
    else KeyResult(st, SectionForKey(e.key))
  }

  /** Every shortcut letter, pressed alone with nothing focused and the
      overlay closed, scrolls to the matching navigation dot's section. */
  lemma LettersReachDots(st: AppState, i: int)
    requires 0 <= i < |ShortcutKeys| && !st.shortcutsOpen
    ensures HandleKey(st, KeyEvent(ShortcutKeys[i], false, false, false, false), None).scrollTo
            == Some(NavigationDots[i].id)
  {
    ShortcutsMatchDots();
  }

  // ---------------------------------------------------------------------------
  // The active section
  // ---------------------------------------------------------------------------

  /** One `IntersectionObserverEntry`: the section id, whether it
      intersects, and its visible ratio. */
  datatype Entry = Entry(id: string, isIntersecting: bool, ratio: real)

  /** `entries.filter(entry => entry.isIntersecting)` */
  function Intersecting(es: seq<Entry>): (r: seq<Entry>)
    ensures |r| <= |es|
    ensures forall k :: 0 <= k < |r| ==> r[k].isIntersecting && r[k] in es
    ensures forall e :: e in es && e.isIntersecting ==> e in r
    decreases |es|
  {
    if |es| == 0 then []
    else (if es[0].isIntersecting then [es[0]] else []) + Intersecting(es[1..])
  }

  /** Index `i` holds a highest ratio and every later entry is strictly lower:
      the entry a left-to-right "keep the previous only if strictly greater"
      reduction ends with. */
  ghost predicate IsLastMaximum(es: seq<Entry>, i: int) {
    && 0 <= i < |es|
    && (forall j :: 0 <= j < |es| ==> es[j].ratio <= es[i].ratio)
    && (forall j :: i < j < |es| ==> es[j].ratio < es[i].ratio)
  }

  /** The position `entries.reduce((prev, cur) => prev.ratio > cur.ratio ? prev : cur)`
      ends at: the fold over all but the last entry, compared with the last. */
  function MostVisible(es: seq<Entry>): (i: nat)
    requires |es| > 0
    ensures IsLastMaximum(es, i)
    decreases |es|
  {
    if |es| == 1 then 0
    else
      var p := MostVisible(es[..|es| - 1]);
      if es[p].ratio > es[|es| - 1].ratio then p else |es| - 1
  }

  /** Only one position can be the last maximum. */
  lemma LastMaximumUnique(es: seq<Entry>, i: int, j: int)
    requires IsLastMaximum(es, i) && IsLastMaximum(es, j)
    ensures i == j
  {
    assert es[i].ratio == es[j].ratio;
  }

  /** The observer callback: the most visible intersecting section becomes
      active; with nothing intersecting, the active section stays. */
  function ObserveSections(st: AppState, entries: seq<Entry>): (st': AppState)
    ensures st' == st.(activeSection := st'.activeSection)
    ensures Intersecting(entries) == [] ==> st' == st
    ensures Intersecting(entries) != [] ==>
              exists i :: IsLastMaximum(Intersecting(entries), i)
                          && st'.activeSection == Intersecting(entries)[i].id
  {
    var visible := Intersecting(entries);
    if |visible| == 0 then st
    else st.(activeSection := visible[MostVisible(visible)].id)
  }

  /** A tie between two sections goes to the one reported later. */
  lemma TieGoesToLater(st: AppState, a: string, b: string, ratio: real)
    ensures ObserveSections(st, [Entry(a, true, ratio), Entry(b, true, ratio)]).activeSection == b
  {
    var es := [Entry(a, true, ratio), Entry(b, true, ratio)];
    assert Intersecting(es) == es by {
      assert es[1..][1..] == [];
    }
    assert IsLastMaximum(es, 1);
    var i := MostVisible(es);
    LastMaximumUnique(es, i, 1);
  }

  // ---------------------------------------------------------------------------
  // The shortcut hint
  // ---------------------------------------------------------------------------

  /** `isMobileDevice`: a mobile user agent or a window narrower than 1024px. */
  predicate IsMobileDevice(mobileUserAgent: bool, innerWidth: int) {
    mobileUserAgent || innerWidth < 1024
  }

  /** The hint button's visibility, recomputed on section change and resize. */
  function ShowShortcutHint(activeSection: string, mobileUserAgent: bool, innerWidth: int): (r: bool)
    ensures r ==> activeSection == "hero"
    ensures r ==> !mobileUserAgent && innerWidth >= 1024
    ensures activeSection == "hero" && !IsMobileDevice(mobileUserAgent, innerWidth) ==> r
  {
    activeSection == "hero" && !IsMobileDevice(mobileUserAgent, innerWidth)
  }

  /** The hint follows the observer: after a report in which some section
      intersects, it shows exactly when the most visible of them is the hero
      section on a desktop-sized, non-mobile browser; after a report with
      nothing intersecting, it stays as it was. */
  lemma HintFollowsObserver(st: AppState, entries: seq<Entry>, mobileUserAgent: bool, innerWidth: int)
    ensures var vis := Intersecting(entries);
            vis != [] ==>
              (ShowShortcutHint(ObserveSections(st, entries).activeSection, mobileUserAgent, innerWidth)
               <==> (exists i :: IsLastMaximum(vis, i) && vis[i].id == "hero") && !mobileUserAgent && innerWidth >= 1024)
    ensures Intersecting(entries) == [] ==>
              ShowShortcutHint(ObserveSections(st, entries).activeSection, mobileUserAgent, innerWidth)
              == ShowShortcutHint(st.activeSection, mobileUserAgent, innerWidth)
  {
    var vis := Intersecting(entries);
    if vis != [] {
      var i := MostVisible(vis);
      assert ObserveSections(st, entries).activeSection == vis[i].id;
      LastMaximumIs(vis, i, "hero");
    }
  }

  /** Some last maximum has section `id` exactly when the given one has. */
  lemma LastMaximumIs(es: seq<Entry>, i: nat, id: string)
    requires IsLastMaximum(es, i)
    ensures (exists j :: IsLastMaximum(es, j) && es[j].id == id) <==> es[i].id == id
  {
    if exists j :: IsLastMaximum(es, j) && es[j].id == id {
      var j :| IsLastMaximum(es, j) && es[j].id == id;
      LastMaximumUnique(es, i, j);
    }
  }

  // ---------------------------------------------------------------------------
  // The shortcuts overlay and its "seen" flag
  // ---------------------------------------------------------------------------

  /** The flag's initial value: the stored entry is exactly "true". */
  function InitialSeen(store: Store): (r: bool)
    ensures r <==> SeenKey in store && store[SeenKey] == "true"
  {
    GetItem(store, SeenKey) == Some("true")
  }

  /** State after the first render, before any effect has run. */
  function Rendered(store: Store): (st: AppState)
    ensures st.activeSection == "hero" && !st.shortcutsOpen && !st.timerPending
    ensures st.hasSeenShortcuts == InitialSeen(store) && st.store == store
  {
    AppState("hero", false, InitialSeen(store), false, false, false, false, store)
  }

  /** The first-visit effect: schedule the overlay while the flag is unset;
      a change of the flag first clears a scheduled timer. */
  function FirstVisitEffect(st: AppState): (st': AppState)
    ensures st'.timerPending <==> !st.hasSeenShortcuts
    ensures st' == st.(timerPending := st'.timerPending)
  {
    st.(timerPending := !st.hasSeenShortcuts)
  }

  /** The mark-seen effect as written: whenever the overlay is closed and the
      flag is unset, set the flag and persist it. */
  function MarkSeenEffect(st: AppState): (st': AppState)
    ensures !st.shortcutsOpen && !st.hasSeenShortcuts ==>
              st'.hasSeenShortcuts && st'.store == st.store[SeenKey := "true"]
    ensures st.shortcutsOpen || st.hasSeenShortcuts ==> st' == st
    ensures st'.shortcutsOpen == st.shortcutsOpen && st'.timerPending == st.timerPending
  {
    if !st.shortcutsOpen && !st.hasSeenShortcuts then
      st.(hasSeenShortcuts := true, store := st.store[SeenKey := "true"])
    else st
  }

  /** The two-second timer firing: opens the overlay if still scheduled. */
  function TimerFires(st: AppState): (st': AppState)
    ensures st.timerPending ==> st'.shortcutsOpen && !st'.timerPending
    ensures !st.timerPending ==> st' == st
  {
    if st.timerPending then st.(shortcutsOpen := true, timerPending := false) else st
  }

  /** Mounting as written: both effects run after the first render; the
      flag they set is a dependency of the first-visit effect, which cleans
      up (cancelling its timer) and runs again before the timer can fire. */
  function MountAsWritten(store: Store): (st: AppState)
    ensures !st.timerPending && st.hasSeenShortcuts
    ensures SeenKey in st.store && st.store[SeenKey] == "true"
  {
    var first := MarkSeenEffect(FirstVisitEffect(Rendered(store)));
    if first.hasSeenShortcuts != InitialSeen(store) then FirstVisitEffect(first) else first
  }

  /** On a first visit, the overlay the first-visit effect schedules never
      opens: the mark-seen effect persists the flag on mount and the timer
      is cancelled. */
  lemma FirstVisitOverlayNeverOpens(store: Store)
    requires SeenKey !in store
    ensures !TimerFires(MountAsWritten(store)).shortcutsOpen
    ensures InitialSeen(MountAsWritten(store).store)
  {
  }

  /** The mark-seen effect as intended: the flag is set when the overlay
      goes from open to closed, not merely while it is closed. */
  function MarkSeenOnClose(before: AppState, after: AppState): (st': AppState)
    ensures before.shortcutsOpen && !after.shortcutsOpen && !after.hasSeenShortcuts ==>
              st'.hasSeenShortcuts && st'.store == after.store[SeenKey := "true"]
    ensures !(before.shortcutsOpen && !after.shortcutsOpen) ==> st' == after
    ensures st'.shortcutsOpen == after.shortcutsOpen && st'.timerPending == after.timerPending
  {
    if before.shortcutsOpen && !after.shortcutsOpen then MarkSeenEffect(after) else after
  }

  /** Mounting with the intended effect: only the first-visit effect acts. */
  function Mount(store: Store): (st: AppState)
    ensures st.timerPending <==> !InitialSeen(store)
    ensures st.store == store && !st.shortcutsOpen
  {
    var rendered := Rendered(store);
    MarkSeenOnClose(rendered, FirstVisitEffect(rendered))
  }

  /** Closing the overlay with Escape, followed by the intended effect. */
  function CloseWithEscape(st: AppState): (st': AppState)
    ensures st.shortcutsOpen && !st.hasSeenShortcuts ==>
              !st'.shortcutsOpen && st'.hasSeenShortcuts && InitialSeen(st'.store)
    ensures !st.shortcutsOpen ==> st' == st
  {
    var after := HandleKey(st, KeyEvent("Escape", false, false, false, false), None).state;
    MarkSeenOnClose(st, after)
  }

  /** With the intended effect, a first visit opens the overlay once the
      timer fires; closing it persists the flag, and the next visit with
      that storage schedules nothing. */
  lemma FirstVisitOverlayOpensOnce(store: Store)
    requires SeenKey !in store
    ensures TimerFires(Mount(store)).shortcutsOpen
    ensures InitialSeen(CloseWithEscape(TimerFires(Mount(store))).store)
    ensures !Mount(CloseWithEscape(TimerFires(Mount(store))).store).timerPending
  {
  }

  /** `openKeyboardShortcuts`, sent by the assistant. */
  function OpenShortcuts(st: AppState): (st': AppState)
    ensures st' == st.(shortcutsOpen := true)
  {
    st.(shortcutsOpen := true)
  }

  // ---------------------------------------------------------------------------
  // Model dialogs
  // ---------------------------------------------------------------------------

  /** `handleOpenModelModal`: opens the dialog named by the event, if any. */
  function OpenModelModal(st: AppState, model: string): (st': AppState)
    ensures st'.llamaOpen == (st.llamaOpen || model == "llama")
    ensures st'.geminiOpen == (st.geminiOpen || model == "gemini")
    ensures st'.grokOpen == (st.grokOpen || model == "grok")
    ensures st' == st.(llamaOpen := st'.llamaOpen, geminiOpen := st'.geminiOpen, grokOpen := st'.grokOpen)
  {
    if model == "llama" then st.(llamaOpen := true)
    else if model == "gemini" then st.(geminiOpen := true)
    else if model == "grok" then st.(grokOpen := true)
    else st
  }
}

=== FILE: optional.dfy ===
/** A value that may be absent: JavaScript's `null`/`undefined` results
    (a missing storage entry, an out-of-range array index). */
module Optional {

  datatype Option<+T> = None | Some(value: T) {

    /** The value, or `default` when absent (JavaScript's `x ?? default`). */
    function GetOr(default: T): T {
      match this
      case Some(v) => v
      case None => default
    }
  }
}

=== FILE: partners.dfy ===
/** The expanded AI-partner comparison: fifteen partners ranked by a
    stable descending sort on efficiency (and, separately, on accuracy),
    with the feature cards and the leader boards taken from the front of
    the rankings. */
module Partners {

  /** The fifteen partners compared. */
  datatype PartnerName =
    | GitHubCopilot | Bolt | BlackboxAI | Qodo | AugmentCode
    | Gemini25Pro | Gemini20Flash | Gpt4o | Gpt4oMini | Claude35Sonnet
    | Claude37Sonnet | DeepSeekR1 | DeepSeekR1Distill | Codium | Widsurf

  /** The name shown for each partner. */
  function Title(n: PartnerName): string {
    match n
    case GitHubCopilot => "GitHub Copilot"
    case Bolt => "Bolt"
    case BlackboxAI => "Blackbox AI"
    case Qodo => "Qodo"
    case AugmentCode => "Augment Code"
    case Gemini25Pro => "Gemini 2.5 Pro"
    case Gemini20Flash => "Gemini 2.0 Flash"
    case Gpt4o => "GPT-4o"
    case Gpt4oMini => "GPT-4o-mini"
    case Claude35Sonnet => "Claude 3.5 Sonnet"
    case Claude37Sonnet => "Claude 3.7 Sonnet"
    case DeepSeekR1 => "DeepSeek R1"
    case DeepSeekR1Distill => "DeepSeek R1 (d-32B)"
    case Codium => "Codium"
    case Widsurf => "Widsurf"
  }

  /** `AIPartner`, without its colour and presentation text. */
  datatype Partner = Partner(name: PartnerName, efficiency: int, accuracy: int)

  /** The two measures a ranking can be ordered by. */
  datatype Metric = Efficiency | Accuracy

  function Score(p: Partner, m: Metric): int {
    match m
    case Efficiency => p.efficiency
    case Accuracy => p.accuracy
  }

  /** `partners` */
  const AllPartners: seq<Partner> := [
    Partner(GitHubCopilot, 85, 78),
    Partner(Bolt, 92, 83),
    Partner(BlackboxAI, 88, 81),
    Partner(Qodo, 79, 86),
    Partner(AugmentCode, 94, 89),
    Partner(Gemini25Pro, 93, 94),
    Partner(Gemini20Flash, 90, 92),
    Partner(Gpt4o, 95, 93),
    Partner(Gpt4oMini, 91, 89),
    Partner(Claude35Sonnet, 92, 91),
    Partner(Claude37Sonnet, 94, 93),
    Partner(DeepSeekR1, 89, 88),
    Partner(DeepSeekR1Distill, 87, 86),
    Partner(Codium, 82, 77),
    Partner(Widsurf, 76, 80)
  ]

  /** A list with the shipped entries, entry by entry. */
  ghost predicate Shipped(p: seq<Partner>) {
    |p| == |AllPartners| && forall i :: 0 <= i < |p| ==> p[i] == AllPartners[i]
  }

  /** The shipped list is the only one with its entries. */
  lemma ShippedIsAllPartners(p: seq<Partner>)
    ensures Shipped(p) <==> p == AllPartners
  {
    if Shipped(p) {
      assert p == AllPartners;
    }
  }

  // ---------------------------------------------------------------------------
  // What a stable descending sort is
  // ---------------------------------------------------------------------------

  /** Non-increasing in the metric. */
  ghost predicate Descending(s: seq<Partner>, m: Metric) {
    forall i, j :: 0 <= i < j < |s| ==> Score(s[i], m) >= Score(s[j], m)
  }

  /** The entries scoring exactly `v`, in the order they appear. */
  function WithScore(s: seq<Partner>, m: Metric, v: int): (r: seq<Partner>)
    ensures forall i :: 0 <= i < |r| ==> Score(r[i], m) == v
    ensures |r| <= |s|
    decreases |s|
  {
    if |s| == 0 then []
    else (if Score(s[0], m) == v then [s[0]] else []) + WithScore(s[1..], m, v)
  }

  /** `r` is `s` stably sorted: descending, and every group of equal scores
      appears in `r` in the same order as in `s`. */
  ghost predicate StablySorted(r: seq<Partner>, s: seq<Partner>, m: Metric) {
    && Descending(r, m)
    && (forall v :: WithScore(r, m, v) == WithScore(s, m, v))
    && multiset(r) == multiset(s)
  }

  // ---------------------------------------------------------------------------
  // The sort
  // ---------------------------------------------------------------------------

  /** Places `x` after every entry scoring at least as much, so an entry
      that ties with `x` stays ahead of it. */
  function Insert(x: Partner, s: seq<Partner>, m: Metric): (r: seq<Partner>)
    ensures |r| == |s| + 1
    decreases |s|
  {
    if |s| == 0 then [x]
    else if Score(s[0], m) >= Score(x, m) then [s[0]] + Insert(x, s[1..], m)
    else [x] + s
  }

  /** Where `Insert` puts `x`: just before the first entry scoring less
      than it, or at the end when there is none. */
  lemma {:induction false} InsertAt(x: Partner, s: seq<Partner>, m: Metric, k: nat)
    requires k <= |s|
    requires forall i :: 0 <= i < k ==> Score(s[i], m) >= Score(x, m)
    requires k < |s| ==> Score(s[k], m) < Score(x, m)
    ensures Insert(x, s, m) == s[..k] + [x] + s[k..]
    decreases k
  {
    if k > 0 {
      InsertAt(x, s[1..], m, k - 1);
      assert s[..k] == [s[0]] + s[1..][..k - 1];
      assert s[k..] == s[1..][k - 1..];
    }
  }

  /** Inserting adds exactly one copy of `x`. */
  lemma {:induction false} InsertMultiset(x: Partner, s: seq<Partner>, m: Metric)
    ensures multiset(Insert(x, s, m)) == multiset(s) + multiset{x}
    decreases |s|
  {
    if |s| > 0 && Score(s[0], m) >= Score(x, m) {
      InsertMultiset(x, s[1..], m);
      assert s == [s[0]] + s[1..];
    }
  }

  /** Inserting into a descending list keeps it descending. */
  lemma {:induction false} InsertSorted(x: Partner, s: seq<Partner>, m: Metric)
    requires Descending(s, m)
    ensures Descending(Insert(x, s, m), m)
    decreases |s|
  {
    if |s| == 0 {
    } else if Score(s[0], m) >= Score(x, m) {
      var rest := Insert(x, s[1..], m);
      InsertSorted(x, s[1..], m);
      InsertMultiset(x, s[1..], m);
      forall y | y in rest
        ensures Score(y, m) <= Score(s[0], m)
      {
        assert y in multiset(rest);
      }
      DescendingCons(s[0], rest, m);
    } else {
      DescendingCons(x, s, m);
    }
  }

  /** An entry scoring at least as much as everything in a descending list
      may go in front of it. */
  lemma DescendingCons(a: Partner, t: seq<Partner>, m: Metric)
    requires Descending(t, m)
    requires forall y :: y in t ==> Score(y, m) <= Score(a, m)
    ensures Descending([a] + t, m)
  {
    forall i, j | 0 <= i < j < |[a] + t|
      ensures Score(([a] + t)[i], m) >= Score(([a] + t)[j], m)
    {
      assert ([a] + t)[j] == t[j - 1];
      if i > 0 {
        assert ([a] + t)[i] == t[i - 1];
      }
    }
  }

  /** Inserts the entries of `s`, left to right, into the sorted `acc`. */
  function RankFrom(acc: seq<Partner>, s: seq<Partner>, m: Metric): (r: seq<Partner>)
    ensures |r| == |acc| + |s|
    decreases |s|
  {
    if |s| == 0 then acc else RankFrom(Insert(s[0], acc, m), s[1..], m)
  }

  /** `[...partners].sort((a, b) => b.metric - a.metric)`: a sorted copy,
      built by inserting the entries one at a time from the left. The array
      sort is stable, so ties keep their relative order. */
  function Rank(s: seq<Partner>, m: Metric): (r: seq<Partner>)
    ensures |r| == |s|
  {
    RankFrom([], s, m)
  }

  /** Inserting adds `x` at the end of its own score group and leaves the
      other groups alone. */
  lemma {:induction false} InsertGroups(x: Partner, s: seq<Partner>, m: Metric, v: int)
    requires Descending(s, m)
    ensures WithScore(Insert(x, s, m), m, v)
            == WithScore(s, m, v) + (if Score(x, m) == v then [x] else [])
    decreases |s|
  {
    if |s| == 0 {
      WithScoreCons(x, [], m, v);
      assert [x] + [] == [x];
    } else if Score(s[0], m) >= Score(x, m) {
      InsertGroups(x, s[1..], m, v);
      assert Insert(x, s, m) == [s[0]] + Insert(x, s[1..], m);
      ConsGroups(s[0], Insert(x, s[1..], m), s[1..], if Score(x, m) == v then [x] else [], m, v);
      assert [s[0]] + s[1..] == s;
    } else {
      InsertInFront(x, s, m, v);
    }
  }

  /** When `x` outscores the head of `s` it outscores all of it, so nothing
      in `s` shares its group. */
  lemma InsertInFront(x: Partner, s: seq<Partner>, m: Metric, v: int)
    requires Descending(s, m) && |s| > 0 && Score(s[0], m) < Score(x, m)
    ensures WithScore([x] + s, m, v)
            == WithScore(s, m, v) + (if Score(x, m) == v then [x] else [])
  {
    WithScoreCons(x, s, m, v);
    if Score(x, m) == v {
      NoneWithScore(s, m, v);
    }
  }

  /** Putting the same head on two lists keeps a relation between their
      groups that appends `t`. */
  lemma ConsGroups(h: Partner, rest: seq<Partner>, tail: seq<Partner>, t: seq<Partner>, m: Metric, v: int)
    requires WithScore(rest, m, v) == WithScore(tail, m, v) + t
    ensures WithScore([h] + rest, m, v) == WithScore([h] + tail, m, v) + t
  {
    WithScoreCons(h, rest, m, v);
    WithScoreCons(h, tail, m, v);
    var g := if Score(h, m) == v then [h] else [];
    assert g + (WithScore(tail, m, v) + t) == (g + WithScore(tail, m, v)) + t;
  }

  /** Grouping a list with a new head. */
  lemma WithScoreCons(a: Partner, t: seq<Partner>, m: Metric, v: int)
    ensures WithScore([a] + t, m, v) == (if Score(a, m) == v then [a] else []) + WithScore(t, m, v)
  {
    assert ([a] + t)[0] == a;
    assert ([a] + t)[1..] == t;
  }

  /** When the head of a descending list scores below `v`, so does every
      entry, and none scores exactly `v`. */
  lemma {:induction false} NoneWithScore(s: seq<Partner>, m: Metric, v: int)
    requires Descending(s, m)
    requires |s| > 0 ==> Score(s[0], m) < v
    ensures WithScore(s, m, v) == []
    decreases |s|
  {
    if |s| > 0 {
      NoneWithScore(s[1..], m, v);
    }
  }

  /** Grouping by score distributes over concatenation. */
  lemma {:induction false} WithScoreAppend(a: seq<Partner>, b: seq<Partner>, m: Metric, v: int)
    ensures WithScore(a + b, m, v) == WithScore(a, m, v) + WithScore(b, m, v)
    decreases |a|
  {
    if |a| == 0 {
      assert a + b == b;
    } else {
      assert (a + b)[1..] == a[1..] + b;
      WithScoreAppend(a[1..], b, m, v);
    }
  }

  /** Inserting the rest of the list into a sorted prefix: the result is
      descending, and its groups are the prefix's followed by the rest's. */
  lemma {:induction false} RankFromStable(acc: seq<Partner>, s: seq<Partner>, m: Metric)
    requires Descending(acc, m)
    ensures Descending(RankFrom(acc, s, m), m)
    ensures multiset(RankFrom(acc, s, m)) == multiset(acc) + multiset(s)
    ensures forall v :: WithScore(RankFrom(acc, s, m), m, v) == WithScore(acc, m, v) + WithScore(s, m, v)
    decreases |s|
  {
    if |s| > 0 {
      var acc' := Insert(s[0], acc, m);
      InsertSorted(s[0], acc, m);
      InsertMultiset(s[0], acc, m);
      RankFromStable(acc', s[1..], m);
      assert s == [s[0]] + s[1..];
      forall v
        ensures WithScore(RankFrom(acc, s, m), m, v) == WithScore(acc, m, v) + WithScore(s, m, v)
      {
        InsertThenRest(acc, s, m, v);
      }
    }
  }

  /** One step of `RankFromStable`, for one score group. */
  lemma InsertThenRest(acc: seq<Partner>, s: seq<Partner>, m: Metric, v: int)
    requires Descending(acc, m) && |s| > 0
    ensures WithScore(Insert(s[0], acc, m), m, v) + WithScore(s[1..], m, v)
            == WithScore(acc, m, v) + WithScore(s, m, v)
  {
    var x, t := s[0], s[1..];
    var g := if Score(x, m) == v then [x] else [];
    var a, rest := WithScore(acc, m, v), WithScore(t, m, v);
    assert WithScore(Insert(x, acc, m), m, v) == a + g by {
      InsertGroups(x, acc, m, v);
    }
    assert WithScore(s, m, v) == g + rest by {
      assert s == [x] + t;
      WithScoreCons(x, t, m, v);
    }
    assert (a + g) + rest == a + (g + rest);
  }

  /** The ranking is a stable sort of its input. */
  lemma RankIsStable(s: seq<Partner>, m: Metric)
    ensures StablySorted(Rank(s, m), s, m)
  {
    RankFromStable([], s, m);
    forall v
      ensures WithScore(Rank(s, m), m, v) == WithScore(s, m, v)
    {
      assert [] + WithScore(s, m, v) == WithScore(s, m, v);
    }
  }

  /** A stable descending sort is determined by its input: two descending
      lists with the same score groups are equal. */
  lemma {:induction false} StableSortUnique(a: seq<Partner>, b: seq<Partner>, m: Metric)
    requires Descending(a, m) && Descending(b, m)
    requires forall v :: WithScore(a, m, v) == WithScore(b, m, v)
    ensures a == b
    decreases |a|
  {
    SameGroupsSameLength(a, b, m);
    if |a| > 0 {
      var va, vb := Score(a[0], m), Score(b[0], m);
      WithScoreCons(a[0], a[1..], m, va);
      WithScoreCons(b[0], b[1..], m, vb);
      assert [a[0]] + a[1..] == a && [b[0]] + b[1..] == b;
      // The top scores agree: each list holds an entry of the other's top group.
      GroupBelowHead(b, m, va);
      GroupBelowHead(a, m, vb);
      assert va == vb;
      assert a[0] == WithScore(a, m, va)[0] == b[0];
      forall v
        ensures WithScore(a[1..], m, v) == WithScore(b[1..], m, v)
      {
        var g := if va == v then [a[0]] else [];
        WithScoreCons(a[0], a[1..], m, v);
        WithScoreCons(b[0], b[1..], m, v);
        assert (g + WithScore(a[1..], m, v))[|g|..] == WithScore(a[1..], m, v);
        assert (g + WithScore(b[1..], m, v))[|g|..] == WithScore(b[1..], m, v);
      }
      StableSortUnique(a[1..], b[1..], m);
    }
  }

  /** In a descending list, a non-empty group scores no more than the head. */
  lemma {:induction false} GroupBelowHead(s: seq<Partner>, m: Metric, v: int)
    requires Descending(s, m)
    requires |WithScore(s, m, v)| > 0
    ensures |s| > 0 && v <= Score(s[0], m)
    decreases |s|
  {
    if Score(s[0], m) != v {
      GroupBelowHead(s[1..], m, v);
      assert s[1..][0] == s[1];
    }
  }

  /** Every entry is counted in its own score group as often as in the list. */
  lemma {:induction false} GroupCount(s: seq<Partner>, m: Metric, x: Partner)
    ensures multiset(WithScore(s, m, Score(x, m)))[x] == multiset(s)[x]
    decreases |s|
  {
    if |s| > 0 {
      GroupCount(s[1..], m, x);
      assert s == [s[0]] + s[1..];
      WithScoreCons(s[0], s[1..], m, Score(x, m));
    }
  }

  /** Lists with the same score groups hold the same entries, and so have
      the same length. */
  lemma SameGroupsSameLength(a: seq<Partner>, b: seq<Partner>, m: Metric)
    requires forall v :: WithScore(a, m, v) == WithScore(b, m, v)
    ensures multiset(a) == multiset(b) && |a| == |b|
  {
    forall x
      ensures multiset(a)[x] == multiset(b)[x]
    {
      GroupCount(a, m, x);
      GroupCount(b, m, x);
    }
    assert multiset(a) == multiset(b);
  }

  // ---------------------------------------------------------------------------
  // The views
  // ---------------------------------------------------------------------------

  /** `slice(0, k)` */
  function Take(s: seq<Partner>, k: nat): (r: seq<Partner>)
    ensures r <= s
    ensures |r| == if |s| < k then |s| else k
  {
    if |s| < k then s else s[..k]
  }

  /** `sortedPartners` of a partner list. */
  function Ranking(partners: seq<Partner>): seq<Partner> {
    Rank(partners, Efficiency)
  }

  /** The feature cards: the first four of the efficiency ranking. */
  function FeatureCards(partners: seq<Partner>): seq<Partner> {
    Take(Ranking(partners), 4)
  }

  /** The efficiency leader board: the first three of the same ranking. */
  function EfficiencyLeaders(partners: seq<Partner>): seq<Partner> {
    Take(Ranking(partners), 3)
  }

  /** The accuracy leader board: the first three of a copy sorted by accuracy. */
  function AccuracyLeaders(partners: seq<Partner>): seq<Partner> {
    Take(Rank(partners, Accuracy), 3)
  }

  /** The front of a ranking is where the highest scores are: every entry
      taken scores at least as much as every entry left behind. */
  lemma TopAreLeaders(s: seq<Partner>, m: Metric, k: nat)
    ensures var r := Rank(s, m);
            forall i, j :: 0 <= i < |Take(r, k)| <= j < |r| ==> Score(r[i], m) >= Score(r[j], m)
  {
    RankIsStable(s, m);
  }

  /** The efficiency ranking of the shipped data, spelt out. Augment Code
      comes before Claude 3.7 Sonnet (both 94), and Bolt before Claude 3.5
      Sonnet (both 92), as in the source list. */
  const EfficiencyOrder: seq<Partner> := [
    Partner(Gpt4o, 95, 93),
    Partner(AugmentCode, 94, 89),
    Partner(Claude37Sonnet, 94, 93),
    Partner(Gemini25Pro, 93, 94),
    Partner(Bolt, 92, 83),
    Partner(Claude35Sonnet, 92, 91),
    Partner(Gpt4oMini, 91, 89),
    Partner(Gemini20Flash, 90, 92),
    Partner(DeepSeekR1, 89, 88),
    Partner(BlackboxAI, 88, 81),
    Partner(DeepSeekR1Distill, 87, 86),
    Partner(GitHubCopilot, 85, 78),
    Partner(Codium, 82, 77),
    Partner(Qodo, 79, 86),
    Partner(Widsurf, 76, 80)
  ]

  /** One insertion of the ranking, with the place it lands given. */
  lemma RankFromStep(acc: seq<Partner>, s: seq<Partner>, m: Metric, k: nat, next: seq<Partner>)
    requires |s| > 0 && k <= |acc|
    requires forall i :: 0 <= i < k ==> Score(acc[i], m) >= Score(s[0], m)
    requires k < |acc| ==> Score(acc[k], m) < Score(s[0], m)
    requires next == acc[..k] + [s[0]] + acc[k..]
    ensures RankFrom(acc, s, m) == RankFrom(next, s[1..], m)
  {
    InsertAt(s[0], acc, m, k);
  }

  lemma ShippedRanking(partners: seq<Partner>)
    requires Shipped(partners)
    ensures Ranking(partners) == EfficiencyOrder
    ensures FeatureCards(partners) == EfficiencyOrder[..4]
    ensures EfficiencyLeaders(partners) == EfficiencyOrder[..3]
  {
    EfficiencyRanking(partners);
  }

  /** The accuracy leader board of the shipped data: Gemini 2.5 Pro (94),
      then GPT-4o and Claude 3.7 Sonnet (both 93, in source order). */
  lemma ShippedAccuracyLeaders(partners: seq<Partner>)
    requires Shipped(partners)
    ensures AccuracyLeaders(partners) == [Partner(Gemini25Pro, 93, 94), Partner(Gpt4o, 95, 93), Partner(Claude37Sonnet, 94, 93)]
  {
    var p := partners;
    var r := Rank(p, Accuracy);
    AccuracyRanking(p);
    assert r[0] == p[5] && r[1] == p[7] && r[2] == p[10];
    assert Take(r, 3) == [r[0], r[1], r[2]];
  }

  // ---------------------------------------------------------------------------
  // Proof scaffolding for ShippedRanking and ShippedAccuracyLeaders
  // ---------------------------------------------------------------------------
  // The lemmas from here to the end of the section only evaluate the sort of
  // the shipped data one insertion at a time, so that no one proof unfolds
  // the whole ranking. They state nothing beyond the two lemmas above.

  /** The efficiency ranking of the shipped list, one insertion at a time.
      The list is a parameter so that the ranking is not evaluated whole. */
  lemma EfficiencyRanking(p: seq<Partner>)
    requires Shipped(p)
    ensures Rank(p, Efficiency) == EfficiencyOrder
  {
    RankFromStep([], p, Efficiency, 0, [p[0]]);
    EfficiencyStep1(p);
    EfficiencyStep2(p);
    EfficiencyStep3(p);
    EfficiencyStep4(p);
    EfficiencyStep5(p);
    EfficiencyStep6(p);
    EfficiencyStep7(p);
    EfficiencyStep8(p);
    EfficiencyStep9(p);
    EfficiencyStep10(p);
    EfficiencyStep11(p);
    EfficiencyStep12(p);
    EfficiencyStep13(p);
    EfficiencyStep14(p);
    assert p[15..] == [];
    assert [p[7], p[4], p[10], p[5], p[1], p[9], p[8], p[6], p[11], p[2], p[12], p[0], p[13], p[3], p[14]] == EfficiencyOrder;
  }

  // The insertions of the efficiency ranking, one lemma each.

  lemma EfficiencyStep1(p: seq<Partner>)
    requires Shipped(p)
    ensures RankFrom([p[0]], p[1..], Efficiency) == RankFrom([p[1], p[0]], p[2..], Efficiency)
  {
    assert p[1..][1..] == p[2..];
    RankFromStep([p[0]], p[1..], Efficiency, 0, [p[1], p[0]]);
  }

  lemma EfficiencyStep2(p: seq<Partner>)
    requires Shipped(p)
    ensures RankFrom([p[1], p[0]], p[2..], Efficiency) == RankFrom([p[1], p[2], p[0]], p[3..], Efficiency)
  {
    assert p[2..][1..] == p[3..];
    RankFromStep([p[1], p[0]], p[2..], Efficiency, 1, [p[1], p[2], p[0]]);
  }

  lemma EfficiencyStep3(p: seq<Partner>)
    requires Shipped(p)
    ensures RankFrom([p[1], p[2], p[0]], p[3..], Efficiency) == RankFrom([p[1], p[2], p[0], p[3]], p[4..], Efficiency)
  {
    assert p[3..][1..] == p[4..];
    RankFromStep([p[1], p[2], p[0]], p[3..], Efficiency, 3, [p[1], p[2], p[0], p[3]]);
  }

  lemma EfficiencyStep4(p: seq<Partner>)
    requires Shipped(p)
    ensures RankFrom([p[1], p[2], p[0], p[3]], p[4..], Efficiency) == RankFrom([p[4], p[1], p[2], p[0], p[3]], p[5..], Efficiency)
  {
    assert p[4..][1..] == p[5..];
    RankFromStep([p[1], p[2], p[0], p[3]], p[4..], Efficiency, 0, [p[4], p[1], p[2], p[0], p[3]]);
  }

  lemma EfficiencyStep5(p: seq<Partner>)
    requires Shipped(p)
    ensures RankFrom([p[4], p[1], p[2], p[0], p[3]], p[5..], Efficiency) == RankFrom([p[4], p[5], p[1], p[2], p[0], p[3]], p[6..], Efficiency)
  {
    assert p[5..][1..] == p[6..];
    RankFromStep([p[4], p[1], p[2], p[0], p[3]], p[5..], Efficiency, 1, [p[4], p[5], p[1], p[2], p[0], p[3]]);
  }

  lemma EfficiencyStep6(p: seq<Partner>)
    requires Shipped(p)
    ensures RankFrom([p[4], p[5], p[1], p[2], p[0], p[3]], p[6..], Efficiency) == RankFrom([p[4], p[5], p[1], p[6], p[2], p[0], p[3]], p[7..], Efficiency)
  {
    assert p[6..][1..] == p[7..];
    RankFromStep([p[4], p[5], p[1], p[2], p[0], p[3]], p[6..], Efficiency, 3, [p[4], p[5], p[1], p[6], p[2], p[0], p[3]]);
  }

  lemma EfficiencyStep7(p: seq<Partner>)
    requires Shipped(p)
    ensures RankFrom([p[4], p[5], p[1], p[6], p[2], p[0], p[3]], p[7..], Efficiency) == RankFrom([p[7], p[4], p[5], p[1], p[6], p[2], p[0], p[3]], p[8..], Efficiency)
  {
    assert p[7..][1..] == p[8..];
    RankFromStep([p[4], p[5], p[1], p[6], p[2], p[0], p[3]], p[7..], Efficiency, 0, [p[7], p[4], p[5], p[1], p[6], p[2], p[0], p[3]]);
  }

  lemma EfficiencyStep8(p: seq<Partner>)
    requires Shipped(p)
    ensures RankFrom([p[7], p[4], p[5], p[1], p[6], p[2], p[0], p[3]], p[8..], Efficiency) == RankFrom([p[7], p[4], p[5], p[1], p[8], p[6], p[2], p[0], p[3]], p[9..], Efficiency)
  {
    assert p[8..][1..] == p[9..];
    RankFromStep([p[7], p[4], p[5], p[1], p[6], p[2], p[0], p[3]], p[8..], Efficiency, 4, [p[7], p[4], p[5], p[1], p[8], p[6], p[2], p[0], p[3]]);
  }

  lemma EfficiencyStep9(p: seq<Partner>)
    requires Shipped(p)
    ensures RankFrom([p[7], p[4], p[5], p[1], p[8], p[6], p[2], p[0], p[3]], p[9..], Efficiency) == RankFrom([p[7], p[4], p[5], p[1], p[9], p[8], p[6], p[2], p[0], p[3]], p[10..], Efficiency)
  {
    assert p[9..][1..] == p[10..];
    RankFromStep([p[7], p[4], p[5], p[1], p[8], p[6], p[2], p[0], p[3]], p[9..], Efficiency, 4, [p[7], p[4], p[5], p[1], p[9], p[8], p[6], p[2], p[0], p[3]]);
  }

  lemma EfficiencyStep10(p: seq<Partner>)
    requires Shipped(p)
    ensures RankFrom([p[7], p[4], p[5], p[1], p[9], p[8], p[6], p[2], p[0], p[3]], p[10..], Efficiency) == RankFrom([p[7], p[4], p[10], p[5], p[1], p[9], p[8], p[6], p[2], p[0], p[3]], p[11..], Efficiency)
  {
    assert p[10..][1..] == p[11..];
    RankFromStep([p[7], p[4], p[5], p[1], p[9], p[8], p[6], p[2], p[0], p[3]], p[10..], Efficiency, 2, [p[7], p[4], p[10], p[5], p[1], p[9], p[8], p[6], p[2], p[0], p[3]]);
  }

  lemma EfficiencyStep11(p: seq<Partner>)
    requires Shipped(p)
    ensures RankFrom([p[7], p[4], p[10], p[5], p[1], p[9], p[8], p[6], p[2], p[0], p[3]], p[11..], Efficiency) == RankFrom([p[7], p[4], p[10], p[5], p[1], p[9], p[8], p[6], p[11], p[2], p[0], p[3]], p[12..], Efficiency)
  {
    assert p[11..][1..] == p[12..];
    RankFromStep([p[7], p[4], p[10], p[5], p[1], p[9], p[8], p[6], p[2], p[0], p[3]], p[11..], Efficiency, 8, [p[7], p[4], p[10], p[5], p[1], p[9], p[8], p[6], p[11], p[2], p[0], p[3]]);
  }

  lemma EfficiencyStep12(p: seq<Partner>)
    requires Shipped(p)
    ensures RankFrom([p[7], p[4], p[10], p[5], p[1], p[9], p[8], p[6], p[11], p[2], p[0], p[3]], p[12..], Efficiency) == RankFrom([p[7], p[4], p[10], p[5], p[1], p[9], p[8], p[6], p[11], p[2], p[12], p[0], p[3]], p[13..], Efficiency)
  {
    assert p[12..][1..] == p[13..];
    RankFromStep([p[7], p[4], p[10], p[5], p[1], p[9], p[8], p[6], p[11], p[2], p[0], p[3]], p[12..], Efficiency, 10, [p[7], p[4], p[10], p[5], p[1], p[9], p[8], p[6], p[11], p[2], p[12], p[0], p[3]]);
  }

  lemma EfficiencyStep13(p: seq<Partner>)
    requires Shipped(p)
    ensures RankFrom([p[7], p[4], p[10], p[5], p[1], p[9], p[8], p[6], p[11], p[2], p[12], p[0], p[3]], p[13..], Efficiency) == RankFrom([p[7], p[4], p[10], p[5], p[1], p[9], p[8], p[6], p[11], p[2], p[12], p[0], p[13], p[3]], p[14..], Efficiency)
  {
    assert p[13..][1..] == p[14..];
    RankFromStep([p[7], p[4], p[10], p[5], p[1], p[9], p[8], p[6], p[11], p[2], p[12], p[0], p[3]], p[13..], Efficiency, 12, [p[7], p[4], p[10], p[5], p[1], p[9], p[8], p[6], p[11], p[2], p[12], p[0], p[13], p[3]]);
  }

  lemma EfficiencyStep14(p: seq<Partner>)
    requires Shipped(p)
    ensures RankFrom([p[7], p[4], p[10], p[5], p[1], p[9], p[8], p[6], p[11], p[2], p[12], p[0], p[13], p[3]], p[14..], Efficiency) == RankFrom([p[7], p[4], p[10], p[5], p[1], p[9], p[8], p[6], p[11], p[2], p[12], p[0], p[13], p[3], p[14]], p[15..], Efficiency)
  {
    assert p[14..][1..] == p[15..];
    RankFromStep([p[7], p[4], p[10], p[5], p[1], p[9], p[8], p[6], p[11], p[2], p[12], p[0], p[13], p[3]], p[14..], Efficiency, 14, [p[7], p[4], p[10], p[5], p[1], p[9], p[8], p[6], p[11], p[2], p[12], p[0], p[13], p[3], p[14]]);
  }

  /** The accuracy ranking of the shipped list, one insertion at a time. */
  lemma AccuracyRanking(p: seq<Partner>)
    requires Shipped(p)
    ensures Rank(p, Accuracy) == [p[5], p[7], p[10], p[6], p[9], p[4], p[8], p[11], p[3], p[12], p[1], p[2], p[14], p[0], p[13]]
  {
    RankFromStep([], p, Accuracy, 0, [p[0]]);
    AccuracyStep1(p);
    AccuracyStep2(p);
    AccuracyStep3(p);
    AccuracyStep4(p);
    AccuracyStep5(p);
    AccuracyStep6(p);
    AccuracyStep7(p);
    AccuracyStep8(p);
    AccuracyStep9(p);
    AccuracyStep10(p);
    AccuracyStep11(p);
    AccuracyStep12(p);
    AccuracyStep13(p);
    AccuracyStep14(p);
    assert p[15..] == [];
  }

  // The insertions of the accuracy ranking, one lemma each.

  lemma AccuracyStep1(p: seq<Partner>)
    requires Shipped(p)
    ensures RankFrom([p[0]], p[1..], Accuracy) == RankFrom([p[1], p[0]], p[2..], Accuracy)
  {
    assert p[1..][1..] == p[2..];
    RankFromStep([p[0]], p[1..], Accuracy, 0, [p[1], p[0]]);
  }

  lemma AccuracyStep2(p: seq<Partner>)
    requires Shipped(p)
    ensures RankFrom([p[1], p[0]], p[2..], Accuracy) == RankFrom([p[1], p[2], p[0]], p[3..], Accuracy)
  {
    assert p[2..][1..] == p[3..];
    RankFromStep([p[1], p[0]], p[2..], Accuracy, 1, [p[1], p[2], p[0]]);
  }

  lemma AccuracyStep3(p: seq<Partner>)
    requires Shipped(p)
    ensures RankFrom([p[1], p[2], p[0]], p[3..], Accuracy) == RankFrom([p[3], p[1], p[2], p[0]], p[4..], Accuracy)
  {
    assert p[3..][1..] == p[4..];
    RankFromStep([p[1], p[2], p[0]], p[3..], Accuracy, 0, [p[3], p[1], p[2], p[0]]);
  }

  lemma AccuracyStep4(p: seq<Partner>)
    requires Shipped(p)
    ensures RankFrom([p[3], p[1], p[2], p[0]], p[4..], Accuracy) == RankFrom([p[4], p[3], p[1], p[2], p[0]], p[5..], Accuracy)
  {
    assert p[4..][1..] == p[5..];
    RankFromStep([p[3], p[1], p[2], p[0]], p[4..], Accuracy, 0, [p[4], p[3], p[1], p[2], p[0]]);
  }

  lemma AccuracyStep5(p: seq<Partner>)
    requires Shipped(p)
    ensures RankFrom([p[4], p[3], p[1], p[2], p[0]], p[5..], Accuracy) == RankFrom([p[5], p[4], p[3], p[1], p[2], p[0]], p[6..], Accuracy)
  {
    assert p[5..][1..] == p[6..];
    RankFromStep([p[4], p[3], p[1], p[2], p[0]], p[5..], Accuracy, 0, [p[5], p[4], p[3], p[1], p[2], p[0]]);
  }

  lemma AccuracyStep6(p: seq<Partner>)
    requires Shipped(p)
    ensures RankFrom([p[5], p[4], p[3], p[1], p[2], p[0]], p[6..], Accuracy) == RankFrom([p[5], p[6], p[4], p[3], p[1], p[2], p[0]], p[7..], Accuracy)
  {
    assert p[6..][1..] == p[7..];
    RankFromStep([p[5], p[4], p[3], p[1], p[2], p[0]], p[6..], Accuracy, 1, [p[5], p[6], p[4], p[3], p[1], p[2], p[0]]);
  }

  lemma AccuracyStep7(p: seq<Partner>)
    requires Shipped(p)
    ensures RankFrom([p[5], p[6], p[4], p[3], p[1], p[2], p[0]], p[7..], Accuracy) == RankFrom([p[5], p[7], p[6], p[4], p[3], p[1], p[2], p[0]], p[8..], Accuracy)
  {
    assert p[7..][1..] == p[8..];
    RankFromStep([p[5], p[6], p[4], p[3], p[1], p[2], p[0]], p[7..], Accuracy, 1, [p[5], p[7], p[6], p[4], p[3], p[1], p[2], p[0]]);
  }

  lemma AccuracyStep8(p: seq<Partner>)
    requires Shipped(p)
    ensures RankFrom([p[5], p[7], p[6], p[4], p[3], p[1], p[2], p[0]], p[8..], Accuracy) == RankFrom([p[5], p[7], p[6], p[4], p[8], p[3], p[1], p[2], p[0]], p[9..], Accuracy)
  {
    assert p[8..][1..] == p[9..];
    RankFromStep([p[5], p[7], p[6], p[4], p[3], p[1], p[2], p[0]], p[8..], Accuracy, 4, [p[5], p[7], p[6], p[4], p[8], p[3], p[1], p[2], p[0]]);
  }

  lemma AccuracyStep9(p: seq<Partner>)
    requires Shipped(p)
    ensures RankFrom([p[5], p[7], p[6], p[4], p[8], p[3], p[1], p[2], p[0]], p[9..], Accuracy) == RankFrom([p[5], p[7], p[6], p[9], p[4], p[8], p[3], p[1], p[2], p[0]], p[10..], Accuracy)
  {
    assert p[9..][1..] == p[10..];
    RankFromStep([p[5], p[7], p[6], p[4], p[8], p[3], p[1], p[2], p[0]], p[9..], Accuracy, 3, [p[5], p[7], p[6], p[9], p[4], p[8], p[3], p[1], p[2], p[0]]);
  }

  lemma AccuracyStep10(p: seq<Partner>)
    requires Shipped(p)
    ensures RankFrom([p[5], p[7], p[6], p[9], p[4], p[8], p[3], p[1], p[2], p[0]], p[10..], Accuracy) == RankFrom([p[5], p[7], p[10], p[6], p[9], p[4], p[8], p[3], p[1], p[2], p[0]], p[11..], Accuracy)
  {
    assert p[10..][1..] == p[11..];
    RankFromStep([p[5], p[7], p[6], p[9], p[4], p[8], p[3], p[1], p[2], p[0]], p[10..], Accuracy, 2, [p[5], p[7], p[10], p[6], p[9], p[4], p[8], p[3], p[1], p[2], p[0]]);
  }

  lemma AccuracyStep11(p: seq<Partner>)
    requires Shipped(p)
    ensures RankFrom([p[5], p[7], p[10], p[6], p[9], p[4], p[8], p[3], p[1], p[2], p[0]], p[11..], Accuracy) == RankFrom([p[5], p[7], p[10], p[6], p[9], p[4], p[8], p[11], p[3], p[1], p[2], p[0]], p[12..], Accuracy)
  {
    assert p[11..][1..] == p[12..];
    RankFromStep([p[5], p[7], p[10], p[6], p[9], p[4], p[8], p[3], p[1], p[2], p[0]], p[11..], Accuracy, 7, [p[5], p[7], p[10], p[6], p[9], p[4], p[8], p[11], p[3], p[1], p[2], p[0]]);
  }

  lemma AccuracyStep12(p: seq<Partner>)
    requires Shipped(p)
    ensures RankFrom([p[5], p[7], p[10], p[6], p[9], p[4], p[8], p[11], p[3], p[1], p[2], p[0]], p[12..], Accuracy) == RankFrom([p[5], p[7], p[10], p[6], p[9], p[4], p[8], p[11], p[3], p[12], p[1], p[2], p[0]], p[13..], Accuracy)
  {
    assert p[12..][1..] == p[13..];
    RankFromStep([p[5], p[7], p[10], p[6], p[9], p[4], p[8], p[11], p[3], p[1], p[2], p[0]], p[12..], Accuracy, 9, [p[5], p[7], p[10], p[6], p[9], p[4], p[8], p[11], p[3], p[12], p[1], p[2], p[0]]);
  }

  lemma AccuracyStep13(p: seq<Partner>)
    requires Shipped(p)
    ensures RankFrom([p[5], p[7], p[10], p[6], p[9], p[4], p[8], p[11], p[3], p[12], p[1], p[2], p[0]], p[13..], Accuracy) == RankFrom([p[5], p[7], p[10], p[6], p[9], p[4], p[8], p[11], p[3], p[12], p[1], p[2], p[0], p[13]], p[14..], Accuracy)
  {
    assert p[13..][1..] == p[14..];
    RankFromStep([p[5], p[7], p[10], p[6], p[9], p[4], p[8], p[11], p[3], p[12], p[1], p[2], p[0]], p[13..], Accuracy, 13, [p[5], p[7], p[10], p[6], p[9], p[4], p[8], p[11], p[3], p[12], p[1], p[2], p[0], p[13]]);
  }

  lemma AccuracyStep14(p: seq<Partner>)
    requires Shipped(p)
    ensures RankFrom([p[5], p[7], p[10], p[6], p[9], p[4], p[8], p[11], p[3], p[12], p[1], p[2], p[0], p[13]], p[14..], Accuracy) == RankFrom([p[5], p[7], p[10], p[6], p[9], p[4], p[8], p[11], p[3], p[12], p[1], p[2], p[14], p[0], p[13]], p[15..], Accuracy)
  {
    assert p[14..][1..] == p[15..];
    RankFromStep([p[5], p[7], p[10], p[6], p[9], p[4], p[8], p[11], p[3], p[12], p[1], p[2], p[0], p[13]], p[14..], Accuracy, 12, [p[5], p[7], p[10], p[6], p[9], p[4], p[8], p[11], p[3], p[12], p[1], p[2], p[14], p[0], p[13]]);
  }

  // ---------------------------------------------------------------------------
  // Bar widths
  // ---------------------------------------------------------------------------

  /** Every efficiency and accuracy value is a percentage, so each bar's
      width lies between empty and full, in either ranking. */
  lemma ScoresArePercentages(m: Metric)
    ensures forall i :: 0 <= i < |AllPartners| ==> 0 <= Score(AllPartners[i], m) <= 100
    ensures forall x :: x in Rank(AllPartners, m) ==> 0 <= Score(x, m) <= 100
  {
    DataArePercentages();
    RankIsStable(AllPartners, m);
    forall x | x in Rank(AllPartners, m)
      ensures 0 <= Score(x, m) <= 100
    {
      assert x in multiset(Rank(AllPartners, m));
      assert x in multiset(AllPartners);
    }
  }

  lemma DataArePercentages()
    ensures forall i :: 0 <= i < |AllPartners| ==>
              0 <= AllPartners[i].efficiency <= 100 && 0 <= AllPartners[i].accuracy <= 100
  {
  }
}

=== FILE: playground.dfy ===
/** The code playground's simulated run: the output is assembled from
    fixed blocks chosen by what the code mentions, in a fixed order, with
    the `console.log` arguments echoed; and the file extension used for
    downloads. */
module Playground {
  import opened Optional
  import opened Strings

  datatype Language = JavaScript | TypeScript | Bash

  // ---------------------------------------------------------------------------
  // The console.log matcher
  // ---------------------------------------------------------------------------

  predicate IsQuote(c: char) {
    c == '\'' || c == '"'
  }

  /** The characters `.` does not match in a JavaScript regular expression
      without the `s` flag. */
  predicate IsLineTerminator(c: char) {
    c == '\n' || c == '\r' || c == '\U{2028}' || c == '\U{2029}'
  }

  /** The text before the opening quote of a call. */
  const LogCall := "console.log("

  /** The lazy `(.+?)['"]\)` on `t`, which starts right after the opening
      quote: the shortest capture length, at least `k`, that is followed by
      a quote of either kind and `)`, given that the first `k - 1`
      characters are not line terminators. */
  function CaptureEnd(t: string, k: nat): (r: Option<nat>)
    requires k >= 1
    ensures r.Some? ==> k <= r.value && r.value + 1 < |t|
    ensures r.Some? ==> IsQuote(t[r.value]) && t[r.value + 1] == ')'
    ensures r.Some? ==> forall i :: k - 1 <= i < r.value ==> !IsLineTerminator(t[i])
    ensures r.Some? ==> forall j :: k <= j < r.value ==> !(IsQuote(t[j]) && t[j + 1] == ')')
    decreases |t| - k
  {
    if k + 1 >= |t| then None
    else if IsLineTerminator(t[k - 1]) then None
    else if IsQuote(t[k]) && t[k + 1] == ')' then Some(k)
    else CaptureEnd(t, k + 1)
  }

  /** The captures of `code.matchAll(/console\.log\(['"](.+?)['"]\)/g)`,
      left to right; a failed attempt moves on by one character and a match
      resumes after its closing parenthesis. */
  function LogMatches(s: string): (r: seq<string>)
    ensures forall m :: m in r ==> |m| >= 1 && forall i :: 0 <= i < |m| ==> !IsLineTerminator(m[i])
    ensures |r| > 0 ==> Contains(s, LogCall)
    decreases |s|
  {
    if |s| == 0 then []
    else if StartsWith(s, LogCall) && |s| > |LogCall| && IsQuote(s[|LogCall|]) then
      var t := s[|LogCall| + 1..];
      match CaptureEnd(t, 1)
      case Some(k) => [t[..k]] + LogMatches(t[k + 2..])
      case None => LogMatches(s[1..])
    else LogMatches(s[1..])
  }

  /** Without a quote character nothing matches. */
  lemma {:induction false} NoQuotesNoMatches(s: string)
    requires forall i :: 0 <= i < |s| ==> !IsQuote(s[i])
    ensures LogMatches(s) == []
    decreases |s|
  {
    if |s| > 0 {
      NoQuotesNoMatches(s[1..]);
    }
  }

  /** A quoted literal in a call is echoed. */
  lemma SimpleCallEchoed(text: string, q: char, rest: string)
    requires |text| >= 1 && IsQuote(q)
    requires forall i :: 0 <= i < |text| ==> !IsLineTerminator(text[i]) && !IsQuote(text[i])
    ensures LogMatches(LogCall + [q] + text + [q, ')'] + rest) == [text] + LogMatches(rest)
  {
    var s := LogCall + [q] + text + [q, ')'] + rest;
    var t := s[|LogCall| + 1..];
    assert s[..|LogCall|] == LogCall;
    assert t == text + [q, ')'] + rest;
    CaptureAt(t, |text|);
    assert t[..|text|] == text;
    assert t[|text| + 2..] == rest;
  }

  /** The capture closes at the first quote followed by `)`. */
  lemma CaptureAt(t: string, n: nat)
    requires n >= 1 && n + 1 < |t| && IsQuote(t[n]) && t[n + 1] == ')'
    requires forall i :: 0 <= i < n ==> !IsLineTerminator(t[i]) && !IsQuote(t[i])
    ensures CaptureEnd(t, 1) == Some(n)
  {
    CaptureFrom(t, n, 1);
  }

  lemma {:induction false} CaptureFrom(t: string, n: nat, k: nat)
    requires 1 <= k <= n && n + 1 < |t| && IsQuote(t[n]) && t[n + 1] == ')'
    requires forall i :: 0 <= i < n ==> !IsLineTerminator(t[i]) && !IsQuote(t[i])
    ensures CaptureEnd(t, k) == Some(n)
    decreases n - k
  {
    if k < n {
      CaptureFrom(t, n, k + 1);
    }
  }

  // ---------------------------------------------------------------------------
  // The output
  // ---------------------------------------------------------------------------

  /** The pieces the simulated output is built from. */
  datatype Block =
    | ConsoleHeader | LogLine(text: string) | NoLogs
    | Training | ModelCreated
    | ProjectInit | Login | ModelsList
    | Executed

  /** The position of a block kind in the output. */
  function Stage(b: Block): nat {
    match b
    case ConsoleHeader => 0
    case LogLine(_) => 1
    case NoLogs => 1
    case Training => 2
    case ModelCreated => 3
    case ProjectInit => 4
    case Login => 5
    case ModelsList => 6
    case Executed => 7
  }

  function LogLines(ms: seq<string>): (r: seq<Block>)
    ensures |r| == |ms|
    ensures forall i :: 0 <= i < |ms| ==> r[i] == LogLine(ms[i])
    ensures forall b :: b in r ==> b.LogLine?
    ensures forall m :: LogLine(m) in r <==> m in ms
  {
    seq(|ms|, i requires 0 <= i < |ms| => LogLine(ms[i]))
  }

  /** Block stages never decrease along the output. */
  ghost predicate InOrder(r: seq<Block>) {
    forall i, j :: 0 <= i < j < |r| ==> Stage(r[i]) <= Stage(r[j])
  }

  /** Two ordered runs of blocks, the second starting no earlier than the
      first ends, make an ordered run. */
  lemma InOrderAppend(a: seq<Block>, b: seq<Block>, k: nat)
    requires InOrder(a) && InOrder(b)
    requires forall x :: x in a ==> Stage(x) <= k
    requires forall y :: y in b ==> k <= Stage(y)
    ensures InOrder(a + b)
  {
    forall i, j | 0 <= i < j < |a + b|
      ensures Stage((a + b)[i]) <= Stage((a + b)[j])
    {
      if j < |a| {
        assert (a + b)[i] == a[i] && (a + b)[j] == a[j];
      } else if i >= |a| {
        assert (a + b)[i] == b[i - |a|] && (a + b)[j] == b[j - |a|];
      } else {
        assert (a + b)[i] in a && (a + b)[j] in b;
      }
    }
  }

  /** Which of the phrases the rules look for the code mentions. */
  datatype Mentions = Mentions(
    consoleLog: bool, train: bool, createModel: bool,
    init: bool, login: bool, modelsList: bool)

  /** The `code.includes(...)` tests of `runCode`. */
  function Scan(code: string): (k: Mentions)
    ensures k.consoleLog == Contains(code, "console.log")
    ensures k.train == Contains(code, "model.train")
    ensures k.createModel == Contains(code, "createModel")
    ensures k.init == Contains(code, "synthara init")
    ensures k.login == Contains(code, "synthara login")
    ensures k.modelsList == Contains(code, "synthara models list")
  {
    Mentions(
      Contains(code, "console.log"), Contains(code, "model.train"), Contains(code, "createModel"),
      Contains(code, "synthara init"), Contains(code, "synthara login"), Contains(code, "synthara models list"))
  }

  /** The console part of a JavaScript or TypeScript run, given the
      captures `ms`: nothing unless the code mentions `console.log`; then the
      header and either one line per capture or the "none found" line. */
  function ConsoleBlocks(k: Mentions, ms: seq<string>): (r: seq<Block>)
    ensures InOrder(r)
    ensures forall b :: b in r ==> Stage(b) <= 1
    ensures ConsoleHeader in r <==> k.consoleLog
    ensures NoLogs in r <==> k.consoleLog && ms == []
    ensures forall m :: LogLine(m) in r <==> k.consoleLog && m in ms
  {
    if !k.consoleLog then []
    else [ConsoleHeader] + (if |ms| > 0 then LogLines(ms) else [NoLogs])
  }

  /** The JavaScript and TypeScript rules. */
  function ScriptBlocks(k: Mentions, ms: seq<string>): (r: seq<Block>)
    ensures InOrder(r)
    ensures forall b :: b in r ==> Stage(b) <= 3
  {
    var c := ConsoleBlocks(k, ms);
    var t: seq<Block> := if k.train then [Training] else [];
    var m: seq<Block> := if k.createModel then [ModelCreated] else [];
    ScriptOrder(c, t, m);
    c + t + m
  }

  /** The console part, then training, then model creation, are in stage
      order. */
  lemma ScriptOrder(c: seq<Block>, t: seq<Block>, m: seq<Block>)
    requires InOrder(c) && forall b :: b in c ==> Stage(b) <= 1
    requires t == [] || t == [Training]
    requires m == [] || m == [ModelCreated]
    ensures InOrder(c + t + m)
    ensures forall b :: b in c + t + m ==> Stage(b) <= 3
  {
    InOrderAppend(c, t, 2);
    assert forall b :: b in c + t ==> Stage(b) <= 2 by {
      forall b | b in c + t
        ensures Stage(b) <= 2
      {
        assert b in c || b in t;
      }
    }
    InOrderAppend(c + t, m, 3);
    forall b | b in c + t + m
      ensures Stage(b) <= 3
    {
      assert b in c + t || b in m;
    }
  }

  /** Each JavaScript block is there exactly when its rule applies. */
  lemma ScriptBlocksPresent(k: Mentions, ms: seq<string>)
    ensures ConsoleHeader in ScriptBlocks(k, ms) <==> k.consoleLog
    ensures NoLogs in ScriptBlocks(k, ms) <==> k.consoleLog && ms == []
    ensures Training in ScriptBlocks(k, ms) <==> k.train
    ensures ModelCreated in ScriptBlocks(k, ms) <==> k.createModel
  {
    var c := ConsoleBlocks(k, ms);
    var t: seq<Block> := if k.train then [Training] else [];
    var m: seq<Block> := if k.createModel then [ModelCreated] else [];
    assert ScriptBlocks(k, ms) == c + t + m;
    forall x
      ensures x in c + t + m <==> x in c || x in t || x in m
    {
    }
    assert Stage(Training) > 1 && Stage(ModelCreated) > 1;
  }

  /** The echoed lines are exactly the captures, under the header. */
  lemma ScriptBlocksEcho(k: Mentions, ms: seq<string>)
    ensures forall m :: LogLine(m) in ScriptBlocks(k, ms) <==> k.consoleLog && m in ms
  {
  }

  /** The shell rules. */
  function ShellBlocks(k: Mentions): (r: seq<Block>)
    ensures InOrder(r)
    ensures forall b :: b in r ==> 4 <= Stage(b) <= 6
    ensures ProjectInit in r <==> k.init
    ensures Login in r <==> k.login
    ensures ModelsList in r <==> k.modelsList
  {
    (if k.init then [ProjectInit] else [])
    + (if k.login then [Login] else [])
    + (if k.modelsList then [ModelsList] else [])
  }

  /** The blocks of a run whose code mentions `k` and whose `console.log`
      captures are `ms`: the default message exactly when no rule applies. */
  function Build(lang: Language, k: Mentions, ms: seq<string>): (r: seq<Block>)
    ensures |r| > 0 && InOrder(r)
    ensures Executed in r <==> r == [Executed]
    ensures r == [Executed] <==>
              if lang == Bash then !k.init && !k.login && !k.modelsList
              else !k.consoleLog && !k.train && !k.createModel
  {
    if lang != Bash then
      var parts := ScriptBlocks(k, ms);
      ScriptBlocksPresent(k, ms);
      if |parts| == 0 then [Executed] else parts
    else
      var parts := ShellBlocks(k);
      if |parts| == 0 then [Executed] else parts
  }

  /** Each JavaScript rule's block is there exactly when the code is
      JavaScript or TypeScript and mentions the rule's phrase. */
  lemma BuildScriptPresent(lang: Language, k: Mentions, ms: seq<string>)
    ensures ConsoleHeader in Build(lang, k, ms) <==> lang != Bash && k.consoleLog
    ensures NoLogs in Build(lang, k, ms) <==> lang != Bash && k.consoleLog && ms == []
    ensures Training in Build(lang, k, ms) <==> lang != Bash && k.train
    ensures ModelCreated in Build(lang, k, ms) <==> lang != Bash && k.createModel
  {
    if lang != Bash {
      ScriptBlocksPresent(k, ms);
    }
  }

  /** Each shell rule's block is there exactly when the code is Bash and
      mentions the rule's phrase. */
  lemma BuildShellPresent(lang: Language, k: Mentions, ms: seq<string>)
    ensures ProjectInit in Build(lang, k, ms) <==> lang == Bash && k.init
    ensures Login in Build(lang, k, ms) <==> lang == Bash && k.login
    ensures ModelsList in Build(lang, k, ms) <==> lang == Bash && k.modelsList
  {
  }

  lemma BuildEcho(lang: Language, k: Mentions, ms: seq<string>)
    ensures forall m :: LogLine(m) in Build(lang, k, ms) <==> lang != Bash && k.consoleLog && m in ms
  {
    if lang != Bash {
      ScriptBlocksEcho(k, ms);
    }
  }

  /** The blocks a run of `code` produces. */
  function RunBlocks(lang: Language, code: string): (r: seq<Block>)
    ensures |r| > 0 && InOrder(r)
    ensures Executed in r <==> r == [Executed]
  {
    Build(lang, Scan(code), LogMatches(code))
  }

  /** `runCode`'s rules: each block is there exactly when the code is in the
      rule's language and mentions the rule's phrase; the quoted
      `console.log` arguments are echoed under the header, or the "none
      found" line stands there; and the default message appears exactly
      when no rule applies. */
  lemma RunRules(lang: Language, code: string)
    ensures ConsoleHeader in RunBlocks(lang, code) <==> lang != Bash && Contains(code, "console.log")
    ensures Training in RunBlocks(lang, code) <==> lang != Bash && Contains(code, "model.train")
    ensures ModelCreated in RunBlocks(lang, code) <==> lang != Bash && Contains(code, "createModel")
    ensures ProjectInit in RunBlocks(lang, code) <==> lang == Bash && Contains(code, "synthara init")
    ensures Login in RunBlocks(lang, code) <==> lang == Bash && Contains(code, "synthara login")
    ensures ModelsList in RunBlocks(lang, code) <==> lang == Bash && Contains(code, "synthara models list")
    ensures NoLogs in RunBlocks(lang, code) <==> lang != Bash && Contains(code, "console.log") && LogMatches(code) == []
  {
    BuildScriptPresent(lang, Scan(code), LogMatches(code));
    BuildShellPresent(lang, Scan(code), LogMatches(code));
  }

  lemma RunEcho(lang: Language, code: string)
    ensures forall m :: LogLine(m) in RunBlocks(lang, code) <==>
              lang != Bash && Contains(code, "console.log") && m in LogMatches(code)
  {
    BuildEcho(lang, Scan(code), LogMatches(code));
  }

  /** The default message stands alone, exactly when no rule of the
      language applies. */
  lemma DefaultExactlyWhenNothingApplies(lang: Language, code: string)
    ensures RunBlocks(lang, code) == [Executed] <==>
              if lang == Bash then
                !Contains(code, "synthara init") && !Contains(code, "synthara login") && !Contains(code, "synthara models list")
              else
                !Contains(code, "console.log") && !Contains(code, "model.train") && !Contains(code, "createModel")
  {
  }

  /** A console rule with no capture starts the output with the header and
      the "none found" line. */
  lemma BuildConsoleFirst(lang: Language, k: Mentions)
    requires lang != Bash && k.consoleLog
    ensures |Build(lang, k, [])| >= 2 && Build(lang, k, [])[..2] == [ConsoleHeader, NoLogs]
  {
    assert ConsoleBlocks(k, []) == [ConsoleHeader, NoLogs];
    var t: seq<Block> := if k.train then [Training] else [];
    var m: seq<Block> := if k.createModel then [ModelCreated] else [];
    assert ScriptBlocks(k, []) == [ConsoleHeader, NoLogs] + t + m;
  }

  /** Code mentioning `console.log` with no quoted call starts with the
      header and the "none found" line. */
  lemma ConsoleFirst(lang: Language, code: string)
    requires lang != Bash && Contains(code, "console.log") && LogMatches(code) == []
    ensures |RunBlocks(lang, code)| >= 2 && RunBlocks(lang, code)[..2] == [ConsoleHeader, NoLogs]
  {
    BuildConsoleFirst(lang, Scan(code));
  }

  /** Code without a quote character never echoes anything. */
  lemma NoQuotesNoEcho(lang: Language, code: string, m: string)
    requires forall i :: 0 <= i < |code| ==> !IsQuote(code[i])
    ensures LogLine(m) !in RunBlocks(lang, code)
  {
    NoQuotesNoMatches(code);
    RunEcho(lang, code);
  }

  /** Bash code never gets the JavaScript blocks, whatever it mentions. */
  lemma BashIgnoresJavaScriptRules(code: string)
    ensures forall b :: b in RunBlocks(Bash, code) ==> Stage(b) >= 4
  {
  }

  // ---------------------------------------------------------------------------
  // Downloads
  // ---------------------------------------------------------------------------

  /** The file extension in `downloadCode`. */
  function Extension(lang: Language): (e: string)
    ensures |e| == 2
    ensures lang == TypeScript <==> e == "ts"
    ensures lang == JavaScript <==> e == "js"
    ensures lang == Bash <==> e == "sh"
  {
    match lang
    case TypeScript => "ts"
    case JavaScript => "js"
    case Bash => "sh"
  }

  /** The name `downloadCode` gives the file. */
  function DownloadName(lang: Language): (n: string)
    ensures |n| == 19 && n[..17] == "synthara-example."
    ensures n[17..] == Extension(lang)
  {
    "synthara-example." + Extension(lang)
  }

  /** The three languages download under three different names. */
  lemma DownloadNamesDistinct(a: Language, b: Language)
    ensures DownloadName(a) == DownloadName(b) <==> a == b
  {
    assert DownloadName(a)[17..] == Extension(a) && DownloadName(b)[17..] == Extension(b);
  }
}

=== FILE: playground_output.dfy ===
/** The text of a simulated run: each block's fixed lines, and the output
    shown after the run. */
module PlaygroundOutput {
  import opened Strings
  import opened Playground

  /** The lines a block prints, without their line breaks: a first line and
      those after it. */
  datatype Lines = Lines(first: string, rest: seq<string>)

  function BlockLines(b: Block): Lines {
    match b
    case ConsoleHeader => Lines("> Console output:", [])
    case LogLine(text) => Lines(text, [])
    case NoLogs => Lines("No console.log statements found.", [])
    case Training =>
      Lines("", ["> Training model...",
                 "Epoch 1/3: loss=0.342, accuracy=0.876",
                 "Epoch 2/3: loss=0.218, accuracy=0.923",
                 "Epoch 3/3: loss=0.156, accuracy=0.948",
                 "Training complete!"])
    case ModelCreated => Lines("", ["> Model created successfully", "Model ID: syn-2025-04-04-abcd1234"])
    case ProjectInit =>
      Lines("> Initializing Synthara project...",
            ["Created project structure", "Installed dependencies", "Project initialized successfully!"])
    case Login => Lines("> Logging in to Synthara...", ["Authentication successful!", "Welcome back, user@example.com"])
    case ModelsList =>
      Lines("> Listing available models...",
            ["ID                      | Name           | Status    | Created",
             "------------------------|----------------|-----------|------------------",
             "syn-2025-03-15-efgh5678 | custom-model-1 | ACTIVE    | 2025-03-15 14:32",
             "syn-2025-03-28-ijkl9012 | custom-model-2 | TRAINING  | 2025-03-28 09:17",
             "syn-2025-04-01-mnop3456 | custom-model-3 | DEPLOYED  | 2025-04-01 11:45"])
    case Executed => Lines("> Code executed successfully.", ["No output to display."])
  }

  /** Lines, each followed by a line break. */
  function LinesText(ls: seq<string>): (t: string)
    ensures |t| >= |ls|
  {
    if |ls| == 0 then "" else ls[0] + "\n" + LinesText(ls[1..])
  }

  /** The text of each block: its lines, each ending in a line break. */
  function BlockText(b: Block): (t: string)
    ensures |t| > 0
  {
    var ls := BlockLines(b);
    LinesText([ls.first] + ls.rest)
  }

  /** Pieces of text one after another. */
  function Concat(ts: seq<string>): (s: string)
    ensures |ts| > 0 && |ts[0]| > 0 ==> |s| > 0
  {
    if |ts| == 0 then "" else ts[0] + Concat(ts[1..])
  }

  /** Joining is compositional. */
  lemma {:induction false} ConcatAppend(a: seq<string>, b: seq<string>)
    ensures Concat(a + b) == Concat(a) + Concat(b)
    decreases |a|
  {
    if |a| == 0 {
      assert a + b == b;
    } else {
      assert (a + b)[1..] == a[1..] + b;
      ConcatAppend(a[1..], b);
    }
  }

  /** Each block's text, in order. */
  function Texts(bs: seq<Block>): (ts: seq<string>)
    ensures |ts| == |bs| && forall i :: 0 <= i < |bs| ==> ts[i] == BlockText(bs[i])
  {
    seq(|bs|, i requires 0 <= i < |bs| => BlockText(bs[i]))
  }

  /** The blocks' texts one after another. */
  function Render(bs: seq<Block>): (s: string)
    ensures |bs| > 0 ==> |s| > 0
  {
    Concat(Texts(bs))
  }

  /** `setOutput(simulatedOutput)` after a run. */
  function Output(lang: Language, code: string): (s: string)
    ensures |s| > 0
  {
    Render(RunBlocks(lang, code))
  }

  /** Rendering is compositional. */
  lemma RenderAppend(a: seq<Block>, b: seq<Block>)
    ensures Render(a + b) == Render(a) + Render(b)
  {
    assert Texts(a + b) == Texts(a) + Texts(b);
    ConcatAppend(Texts(a), Texts(b));
  }

  /** Blocks starting with the header and the "none found" line render
      to text starting with those two lines. */
  lemma RenderNoLogsFirst(r: seq<Block>)
    requires |r| >= 2 && r[..2] == [ConsoleHeader, NoLogs]
    ensures StartsWith(Render(r), BlockText(ConsoleHeader) + BlockText(NoLogs))
  {
    assert r == r[..2] + r[2..];
    RenderAppend(r[..2], r[2..]);
    var head := BlockText(ConsoleHeader) + BlockText(NoLogs);
    assert Render(r[..2]) == head by {
      var ts := Texts(r[..2]);
      assert Concat(ts[1..]) == ts[1] + Concat([]);
    }
    assert (head + Render(r[2..]))[..|head|] == head;
  }

  /** Code mentioning `console.log` but with no quoted call prints the
      header and the "none found" line first. */
  lemma ConsoleWithoutLiteral(lang: Language, code: string)
    requires lang != Bash && Contains(code, "console.log") && LogMatches(code) == []
    ensures StartsWith(Output(lang, code), BlockText(ConsoleHeader) + BlockText(NoLogs))
  {
    ConsoleFirst(lang, code);
    RenderNoLogsFirst(RunBlocks(lang, code));
  }
}

=== FILE: register.dfy ===
/** The registration form: a two-step e-mail check, the submission it
    guards, the handling of the form service's answer, and the reset on
    close. */
module Register {
  import opened Optional
  import opened Strings

  const EmptyEmailError := "Please enter your email address"
  const InvalidEmailError := "Please enter a valid email address"
  const SubmitFailedError := "There was a problem submitting your form. Please try again."

  datatype RegisterState = RegisterState(email: string, name: string, submitted: bool, error: string)

  const Initial := RegisterState("", "", false, "")

  /** The validation in `handleSubmit`: the message it reports, if any. A
      blank address is reported first; any other address must contain an
      `@` and a `.` somewhere. */
  function Validate(email: string): (r: Option<string>)
    ensures r == Some(EmptyEmailError) <==> IsBlank(email)
    ensures r == Some(InvalidEmailError) <==> !IsBlank(email) && (!Contains(email, "@") || !Contains(email, "."))
    ensures r.None? <==> !IsBlank(email) && Contains(email, "@") && Contains(email, ".")
  {
    if IsBlank(email) then Some(EmptyEmailError)
    else if !Contains(email, "@") || !Contains(email, ".") then Some(InvalidEmailError)
    else None
  }

  /** What the form posts to the form service. */
  datatype Request = Request(email: string, name: string)

  datatype SubmitResult = SubmitResult(state: RegisterState, request: Option<Request>)

  /** `handleSubmit` up to the request: a failed check sets its message and
      sends nothing; a passing address is posted together with the name,
      which is never checked. The previous message stays until the answer. */
  function Submit(st: RegisterState): (r: SubmitResult)
    ensures r.request.Some? <==> Validate(st.email).None?
    ensures r.request.Some? ==> r.request.value == Request(st.email, st.name) && r.state == st
    ensures r.request.None? ==> r.state == st.(error := Validate(st.email).value)
  {
    match Validate(st.email)
    case Some(message) => SubmitResult(st.(error := message), None)
    case None => SubmitResult(st, Some(Request(st.email, st.name)))
  }

  /** How the post ended. */
  datatype Outcome = ResponseOk | ResponseNotOk | NetworkError

  /** The `.then` / `.catch` handlers. */
  function Answer(st: RegisterState, o: Outcome): (st': RegisterState)
    ensures o == ResponseOk ==> st'.submitted && st'.error == ""
    ensures o != ResponseOk ==> st'.submitted == st.submitted && st'.error == SubmitFailedError
    ensures st'.email == st.email && st'.name == st.name
  {
    if o == ResponseOk then st.(submitted := true, error := "")
    else st.(error := SubmitFailedError)
  }

  /** `handleClose`: the form is reset only after a successful submission.
      The parent's `onClose` runs in every case. */
  function Close(st: RegisterState): (st': RegisterState)
    ensures st.submitted ==> st' == Initial
    ensures !st.submitted ==> st' == st
  {
    if st.submitted then RegisterState("", "", false, "") else st
  }

  /** The blank check comes first: an address of spaces is reported as
      missing even though it has no `@` either. */
  lemma BlankReportedFirst()
    ensures Validate("   ") == Some(EmptyEmailError)
  {
  }

  /** The check is weak: anything with an `@` and a `.` passes, such as `@.`,
      and the name plays no part in it. */
  lemma WeakCheck(name1: string, name2: string)
    ensures Validate("@.").None?
    ensures Submit(RegisterState("@.", name1, false, "")).request == Some(Request("@.", name1))
    ensures Submit(RegisterState("@.", name2, false, "")).request == Some(Request("@.", name2))
  {
    var e := "@.";
    assert StartsWith(e, "@");
    assert e[1..] == ".";
    assert StartsWith(e[1..], ".");
    assert Contains(e, ".");
    assert !IsWhiteSpace(e[0]);
  }

  /** The check in plain terms: an address passes exactly when it holds an
      `@` and a `.` somewhere (such an address is never blank). */
  lemma PassingAddress(email: string)
    ensures Validate(email).None? <==> '@' in email && '.' in email
  {
    if Validate(email).None? {
      ContainsNecessary(email, "@");
      ContainsNecessary(email, ".");
      assert "@"[0] == '@' && "."[0] == '.';
    }
    if '@' in email && '.' in email {
      CharContained(email, '@');
      CharContained(email, '.');
      var i :| 0 <= i < |email| && email[i] == '@';
      assert !IsWhiteSpace(email[i]);
    }
  }

  /** A string holding a character contains the one-character string. */
  lemma CharContained(s: string, c: char)
    requires c in s
    ensures Contains(s, [c])
  {
    var i :| 0 <= i < |s| && s[i] == c;
    assert s[i..i + 1] == [c];
    assert OccursAt(s, [c], i);
    ContainsIff(s, [c]);
  }

  /** After an OK answer, closing returns the form to its initial state; a
      failed answer keeps what was typed and reports the problem. */
  lemma SubmitRounds(st: RegisterState)
    requires Validate(st.email).None? && !st.submitted
    ensures Close(Answer(Submit(st).state, ResponseOk)) == Initial
    ensures Close(Answer(Submit(st).state, NetworkError)) == st.(error := SubmitFailedError)
    ensures Close(Answer(Submit(st).state, ResponseNotOk)) == st.(error := SubmitFailedError)
  {
  }
}

=== FILE: shortcuts.dfy ===
/** The standalone shortcuts overlay: shown two seconds into a first visit,
    remembered under `tutorialSeen`, and with its own single-letter
    navigation handler. */
module Shortcuts {
  import opened Optional
  import opened Storage
  import opened Keyboard

  const TutorialKey := "tutorialSeen"

  datatype OverlayState = OverlayState(
    isVisible: bool,
    hasSeenTutorial: bool,
    // The two-second timer that shows the overlay is scheduled.
    timerPending: bool,
    store: Store)

  /** What a key press did: the new state and the section scrolled to, if any. */
  datatype KeyResult = KeyResult(state: OverlayState, scrollTo: Option<string>)

  /** The mount effect: with no (or an empty) `tutorialSeen` entry the
      overlay is scheduled to open; otherwise the flag starts set. */
  function Mount(store: Store): (st: OverlayState)
    ensures !st.isVisible && st.store == store
    ensures st.timerPending <==> !Truthy(GetItem(store, TutorialKey))
    ensures st.hasSeenTutorial <==> !st.timerPending
  {
    if !Truthy(GetItem(store, TutorialKey)) then OverlayState(false, false, true, store)
    else OverlayState(false, true, false, store)
  }

  /** The timer firing: shows the overlay if still scheduled. */
  function TimerFires(st: OverlayState): (st': OverlayState)
    ensures st.timerPending ==> st'.isVisible && !st'.timerPending
    ensures !st.timerPending ==> st' == st
  {
    if st.timerPending then st.(isVisible := true, timerPending := false) else st
  }

  /** `closeModal` */
  function Close(st: OverlayState): (st': OverlayState)
    ensures !st'.isVisible && st'.hasSeenTutorial
    ensures st'.store == st.store[TutorialKey := "true"]
    ensures st'.timerPending == st.timerPending
  {
    st.(isVisible := false, hasSeenTutorial := true, store := st.store[TutorialKey := "true"])
  }

  /** `handleKeyDown`. The sound played after `?` is not defined in this
      component; the failure is caught after the overlay has been made
      visible, so it does not change the outcome. */
  function HandleKey(st: OverlayState, e: KeyEvent): (r: KeyResult)
    // A key scrolls exactly when the overlay is hidden and it is one of the
    // shortcut letters; then it reaches that letter's section.
    ensures r.scrollTo.Some? <==> !st.isVisible && e.key in ShortcutKeys
    ensures r.scrollTo.Some? ==> r.scrollTo == SectionForKey(e.key)
    // Only `?` changes the state, and only by showing the overlay; while the
    // overlay is shown every key is ignored, Escape included.
    ensures r.state.isVisible <==> st.isVisible || e.key == "?"
    ensures r.state == st.(isVisible := r.state.isVisible)
  {
    if st.isVisible then KeyResult(st, None)
    else if e.key == "?" then KeyResult(st.(isVisible := true), None)
    else KeyResult(st, SectionForKey(e.key))
  }

  /** Escape does not close the overlay, although its footer says it does. */
  lemma EscapeKeepsOverlayOpen(st: OverlayState, e: KeyEvent)
    requires st.isVisible && e.key == "Escape"
    ensures HandleKey(st, e).state.isVisible
  {
  }

  /** Modifiers are not looked at: a shortcut letter navigates even with
      Ctrl, Meta, Alt or Shift held. */
  lemma ModifiersIgnored(st: OverlayState, i: int, shift: bool, ctrl: bool, meta: bool, alt: bool)
    requires !st.isVisible && 0 <= i < |ShortcutKeys|
    ensures HandleKey(st, KeyEvent(ShortcutKeys[i], shift, ctrl, meta, alt)).scrollTo == Some(NavigationDots[i].id)
  {
    ShortcutsMatchDots();
  }

  /** The render guard: nothing is drawn once the tutorial has been seen
      and the overlay is hidden. */
  function RendersNothing(st: OverlayState): (r: bool)
    ensures r <==> st.hasSeenTutorial && !st.isVisible
  {
    st.hasSeenTutorial && !st.isVisible
  }

  /** Closing hides the overlay for good: nothing is drawn afterwards, nor
      on any later visit over the storage it leaves, and no key brings it
      back except `?`. */
  lemma ClosingHidesForGood(st: OverlayState, e: KeyEvent)
    ensures RendersNothing(Close(st))
    ensures RendersNothing(Mount(Close(st).store))
    ensures e.key != "?" ==> RendersNothing(HandleKey(Close(st), e).state)
  {
    assert GetItem(Close(st).store, TutorialKey) == Some("true");
  }

  /** A first visit shows the overlay when the timer fires; once closed it
      is remembered, and the next mount with that storage draws nothing. */
  lemma FirstVisitLifecycle(store: Store)
    requires TutorialKey !in store
    ensures !RendersNothing(Mount(store))
    ensures TimerFires(Mount(store)).isVisible
    ensures RendersNothing(Mount(Close(TimerFires(Mount(store))).store))
  {
  }
}

=== FILE: storage.dfy ===
/** The browser's `localStorage`, modelled as a map from keys to strings. */
module Storage {
  import opened Optional

  type Store = map<string, string>

  /** `localStorage.getItem(key)`: the stored string, or `null`. */
  function GetItem(st: Store, key: string): (r: Option<string>)
    ensures r.Some? <==> key in st
    ensures r.Some? ==> r.value == st[key]
  {
    if key in st then Some(st[key]) else None
  }

  /** `localStorage.setItem(key, value)`. The transitions of the other
      modules write `store[key := value]`, which is this. */
  function SetItem(st: Store, key: string, value: string): Store {
    st[key := value]
  }

  /** `localStorage.removeItem(key)`. */
  function RemoveItem(st: Store, key: string): Store {
    st - {key}
  }

  /** Reading a key gives what was last written to it, and writing one key
      leaves every other key's reading as it was. */
  lemma GetAfterSet(st: Store, key: string, value: string, other: string)
    ensures GetItem(SetItem(st, key, value), key) == Some(value)
    ensures other != key ==> GetItem(SetItem(st, key, value), other) == GetItem(st, other)
  {
  }

  /** A removed key reads as `null`, and removing one key leaves every other
      key's reading as it was. */
  lemma GetAfterRemove(st: Store, key: string, other: string)
    ensures GetItem(RemoveItem(st, key), key) == None
    ensures other != key ==> GetItem(RemoveItem(st, key), other) == GetItem(st, other)
  {
  }

  /** JavaScript truthiness of a `string | null`: present and not empty. */
  predicate Truthy(v: Option<string>) {
    v.Some? && v.value != ""
  }
}

=== FILE: strings.dfy ===
/** The handful of JavaScript string operations the site's logic relies on:
    `toLowerCase`, `includes`, `startsWith`, `endsWith`, the emptiness test
    behind `!s.trim()`, and `split` on a one-character separator. */
module Strings {
  import opened Optional

  // ---------------------------------------------------------------------------
  // Case mapping
  // ---------------------------------------------------------------------------

  predicate IsUpper(c: char) {
    'A' <= c <= 'Z'
  }

  /** Lower-cases an ASCII capital; every other character is returned as is. */
  function LowerChar(c: char): (r: char)
    ensures !IsUpper(r)
    ensures !IsUpper(c) ==> r == c
    ensures IsUpper(c) ==> r as int - c as int == 32
  {
    if IsUpper(c) then (c as int + 32) as char else c
  }

  /** `s.toLowerCase()`, restricted to the ASCII letters. */
  function ToLower(s: string): (r: string)
    ensures |r| == |s|
    ensures forall i :: 0 <= i < |s| ==> r[i] == LowerChar(s[i])
    ensures forall i :: 0 <= i < |r| ==> !IsUpper(r[i])
  {
    seq(|s|, i requires 0 <= i < |s| => LowerChar(s[i]))
  }

  /** Lower-casing twice is lower-casing once. */
  lemma ToLowerIdempotent(s: string)
    ensures ToLower(ToLower(s)) == ToLower(s)
  {
  }

  // ---------------------------------------------------------------------------
  // Length
  // ---------------------------------------------------------------------------

  /** A character outside the Basic Multilingual Plane, which UTF-16 stores
      as a surrogate pair. */
  predicate IsAstral(c: char) {
    c as int > 0xFFFF
  }

  /** JavaScript's `s.length`: the number of UTF-16 code units, so an astral
      character counts twice. */
  function Utf16Length(s: string): (n: nat)
    ensures |s| <= n <= 2 * |s|
    ensures n == |s| <==> forall i :: 0 <= i < |s| ==> !IsAstral(s[i])
    decreases |s|
  {
    if |s| == 0 then 0
    else (if IsAstral(s[0]) then 2 else 1) + Utf16Length(s[1..])
  }

  /** Lengths add up over concatenation. */
  lemma {:induction false} Utf16LengthAppend(a: string, b: string)
    ensures Utf16Length(a + b) == Utf16Length(a) + Utf16Length(b)
    decreases |a|
  {
    if |a| == 0 {
      assert a + b == b;
    } else {
      assert (a + b)[0] == a[0];
      assert (a + b)[1..] == a[1..] + b;
      Utf16LengthAppend(a[1..], b);
    }
  }

  // ---------------------------------------------------------------------------
  // Prefix, suffix, substring
  // ---------------------------------------------------------------------------

  /** `s.startsWith(p)` */
  predicate StartsWith(s: string, p: string) {
    |p| <= |s| && s[..|p|] == p
  }

  /** `s.endsWith(p)` */
  predicate EndsWith(s: string, p: string) {
    |p| <= |s| && s[|s| - |p|..] == p
  }

  /** `t` occurs in `s` starting at index `i`. */
  ghost predicate OccursAt(s: string, t: string, i: int) {
    0 <= i && i + |t| <= |s| && s[i..i + |t|] == t
  }

  /** `s.includes(t)`, computed by trying every start position in turn. */
  predicate Contains(s: string, t: string)
    decreases |s|
  {
    StartsWith(s, t) || (|s| > 0 && Contains(s[1..], t))
  }

  /** The scanning definition of `includes` agrees with "occurs at some index". */
  lemma {:induction false} ContainsIff(s: string, t: string)
    ensures Contains(s, t) <==> exists i :: OccursAt(s, t, i)
    decreases |s|
  {
    if StartsWith(s, t) {
      assert OccursAt(s, t, 0);
    } else if |s| == 0 {
    } else {
      ContainsIff(s[1..], t);
      if exists i :: OccursAt(s[1..], t, i) {
        var i :| OccursAt(s[1..], t, i);
        assert s[1..][i..i + |t|] == s[i + 1..i + 1 + |t|];
        assert OccursAt(s, t, i + 1);
      }
      if exists i :: OccursAt(s, t, i) {
        var i :| OccursAt(s, t, i);
        assert i != 0;
        assert s[1..][i - 1..i - 1 + |t|] == s[i..i + |t|];
        assert OccursAt(s[1..], t, i - 1);
      }
    }
  }

  /** A string contains every string that occurs in one of its substrings. */
  lemma ContainsTransitive(s: string, t: string, u: string)
    requires Contains(s, t) && Contains(t, u)
    ensures Contains(s, u)
  {
    ContainsIff(s, t);
    ContainsIff(t, u);
    var i :| OccursAt(s, t, i);
    var j :| OccursAt(t, u, j);
    forall k | 0 <= k < |u|
      ensures s[i + j + k] == u[k]
    {
      assert t[j..j + |u|][k] == t[j + k];
      assert s[i..i + |t|][j + k] == s[i + j + k];
    }
    assert s[i + j..i + j + |u|] == u;
    assert OccursAt(s, u, i + j);
    ContainsIff(s, u);
  }

  /** A contained string is no longer than its container and uses only
      characters of it; used to rule out keywords of concrete inputs. */
  lemma ContainsNecessary(s: string, t: string)
    requires Contains(s, t)
    ensures |t| <= |s|
    ensures forall k :: 0 <= k < |t| ==> t[k] in s
  {
    ContainsIff(s, t);
    var i :| OccursAt(s, t, i);
    forall k | 0 <= k < |t|
      ensures t[k] in s
    {
      assert s[i..i + |t|][k] == s[i + k];
    }
  }

  /** A string that starts with `t` contains it. */
  lemma StartsWithContains(s: string, t: string)
    requires StartsWith(s, t)
    ensures Contains(s, t)
  {
  }

  /** Every string contains itself. */
  lemma ContainsSelf(s: string)
    ensures Contains(s, s)
  {
    assert StartsWith(s, s);
  }

  /** An occurrence in a lower-cased string survives a second lower-casing. */
  lemma ContainsLowerOfLower(s: string, t: string)
    ensures Contains(ToLower(ToLower(s)), t) == Contains(ToLower(s), t)
  {
    ToLowerIdempotent(s);
  }

  /** Lower-casing commutes with taking a substring window. */
  lemma ToLowerSlice(s: string, i: int, j: int)
    requires 0 <= i <= j <= |s|
    ensures ToLower(s)[i..j] == ToLower(s[i..j])
  {
  }

  // ---------------------------------------------------------------------------
  // Blank strings
  // ---------------------------------------------------------------------------

  /** The characters `String.prototype.trim` removes: the ECMAScript
      WhiteSpace and LineTerminator code points. */
  predicate IsWhiteSpace(c: char) {
    c == ' ' || c == '\t' || c == '\n' || c == '\r' || c == '\U{B}' || c == '\U{C}'
    || c == '\U{A0}' || c == '\U{1680}' || ('\U{2000}' <= c <= '\U{200A}')
    || c == '\U{2028}' || c == '\U{2029}' || c == '\U{202F}' || c == '\U{205F}'
    || c == '\U{3000}' || c == '\U{FEFF}'
  }

  /** `!s.trim()`: the string is empty or consists of white space only. */
  predicate IsBlank(s: string) {
    forall i :: 0 <= i < |s| ==> IsWhiteSpace(s[i])
  }

  // ---------------------------------------------------------------------------
  // Splitting on a single character
  // ---------------------------------------------------------------------------

  /** `s.split(sep)` for a one-character separator: the maximal runs between
      separators, so the result always has one more field than `s` has
      separators, and the empty string splits into one empty field. */
  function Split(s: string, sep: char): (r: seq<string>)
    ensures |r| >= 1
    ensures forall i :: 0 <= i < |r| ==> sep !in r[i]
    decreases |s|
  {
    if |s| == 0 then [""]
    else
      var rest := Split(s[1..], sep);
      if s[0] == sep then [""] + rest
      else [[s[0]] + rest[0]] + rest[1..]
  }

  /** `parts.join(sep)` */
  function Join(parts: seq<string>, sep: char): string
    decreases |parts|
  {
    if |parts| == 0 then ""
    else if |parts| == 1 then parts[0]
    else parts[0] + [sep] + Join(parts[1..], sep)
  }

  /** Joining the fields of a split gives back the original string. */
  lemma {:induction false} JoinSplit(s: string, sep: char)
    ensures Join(Split(s, sep), sep) == s
    decreases |s|
  {
    if |s| > 0 {
      var rest := Split(s[1..], sep);
      JoinSplit(s[1..], sep);
      if s[0] == sep {
        assert Split(s, sep) == [""] + rest;
        assert s == [sep] + s[1..];
      } else {
        var parts := Split(s, sep);
        assert parts == [[s[0]] + rest[0]] + rest[1..];
        if |rest| == 1 {
          assert Join(parts, sep) == [s[0]] + rest[0];
        } else {
          assert parts[1..] == rest[1..];
          assert Join(rest, sep) == rest[0] + [sep] + Join(rest[1..], sep);
        }
        assert s == [s[0]] + s[1..];
      }
    }
  }

  /** Splitting a field followed by a separator peels that field off. */
  lemma {:induction false} SplitCons(p: string, sep: char, rest: string)
    requires sep !in p
    ensures Split(p + [sep] + rest, sep) == [p] + Split(rest, sep)
    decreases |p|
  {
    if |p| == 0 {
      assert p + [sep] + rest == [sep] + rest;
      assert ([sep] + rest)[1..] == rest;
    } else {
      var s := p + [sep] + rest;
      assert s[0] == p[0];
      assert s[1..] == p[1..] + [sep] + rest;
      SplitCons(p[1..], sep, rest);
      assert [p[0]] + p[1..] == p;
    }
  }

  /** A field without separators splits into itself. */
  lemma {:induction false} SplitNoSep(p: string, sep: char)
    requires sep !in p
    ensures Split(p, sep) == [p]
    decreases |p|
  {
    if |p| > 0 {
      SplitNoSep(p[1..], sep);
      assert [p[0]] + p[1..] == p;
    }
  }

  /** Splitting the join of separator-free fields gives back the fields. */
  lemma {:induction false} SplitJoin(parts: seq<string>, sep: char)
    requires |parts| >= 1
    requires forall i :: 0 <= i < |parts| ==> sep !in parts[i]
    ensures Split(Join(parts, sep), sep) == parts
    decreases |parts|
  {
    if |parts| == 1 {
      SplitNoSep(parts[0], sep);
    } else {
      SplitJoin(parts[1..], sep);
      SplitCons(parts[0], sep, Join(parts[1..], sep));
      assert [parts[0]] + parts[1..] == parts;
    }
  }

  /** `s.split(sep)[n]`: the `n`-th field, or `undefined` past the last one. */
  function Field(s: string, sep: char, n: nat): (r: Option<string>)
    ensures r.Some? <==> n < |Split(s, sep)|
    ensures r.Some? ==> sep !in r.value
  {
    var parts := Split(s, sep);
    if n < |parts| then Some(parts[n]) else None
  }

  /** A string without the separator has exactly one field, itself. */
  lemma FieldsOfSeparatorFree(p: string, sep: char)
    requires sep !in p
    ensures Field(p, sep, 0) == Some(p)
    ensures Field(p, sep, 1) == None
  {
    SplitNoSep(p, sep);
  }
}

=== FILE: tech_stack.dfy ===
/** The technology-stack chart and its expanded view: a category filter,
    the compact list of at most six items with its "View N More" button,
    and the description lookup with a fixed fallback sentence. */
module TechStack {
  import opened Optional
  import opened Lists

  // ---------------------------------------------------------------------------
  // Items and the category filter
  // ---------------------------------------------------------------------------

  datatype Category = Frontend | Backend | AI | Infrastructure
  datatype Trend = Up | Down | Stable

  /** `TechItem` */
  datatype TechItem = TechItem(name: string, category: Category, trend: Trend, percentage: int, color: string)

  /** The category buttons: every item, or one category. */
  datatype Filter = All | Only(category: Category)

  predicate Passes(f: Filter, item: TechItem) {
    f.All? || item.category == f.category
  }

  /** `filteredTechStack`: the items the active category lets through, in
      their original order. */
  function FilterItems(items: seq<TechItem>, f: Filter): (r: seq<TechItem>)
    ensures forall x :: x in r <==> x in items && Passes(f, x)
    ensures IsSubsequence(r, items)
    ensures |r| <= |items|
    ensures f.All? ==> r == items
    decreases |items|
  {
    if |items| == 0 then []
    else
      var rest := FilterItems(items[1..], f);
      assert forall x :: x in items <==> x == items[0] || x in items[1..];
      if Passes(f, items[0]) then [items[0]] + rest else rest
  }

  /** Filtering is pointwise: an item is kept exactly when it passes, so
      the result is the same as filtering the two halves separately. */
  lemma {:induction false} FilterItemsAppend(a: seq<TechItem>, b: seq<TechItem>, f: Filter)
    ensures FilterItems(a + b, f) == FilterItems(a, f) + FilterItems(b, f)
    decreases |a|
  {
    if |a| == 0 {
      assert a + b == b;
    } else {
      assert (a + b)[1..] == a[1..] + b;
      FilterItemsAppend(a[1..], b, f);
    }
  }

  // ---------------------------------------------------------------------------
  // The compact chart
  // ---------------------------------------------------------------------------

  /** How many items the compact chart shows at most. */
  const CompactLimit := 6

  /** `limitedTechStack`: the first (at most) six filtered items. */
  function Compact(filtered: seq<TechItem>): (r: seq<TechItem>)
    ensures r <= filtered
    ensures |r| == if |filtered| <= CompactLimit then |filtered| else CompactLimit
  {
    if |filtered| <= CompactLimit then filtered else filtered[..CompactLimit]
  }

  /** The "View N More" button: present iff the filter lets through more
      items than the compact list shows, carrying the number left out. */
  function MoreButton(filtered: seq<TechItem>): (r: Option<nat>)
    ensures r.Some? <==> |filtered| > CompactLimit
    ensures r.Some? ==> r.value == |filtered| - CompactLimit
  {
    var shown := Compact(filtered);
    if |filtered| > |shown| then Some(|filtered| - |shown|) else None
  }

  /** The compact list followed by the items the button counts is the whole
      filtered list: nothing is dropped and nothing is counted twice. */
  lemma CompactAndMoreCoverFiltered(filtered: seq<TechItem>)
    ensures MoreButton(filtered).None? ==> Compact(filtered) == filtered
    ensures MoreButton(filtered).Some? ==>
              Compact(filtered) + filtered[CompactLimit..] == filtered
              && MoreButton(filtered).value == |filtered[CompactLimit..]|
  {
    if |filtered| > CompactLimit {
      assert filtered[..CompactLimit] + filtered[CompactLimit..] == filtered;
    }
  }

  /** `techStack` of the compact chart, one run per category as in the
      source list. */
  const ChartFrontend: seq<TechItem> := [
    TechItem("TypeScript", Frontend, Up, 92, "#3178c6"),
    TechItem("React", Frontend, Up, 88, "#61dafb"),
    TechItem("Tailwind CSS", Frontend, Up, 85, "#38bdf8"),
    TechItem("Framer Motion", Frontend, Up, 78, "#ff4d4d")
  ]

  const ChartBackend: seq<TechItem> := [
    TechItem("Node.js", Backend, Up, 90, "#8cc84b"),
    TechItem("FastAPI", Backend, Up, 82, "#009688"),
    TechItem("Flask", Backend, Stable, 75, "#000000"),
    TechItem("Rust", Backend, Up, 86, "#dea584"),
    TechItem("Firebase", Backend, Up, 89, "#ffca28")
  ]

  const ChartAI: seq<TechItem> := [
    TechItem("Google Gemini", AI, Up, 94, "#4285f4"),
    TechItem("CUDA", AI, Up, 89, "#76b900"),
    TechItem("C++", AI, Stable, 84, "#659ad2"),
    TechItem("Python", AI, Stable, 91, "#3776ab"),
    TechItem("Hugging Face", AI, Up, 88, "#ffbd59")
  ]

  const ChartInfrastructure: seq<TechItem> := [
    TechItem("Docker", Infrastructure, Up, 93, "#2496ed"),
    TechItem("Kubernetes", Infrastructure, Up, 87, "#326ce5"),
    TechItem("Vercel", Infrastructure, Up, 88, "#000000"),
    TechItem("GCP", Infrastructure, Up, 86, "#4285f4"),
    TechItem("Cloudinary", Infrastructure, Up, 85, "#3448c5")
  ]

  const ChartData: seq<TechItem> := ChartFrontend + ChartBackend + ChartAI + ChartInfrastructure

  /** With the shipped data only "All" shows the button: nineteen items, six
      shown, thirteen more. No single category reaches six items. */
  lemma ShippedChartButtons()
    ensures |FilterItems(ChartData, All)| == 19
    ensures MoreButton(FilterItems(ChartData, All)) == Some(13)
    ensures forall c: Category :: |FilterItems(ChartData, Only(c))| <= 5
    ensures forall c: Category :: MoreButton(FilterItems(ChartData, Only(c))).None?
  {
    ChartRuns();
    forall c: Category
      ensures |FilterItems(ChartData, Only(c))| <= 5
    {
      FourBlocks(ChartFrontend, ChartBackend, ChartAI, ChartInfrastructure, c);
    }
  }

  /** The chart's items come grouped by category: four frontend, five
      backend, five AI, five infrastructure. */
  lemma ChartRuns()
    ensures |ChartData| == 19
    ensures |ChartFrontend| == 4 && forall i :: 0 <= i < 4 ==> ChartFrontend[i].category == Frontend
    ensures |ChartBackend| == 5 && forall i :: 0 <= i < 5 ==> ChartBackend[i].category == Backend
    ensures |ChartAI| == 5 && forall i :: 0 <= i < 5 ==> ChartAI[i].category == AI
    ensures |ChartInfrastructure| == 5 && forall i :: 0 <= i < 5 ==> ChartInfrastructure[i].category == Infrastructure
  {
  }

  /** The chart's data is four runs, one per category, and a category
      filter keeps exactly its own run. */
  lemma FourBlocks(fe: seq<TechItem>, be: seq<TechItem>, ai: seq<TechItem>, inf: seq<TechItem>, c: Category)
    requires forall i :: 0 <= i < |fe| ==> fe[i].category == Frontend
    requires forall i :: 0 <= i < |be| ==> be[i].category == Backend
    requires forall i :: 0 <= i < |ai| ==> ai[i].category == AI
    requires forall i :: 0 <= i < |inf| ==> inf[i].category == Infrastructure
    ensures FilterItems(fe + be + ai + inf, Only(c))
            == match c
               case Frontend => fe
               case Backend => be
               case AI => ai
               case Infrastructure => inf
  {
    var f := Only(c);
    BlockCount(fe, Frontend, c);
    BlockCount(be, Backend, c);
    BlockCount(ai, AI, c);
    BlockCount(inf, Infrastructure, c);
    var fe', be', ai', inf' := FilterItems(fe, f), FilterItems(be, f), FilterItems(ai, f), FilterItems(inf, f);
    FilterItemsAppend(fe, be, f);
    FilterItemsAppend(fe + be, ai, f);
    FilterItemsAppend(fe + be + ai, inf, f);
    assert FilterItems(fe + be + ai + inf, f) == fe' + be' + ai' + inf';
    match c
    case Frontend => assert fe' + be' + ai' + inf' == fe + [] + [] + [];
    case Backend => assert fe' + be' + ai' + inf' == [] + be + [] + [];
    case AI => assert fe' + be' + ai' + inf' == [] + [] + ai + [];
    case Infrastructure => assert fe' + be' + ai' + inf' == [] + [] + [] + inf;
  }

  /** A block of items that all share category `b` passes the filter for
      `c` whole when `c` is `b`, and not at all otherwise. */
  lemma {:induction false} BlockCount(block: seq<TechItem>, b: Category, c: Category)
    requires forall i :: 0 <= i < |block| ==> block[i].category == b
    ensures FilterItems(block, Only(c)) == if b == c then block else []
    decreases |block|
  {
    if |block| > 0 {
      BlockCount(block[1..], b, c);
    }
  }

  // ---------------------------------------------------------------------------
  // The expanded view
  // ---------------------------------------------------------------------------

  /** `techStack` of the expanded view. */
  const ExpandedData: seq<TechItem> := [
    TechItem("TypeScript", Frontend, Up, 92, "#3178c6"),
    TechItem("React", Frontend, Up, 88, "#61dafb"),
    TechItem("Tailwind CSS", Frontend, Up, 85, "#38bdf8"),
    TechItem("Framer Motion", Frontend, Up, 78, "#ff4d4d"),
    TechItem("Node.js", Backend, Up, 90, "#8cc84b"),
    TechItem("FastAPI", Backend, Up, 82, "#009688"),
    TechItem("Flask", Backend, Stable, 75, "#000000"),
    TechItem("Rust", Backend, Up, 86, "#dea584"),
    TechItem("Google Gemini", AI, Up, 94, "#4285f4"),
    TechItem("CUDA", AI, Up, 89, "#76b900"),
    TechItem("C++", AI, Stable, 84, "#659ad2"),
    TechItem("Python", AI, Stable, 91, "#3776ab"),
    TechItem("Docker", Infrastructure, Up, 93, "#2496ed"),
    TechItem("Kubernetes", Infrastructure, Up, 87, "#326ce5"),
    TechItem("Vercel", Infrastructure, Up, 88, "#000000"),
    TechItem("GCP", Infrastructure, Up, 86, "#4285f4")
  ]

  /** The expanded view's list is the chart's with Firebase, Hugging Face
      and Cloudinary removed: every item it shows is in the chart with the
      same fields, but those three chart items have no counterpart here. */
  lemma ExpandedIsChartMinusThree()
    ensures |ExpandedData| == 16
    ensures ExpandedData == ChartData[..8] + ChartData[9..13] + ChartData[14..18]
    ensures forall x :: x in ExpandedData ==> x in ChartData
    ensures ChartData[8].name == "Firebase" && ChartData[13].name == "Hugging Face"
            && ChartData[18].name == "Cloudinary"
    ensures forall i :: 0 <= i < |ExpandedData| ==>
              ExpandedData[i].name != "Firebase" && ExpandedData[i].name != "Hugging Face"
              && ExpandedData[i].name != "Cloudinary"
  {
    assert ChartData[..8] == ChartFrontend + ChartBackend[..4];
    assert ChartData[9..13] == ChartAI[..4];
    assert ChartData[14..18] == ChartInfrastructure[..4];
    assert ExpandedData[..4] == ChartFrontend;
    assert ExpandedData[4..8] == ChartBackend[..4];
    assert ExpandedData[8..12] == ChartAI[..4];
    assert ExpandedData[12..] == ChartInfrastructure[..4];
    assert ExpandedData == ExpandedData[..4] + ExpandedData[4..8] + ExpandedData[8..12] + ExpandedData[12..];
  }

  /** The fixed sentence shown for a technology without an entry. */
  const FallbackDescription := "Advanced technology integrated into our stack for optimal performance."

  /** The `descriptions` record of `getTechDescription`. */
  const Descriptions: map<string, string> := map[
    "TypeScript" := "Strongly typed programming language that builds on JavaScript, giving better tooling at any scale.",
    "React" := "JavaScript library for building user interfaces, particularly single-page applications.",
    "Tailwind CSS" := "Utility-first CSS framework for rapidly building custom user interfaces.",
    "Framer Motion" := "Production-ready motion library for React that makes creating animations easy.",
    "Node.js" := "JavaScript runtime built on Chrome's V8 JavaScript engine for building scalable network applications.",
    "FastAPI" := "Modern, fast web framework for building APIs with Python based on standard type hints.",
    "Flask" := "Lightweight WSGI web application framework designed to make getting started quick and easy.",
    "Rust" := "Systems programming language focused on safety, speed, and concurrency.",
    "Firebase" := "Platform developed by Google for creating mobile and web applications, providing tools and infrastructure to build, improve, and grow apps.",
    "Google Gemini" := "Google's multimodal AI model capable of understanding and reasoning across text, images, audio, and video.",
    "CUDA" := "Parallel computing platform and API model created by NVIDIA for general computing on GPUs.",
    "C++" := "General-purpose programming language with a bias toward systems programming and performance.",
    "Python" := "Interpreted high-level general-purpose programming language with a focus on code readability.",
    "Hugging Face" := "AI community platform that provides tools to build, train and deploy ML models based on open source code and technologies.",
    "Docker" := "Platform for developing, shipping, and running applications in containers.",
    "Kubernetes" := "Open-source system for automating deployment, scaling, and management of containerized applications.",
    "Vercel" := "Platform for frontend frameworks and static sites, built to integrate with headless content, commerce, and databases.",
    "GCP" := "Suite of cloud computing services that runs on the same infrastructure that Google uses internally.",
    "Cloudinary" := "Cloud-based image and video management service that provides an end-to-end image and video management solution."
  ]

  /** Names that an object literal answers from `Object.prototype` when it
      has no own entry: `descriptions[name]` is then an inherited function
      (or, for `__proto__`, the prototype itself), truthy and not a string. */
  const ObjectPrototypeKeys: set<string> := {
    "constructor", "hasOwnProperty", "isPrototypeOf", "propertyIsEnumerable",
    "toLocaleString", "toString", "valueOf", "__proto__",
    "__defineGetter__", "__defineSetter__", "__lookupGetter__", "__lookupSetter__"
  }

  /** What `getTechDescription` hands back: a sentence, or the inherited
      member found under the name. */
  datatype Description = Sentence(text: string) | InheritedMember(key: string)

  /** `getTechDescription`: `descriptions[name] || fallback`. An own entry
      wins; an inherited member is truthy and so is returned as it is; only
      a name found nowhere (or an empty entry) gives the fallback sentence. */
  function Describe(name: string): (r: Description)
    ensures r.Sentence? ==> r.text != ""
    ensures name in Descriptions && Descriptions[name] != "" ==> r == Sentence(Descriptions[name])
    ensures name !in Descriptions && name in ObjectPrototypeKeys ==> r == InheritedMember(name)
    ensures name !in Descriptions && name !in ObjectPrototypeKeys ==> r == Sentence(FallbackDescription)
  {
    if name in Descriptions && Descriptions[name] != "" then Sentence(Descriptions[name])
    else if name !in Descriptions && name in ObjectPrototypeKeys then InheritedMember(name)
    else Sentence(FallbackDescription)
  }

  /** Every entry differs from the fallback sentence, so the fallback is
      shown exactly for the names that are neither an entry nor an
      inherited member. */
  lemma FallbackExactlyForUnknownNames(name: string)
    ensures Describe(name) == Sentence(FallbackDescription) <==> name !in Descriptions && name !in ObjectPrototypeKeys
  {
    if name in Descriptions {
      assert Descriptions[name] in Descriptions.Values;
      DescriptionsAreNotFallback();
    }
  }

  /** No technology shares a name with an `Object.prototype` member, so an
      inherited member comes back exactly for those names. */
  lemma InheritedExactlyForPrototypeKeys(name: string)
    ensures Describe(name).InheritedMember? <==> name in ObjectPrototypeKeys
  {
    if name in ObjectPrototypeKeys {
      PrototypeKeysHaveNoEntry();
    }
  }

  /** Every technology name is capitalised; no prototype member's is. */
  lemma PrototypeKeysHaveNoEntry()
    ensures forall k :: k in ObjectPrototypeKeys ==> k !in Descriptions
  {
    NamesCapitalised();
    PrototypeKeysNotCapitalised();
  }

  predicate Capitalised(k: string) {
    k != "" && 'A' <= k[0] <= 'Z'
  }

  lemma NamesCapitalised()
    ensures forall k :: k in Descriptions ==> Capitalised(k)
  {
  }

  lemma PrototypeKeysNotCapitalised()
    ensures forall k :: k in ObjectPrototypeKeys ==> !Capitalised(k)
  {
  }

  lemma DescriptionsAreNotFallback()
    ensures forall k :: k in Descriptions ==> Descriptions[k] != "" && Descriptions[k] != FallbackDescription
  {
  }

  /** Every technology on either list has its own entry: the fallback is
      never displayed by the expanded view, nor would it be for the chart's. */
  lemma EveryShownItemDescribed()
    ensures forall i :: 0 <= i < |ExpandedData| ==> ExpandedData[i].name in Descriptions
    ensures forall i :: 0 <= i < |ChartData| ==> ChartData[i].name in Descriptions
    ensures forall i :: 0 <= i < |ExpandedData| ==> Describe(ExpandedData[i].name).Sentence?
    ensures forall i :: 0 <= i < |ExpandedData| ==> Describe(ExpandedData[i].name) != Sentence(FallbackDescription)
  {
    forall i | 0 <= i < |ExpandedData|
      ensures Describe(ExpandedData[i].name).Sentence?
      ensures Describe(ExpandedData[i].name) != Sentence(FallbackDescription)
    {
      FallbackExactlyForUnknownNames(ExpandedData[i].name);
    }
  }
}

=== FILE: theme.dfy ===
/** The theme switcher: sixteen named palettes (the last one user-edited),
    lookup of the active palette with a fallback, the seven CSS colour
    variables it sets, persistence of the choice and of the custom colours,
    the category filter of the picker, and `hexToRgb`. */
module Theme {
  import opened Optional
  import opened Strings
  import opened Storage

  // ---------------------------------------------------------------------------
  // Palettes
  // ---------------------------------------------------------------------------

  /** `ThemeColors` */
  datatype Colors = Colors(
    primary: string, secondary: string, accent: string, background: string,
    cardBackground: string, textPrimary: string, textSecondary: string)

  /** `keyof ThemeColors` */
  datatype ColorField = Primary | Secondary | Accent | Background | CardBackground | TextPrimary | TextSecondary

  function Get(c: Colors, f: ColorField): string {
    match f
    case Primary => c.primary
    case Secondary => c.secondary
    case Accent => c.accent
    case Background => c.background
    case CardBackground => c.cardBackground
    case TextPrimary => c.textPrimary
    case TextSecondary => c.textSecondary
  }

  /** `{ ...c, [f]: v }` */
  function With(c: Colors, f: ColorField, v: string): (r: Colors)
    ensures Get(r, f) == v
    ensures forall g :: g != f ==> Get(r, g) == Get(c, g)
  {
    match f
    case Primary => c.(primary := v)
    case Secondary => c.(secondary := v)
    case Accent => c.(accent := v)
    case Background => c.(background := v)
    case CardBackground => c.(cardBackground := v)
    case TextPrimary => c.(textPrimary := v)
    case TextSecondary => c.(textSecondary := v)
  }

  datatype ThemeEntry = ThemeEntry(id: string, name: string, colors: Colors)

  /** The initial custom colours, the same as the default palette. */
  const DefaultCustomColors := Colors("#00DC82", "#36E4DA", "#00DC82", "#000000", "#0a0a0a", "#ffffff", "#cccccc")

  /** The fifteen fixed palettes. */
  const FixedThemes: seq<ThemeEntry> := [
    ThemeEntry("default", "Default", Colors("#00DC82", "#36E4DA", "#00DC82", "#000000", "#0a0a0a", "#ffffff", "#cccccc")),
    ThemeEntry("midnight", "Midnight Blue", Colors("#3b82f6", "#60a5fa", "#2563eb", "#0f172a", "#1e293b", "#ffffff", "#cbd5e1")),
    ThemeEntry("sunset", "Sunset", Colors("#f97316", "#fb923c", "#ea580c", "#18181b", "#27272a", "#ffffff", "#d4d4d8")),
    ThemeEntry("emerald", "Emerald", Colors("#10b981", "#34d399", "#059669", "#0f172a", "#1e293b", "#ffffff", "#cbd5e1")),
    ThemeEntry("purple", "Purple Haze", Colors("#8b5cf6", "#a78bfa", "#7c3aed", "#0f1021", "#1e1b4b", "#ffffff", "#c7d2fe")),
    ThemeEntry("rose", "Rose Gold", Colors("#f43f5e", "#fb7185", "#e11d48", "#1c1917", "#292524", "#ffffff", "#fecdd3")),
    ThemeEntry("ocean", "Ocean", Colors("#0ea5e9", "#38bdf8", "#0284c7", "#0c4a6e", "#075985", "#ffffff", "#bae6fd")),
    ThemeEntry("forest", "Forest", Colors("#22c55e", "#4ade80", "#16a34a", "#14532d", "#166534", "#ffffff", "#bbf7d0")),
    ThemeEntry("amber", "Amber", Colors("#f59e0b", "#fbbf24", "#d97706", "#451a03", "#78350f", "#ffffff", "#fde68a")),
    ThemeEntry("cherry", "Cherry", Colors("#dc2626", "#ef4444", "#b91c1c", "#450a0a", "#7f1d1d", "#ffffff", "#fecaca")),
    ThemeEntry("lavender", "Lavender", Colors("#a855f7", "#c084fc", "#9333ea", "#4c1d95", "#6b21a8", "#ffffff", "#e9d5ff")),
    ThemeEntry("teal", "Teal", Colors("#14b8a6", "#2dd4bf", "#0d9488", "#134e4a", "#115e59", "#ffffff", "#99f6e4")),
    ThemeEntry("slate", "Slate", Colors("#64748b", "#94a3b8", "#475569", "#0f172a", "#1e293b", "#ffffff", "#cbd5e1")),
    ThemeEntry("light", "Light Mode", Colors("#0ea5e9", "#38bdf8", "#0284c7", "#f8fafc", "#ffffff", "#0f172a", "#334155")),
    ThemeEntry("dark", "Dark Mode", Colors("#3b82f6", "#60a5fa", "#2563eb", "#111827", "#1f2937", "#ffffff", "#d1d5db"))
  ]

  /** `themes`: the fixed palettes followed by the user's custom one. */
  function Themes(custom: Colors): (r: seq<ThemeEntry>)
    ensures |r| == 16 && r[..15] == FixedThemes
    ensures r[15] == ThemeEntry("custom", "Custom", custom)
  {
    FixedThemes + [ThemeEntry("custom", "Custom", custom)]
  }

  /** The ids of the palettes, in picker order. */
  const ThemeIds: seq<string> := [
    "default", "midnight", "sunset", "emerald", "purple", "rose", "ocean", "forest",
    "amber", "cherry", "lavender", "teal", "slate", "light", "dark", "custom"
  ]

  /** The id list is that of the palettes, and no id is used twice. */
  lemma ThemeIdsDistinct(custom: Colors)
    ensures |ThemeIds| == |Themes(custom)|
    ensures forall i :: 0 <= i < |ThemeIds| ==> Themes(custom)[i].id == ThemeIds[i]
    ensures forall i, j :: 0 <= i < j < |ThemeIds| ==> ThemeIds[i] != ThemeIds[j]
  {
  }

  /** `themes.find(t => t.id === id)?.colors`, scanning from position `from`. */
  function Find(themes: seq<ThemeEntry>, id: string, from: nat): (r: Option<Colors>)
    requires from <= |themes|
    ensures r.None? <==> forall k :: from <= k < |themes| ==> themes[k].id != id
    ensures r.Some? ==> exists k :: from <= k < |themes| && themes[k].id == id && themes[k].colors == r.value
                                   && forall j :: from <= j < k ==> themes[j].id != id
    decreases |themes| - from
  {
    if from == |themes| then None
    else if themes[from].id == id then Some(themes[from].colors)
    else Find(themes, id, from + 1)
  }

  /** The active palette: the one with the active id, else the first palette. */
  function Palette(activeTheme: string, custom: Colors): (r: Colors)
    ensures forall k :: 0 <= k < 16 && ThemeIds[k] == activeTheme ==> r == Themes(custom)[k].colors
    ensures activeTheme !in ThemeIds ==> r == FixedThemes[0].colors
  {
    ThemeIdsDistinct(custom);
    Find(Themes(custom), activeTheme, 0).GetOr(Themes(custom)[0].colors)
  }

  /** The `custom` palette follows the custom colours. */
  lemma CustomPaletteIsCustomColors(custom: Colors)
    ensures Palette("custom", custom) == custom
  {
    assert ThemeIds[15] == "custom";
  }

  /** The CSS custom properties the palette effect sets, one per field. */
  const CssVariableNames: seq<string> := [
    "--color-primary", "--color-secondary", "--color-accent", "--color-background",
    "--color-card-background", "--color-text-primary", "--color-text-secondary"
  ]

  const AllFields: seq<ColorField> := [Primary, Secondary, Accent, Background, CardBackground, TextPrimary, TextSecondary]

  /** The seven `setProperty` calls for a palette, in order. */
  function CssVariables(c: Colors): (r: seq<(string, string)>)
    ensures |r| == 7
    ensures forall i :: 0 <= i < 7 ==> r[i] == (CssVariableNames[i], Get(c, AllFields[i]))
  {
    seq(7, i requires 0 <= i < 7 => (CssVariableNames[i], Get(c, AllFields[i])))
  }

  /** Where a field sits in the list of fields. */
  function FieldIndex(f: ColorField): (i: nat)
    ensures i < 7 && AllFields[i] == f
  {
    match f
    case Primary => 0
    case Secondary => 1
    case Accent => 2
    case Background => 3
    case CardBackground => 4
    case TextPrimary => 5
    case TextSecondary => 6
  }

  /** Each field gets exactly one variable, holding that field of the
      palette, and no variable name repeats. */
  lemma CssVariablesCoverFields(c: Colors)
    ensures forall f :: CssVariables(c)[FieldIndex(f)] == (CssVariableNames[FieldIndex(f)], Get(c, f))
    ensures forall i, j :: 0 <= i < j < 7 ==> AllFields[i] != AllFields[j] && CssVariableNames[i] != CssVariableNames[j]
  {
  }

  /** The variables set for an unknown theme id are the default palette's. */
  lemma UnknownThemeFallsBack(activeTheme: string, custom: Colors)
    requires activeTheme !in ThemeIds
    ensures CssVariables(Palette(activeTheme, custom)) == CssVariables(Palette("default", custom))
  {
    assert ThemeIds[0] == "default";
  }

  // ---------------------------------------------------------------------------
  // Picker categories
  // ---------------------------------------------------------------------------

  datatype Category = All | Dark | Light | Colorful

  const ColorfulIds: seq<string> := ["rose", "ocean", "forest", "amber", "cherry", "lavender", "teal"]

  /** The picker's filter predicate. */
  predicate Shown(category: Category, id: string) {
    match category
    case All => true
    case Light => id == "light"
    case Dark => id != "light" && id != "custom"
    case Colorful => id in ColorfulIds
  }

  /** The palettes, one constructor each, in picker order. */
  datatype ThemeId = DefaultTheme | Midnight | Sunset | Emerald | Purple | Rose | Ocean | Forest
                   | Amber | Cherry | Lavender | Teal | Slate | LightTheme | DarkTheme | CustomTheme

  const ThemeOrder: seq<ThemeId> := [
    DefaultTheme, Midnight, Sunset, Emerald, Purple, Rose, Ocean, Forest,
    Amber, Cherry, Lavender, Teal, Slate, LightTheme, DarkTheme, CustomTheme
  ]

  /** The id string of a palette. */
  function IdOf(t: ThemeId): (s: string)
    ensures s in ThemeIds
  {
    match t
    case DefaultTheme => "default" case Midnight => "midnight" case Sunset => "sunset"
    case Emerald => "emerald" case Purple => "purple" case Rose => "rose" case Ocean => "ocean"
    case Forest => "forest" case Amber => "amber" case Cherry => "cherry"
    case Lavender => "lavender" case Teal => "teal" case Slate => "slate"
    case LightTheme => "light" case DarkTheme => "dark" case CustomTheme => "custom"
  }

  /** The constructors list the palettes' ids in order. */
  lemma ThemeOrderMatchesIds()
    ensures |ThemeOrder| == |ThemeIds|
    ensures forall i :: 0 <= i < |ThemeOrder| ==> IdOf(ThemeOrder[i]) == ThemeIds[i]
  {
    forall i | 0 <= i < 8
      ensures IdOf(ThemeOrder[i]) == ThemeIds[i]
    {
    }
    forall i | 8 <= i < 16
      ensures IdOf(ThemeOrder[i]) == ThemeIds[i]
    {
    }
  }

  /** Which palettes a category shows, by constructor. */
  predicate ShownTheme(category: Category, t: ThemeId) {
    match category
    case All => true
    case Light => t == LightTheme
    case Dark => t != LightTheme && t != CustomTheme
    case Colorful => t in {Rose, Ocean, Forest, Amber, Cherry, Lavender, Teal}
  }

  /** `themes.filter(...)`, keeping order: the palettes from position `from`
      on that the category shows. */
  function FilterFrom(ts: seq<ThemeId>, category: Category, from: nat): seq<ThemeId>
    requires from <= |ts|
    decreases |ts| - from
  {
    if from == |ts| then []
    else (if ShownTheme(category, ts[from]) then [ts[from]] else []) + FilterFrom(ts, category, from + 1)
  }

  function FilterThemes(ts: seq<ThemeId>, category: Category): seq<ThemeId> {
    FilterFrom(ts, category, 0)
  }

  /** The filter keeps exactly the shown palettes and nothing else. */
  lemma {:induction false} FilterFromMembers(ts: seq<ThemeId>, category: Category, from: nat)
    requires from <= |ts|
    ensures |FilterFrom(ts, category, from)| <= |ts| - from
    ensures forall t :: t in FilterFrom(ts, category, from) <==> t in ts[from..] && ShownTheme(category, t)
    decreases |ts| - from
  {
    if from < |ts| {
      FilterFromMembers(ts, category, from + 1);
      assert ts[from..] == [ts[from]] + ts[from + 1..];
    }
  }

  /** Filtering a whole list keeps exactly its shown palettes. */
  lemma FilterThemesMembers(ts: seq<ThemeId>, category: Category)
    ensures |FilterThemes(ts, category)| <= |ts|
    ensures forall t :: t in FilterThemes(ts, category) <==> t in ts && Shown(category, IdOf(t))
  {
    forall t ensures ShownTheme(category, t) <==> Shown(category, IdOf(t)) {
      ShownThemeAgrees(category, t);
    }
    FilterFromMembers(ts, category, 0);
    assert ts[0..] == ts;
  }

  /** The picker's predicate applied to a palette's id agrees with
      `ShownTheme`. */
  lemma ShownThemeAgrees(category: Category, t: ThemeId)
    ensures ShownTheme(category, t) <==> Shown(category, IdOf(t))
  {
    match category
    case All =>
    case Light => LightAgrees(t);
    case Dark => DarkAgrees(t);
    case Colorful => ColorfulAgrees(t);
  }

  lemma LightAgrees(t: ThemeId)
    ensures ShownTheme(Light, t) <==> Shown(Light, IdOf(t))
  {
  }

  lemma DarkAgrees(t: ThemeId)
    ensures ShownTheme(Dark, t) <==> Shown(Dark, IdOf(t))
  {
  }

  lemma ColorfulAgrees(t: ThemeId)
    ensures ShownTheme(Colorful, t) <==> Shown(Colorful, IdOf(t))
  {
  }

  /** `all` shows all sixteen palettes. */
  lemma AllCategory()
    ensures FilterThemes(ThemeOrder, All) == [DefaultTheme, Midnight, Sunset, Emerald, Purple, Rose, Ocean, Forest, Amber, Cherry, Lavender, Teal, Slate, LightTheme, DarkTheme, CustomTheme]
  {
    AllSteps(ThemeOrder);
  }

  /** `light` shows the light palette only. */
  lemma LightCategory()
    ensures FilterThemes(ThemeOrder, Light) == [LightTheme]
  {
    LightSteps(ThemeOrder);
  }

  /** `dark` shows every palette but `light` and `custom`, in picker order. */
  lemma DarkCategory()
    ensures FilterThemes(ThemeOrder, Dark) == [DefaultTheme, Midnight, Sunset, Emerald, Purple, Rose, Ocean, Forest, Amber, Cherry, Lavender, Teal, Slate, DarkTheme]
  {
    DarkSteps(ThemeOrder);
  }

  /** `colorful` shows exactly the seven listed palettes, in picker order. */
  lemma ColorfulCategory()
    ensures FilterThemes(ThemeOrder, Colorful) == [Rose, Ocean, Forest, Amber, Cherry, Lavender, Teal]
  {
    ColorfulSteps(ThemeOrder);
  }

  // ---------------------------------------------------------------------------
  // Proof scaffolding for the category lemmas above
  // ---------------------------------------------------------------------------
  // The lemmas from here to the end of the section only evaluate the filter
  // over the shipped picker order a few positions at a time, so that no one
  // proof unfolds all sixteen. They state nothing beyond AllCategory,
  // LightCategory, DarkCategory and ColorfulCategory.

  /** `ts` lists the palettes in picker order, entry by entry. */
  ghost predicate PickerOrder(ts: seq<ThemeId>) {
    |ts| == |ThemeOrder| && forall i :: 0 <= i < |ts| ==> ts[i] == ThemeOrder[i]
  }

  /** Filtering the picker order one position at a time, four positions per
      lemma. The order is taken as a parameter, known entry by entry, so that
      each step unfolds the filter once. */
  lemma AllStepsFrom12(ts: seq<ThemeId>)
    requires PickerOrder(ts)
    ensures FilterFrom(ts, All, 12) == [Slate, LightTheme, DarkTheme, CustomTheme]
  {
    var r16 := FilterFrom(ts, All, 16);
    var r15 := FilterFrom(ts, All, 15);
    assert r15 == [CustomTheme] + r16;
    var r14 := FilterFrom(ts, All, 14);
    assert r14 == [DarkTheme] + r15;
    var r13 := FilterFrom(ts, All, 13);
    assert r13 == [LightTheme] + r14;
    var r12 := FilterFrom(ts, All, 12);
    assert r12 == [Slate] + r13;
  }

  lemma AllStepsFrom8(ts: seq<ThemeId>)
    requires PickerOrder(ts)
    ensures FilterFrom(ts, All, 8) == [Amber, Cherry, Lavender, Teal, Slate, LightTheme, DarkTheme, CustomTheme]
  {
    AllStepsFrom12(ts);
    var r12 := FilterFrom(ts, All, 12);
    var r11 := FilterFrom(ts, All, 11);
    assert r11 == [Teal] + r12;
    var r10 := FilterFrom(ts, All, 10);
    assert r10 == [Lavender] + r11;
    var r9 := FilterFrom(ts, All, 9);
    assert r9 == [Cherry] + r10;
    var r8 := FilterFrom(ts, All, 8);
    assert r8 == [Amber] + r9;
  }

  lemma AllStepsFrom4(ts: seq<ThemeId>)
    requires PickerOrder(ts)
    ensures FilterFrom(ts, All, 4) == [Purple, Rose, Ocean, Forest, Amber, Cherry, Lavender, Teal, Slate, LightTheme, DarkTheme, CustomTheme]
  {
    AllStepsFrom8(ts);
    var r8 := FilterFrom(ts, All, 8);
    var r7 := FilterFrom(ts, All, 7);
    assert r7 == [Forest] + r8;
    var r6 := FilterFrom(ts, All, 6);
    assert r6 == [Ocean] + r7;
    var r5 := FilterFrom(ts, All, 5);
    assert r5 == [Rose] + r6;
    var r4 := FilterFrom(ts, All, 4);
    assert r4 == [Purple] + r5;
  }

  lemma AllSteps(ts: seq<ThemeId>)
    requires PickerOrder(ts)
    ensures FilterFrom(ts, All, 0) == [DefaultTheme, Midnight, Sunset, Emerald, Purple, Rose, Ocean, Forest, Amber, Cherry, Lavender, Teal, Slate, LightTheme, DarkTheme, CustomTheme]
  {
    AllStepsFrom4(ts);
    var r4 := FilterFrom(ts, All, 4);
    var r3 := FilterFrom(ts, All, 3);
    assert r3 == [Emerald] + r4;
    var r2 := FilterFrom(ts, All, 2);
    assert r2 == [Sunset] + r3;
    var r1 := FilterFrom(ts, All, 1);
    assert r1 == [Midnight] + r2;
    var r0 := FilterFrom(ts, All, 0);
    assert r0 == [DefaultTheme] + r1;
  }

  lemma LightStepsFrom12(ts: seq<ThemeId>)
    requires PickerOrder(ts)
    ensures FilterFrom(ts, Light, 12) == [LightTheme]
  {
    var r16 := FilterFrom(ts, Light, 16);
    var r15 := FilterFrom(ts, Light, 15);
    assert r15 == r16;
    var r14 := FilterFrom(ts, Light, 14);
    assert r14 == r15;
    var r13 := FilterFrom(ts, Light, 13);
    assert r13 == [LightTheme] + r14;
    var r12 := FilterFrom(ts, Light, 12);
    assert r12 == r13;
  }

  lemma LightStepsFrom8(ts: seq<ThemeId>)
    requires PickerOrder(ts)
    ensures FilterFrom(ts, Light, 8) == [LightTheme]
  {
    LightStepsFrom12(ts);
    var r12 := FilterFrom(ts, Light, 12);
    var r11 := FilterFrom(ts, Light, 11);
    assert r11 == r12;
    var r10 := FilterFrom(ts, Light, 10);
    assert r10 == r11;
    var r9 := FilterFrom(ts, Light, 9);
    assert r9 == r10;
    var r8 := FilterFrom(ts, Light, 8);
    assert r8 == r9;
  }

  lemma LightStepsFrom4(ts: seq<ThemeId>)
    requires PickerOrder(ts)
    ensures FilterFrom(ts, Light, 4) == [LightTheme]
  {
    LightStepsFrom8(ts);
    var r8 := FilterFrom(ts, Light, 8);
    var r7 := FilterFrom(ts, Light, 7);
    assert r7 == r8;
    var r6 := FilterFrom(ts, Light, 6);
    assert r6 == r7;
    var r5 := FilterFrom(ts, Light, 5);
    assert r5 == r6;
    var r4 := FilterFrom(ts, Light, 4);
    assert r4 == r5;
  }

  lemma LightSteps(ts: seq<ThemeId>)
    requires PickerOrder(ts)
    ensures FilterFrom(ts, Light, 0) == [LightTheme]
  {
    LightStepsFrom4(ts);
    var r4 := FilterFrom(ts, Light, 4);
    var r3 := FilterFrom(ts, Light, 3);
    assert r3 == r4;
    var r2 := FilterFrom(ts, Light, 2);
    assert r2 == r3;
    var r1 := FilterFrom(ts, Light, 1);
    assert r1 == r2;
    var r0 := FilterFrom(ts, Light, 0);
    assert r0 == r1;
  }

  lemma DarkStepsFrom12(ts: seq<ThemeId>)
    requires PickerOrder(ts)
    ensures FilterFrom(ts, Dark, 12) == [Slate, DarkTheme]
  {
    var r16 := FilterFrom(ts, Dark, 16);
    var r15 := FilterFrom(ts, Dark, 15);
    assert r15 == r16;
    var r14 := FilterFrom(ts, Dark, 14);
    assert r14 == [DarkTheme] + r15;
    var r13 := FilterFrom(ts, Dark, 13);
    assert r13 == r14;
    var r12 := FilterFrom(ts, Dark, 12);
    assert r12 == [Slate] + r13;
  }

  lemma DarkStepsFrom8(ts: seq<ThemeId>)
    requires PickerOrder(ts)
    ensures FilterFrom(ts, Dark, 8) == [Amber, Cherry, Lavender, Teal, Slate, DarkTheme]
  {
    DarkStepsFrom12(ts);
    var r12 := FilterFrom(ts, Dark, 12);
    var r11 := FilterFrom(ts, Dark, 11);
    assert r11 == [Teal] + r12;
    var r10 := FilterFrom(ts, Dark, 10);
    assert r10 == [Lavender] + r11;
    var r9 := FilterFrom(ts, Dark, 9);
    assert r9 == [Cherry] + r10;
    var r8 := FilterFrom(ts, Dark, 8);
    assert r8 == [Amber] + r9;
  }

  lemma DarkStepsFrom4(ts: seq<ThemeId>)
    requires PickerOrder(ts)
    ensures FilterFrom(ts, Dark, 4) == [Purple, Rose, Ocean, Forest, Amber, Cherry, Lavender, Teal, Slate, DarkTheme]
  {
    DarkStepsFrom8(ts);
    var r8 := FilterFrom(ts, Dark, 8);
    var r7 := FilterFrom(ts, Dark, 7);
    assert r7 == [Forest] + r8;
    var r6 := FilterFrom(ts, Dark, 6);
    assert r6 == [Ocean] + r7;
    var r5 := FilterFrom(ts, Dark, 5);
    assert r5 == [Rose] + r6;
    var r4 := FilterFrom(ts, Dark, 4);
    assert r4 == [Purple] + r5;
  }

  lemma DarkSteps(ts: seq<ThemeId>)
    requires PickerOrder(ts)
    ensures FilterFrom(ts, Dark, 0) == [DefaultTheme, Midnight, Sunset, Emerald, Purple, Rose, Ocean, Forest, Amber, Cherry, Lavender, Teal, Slate, DarkTheme]
  {
    DarkStepsFrom4(ts);
    var r4 := FilterFrom(ts, Dark, 4);
    var r3 := FilterFrom(ts, Dark, 3);
    assert r3 == [Emerald] + r4;
    var r2 := FilterFrom(ts, Dark, 2);
    assert r2 == [Sunset] + r3;
    var r1 := FilterFrom(ts, Dark, 1);
    assert r1 == [Midnight] + r2;
    var r0 := FilterFrom(ts, Dark, 0);
    assert r0 == [DefaultTheme] + r1;
  }

  lemma ColorfulStepsFrom12(ts: seq<ThemeId>)
    requires PickerOrder(ts)
    ensures FilterFrom(ts, Colorful, 12) == []
  {
    var r16 := FilterFrom(ts, Colorful, 16);
    var r15 := FilterFrom(ts, Colorful, 15);
    assert r15 == r16;
    var r14 := FilterFrom(ts, Colorful, 14);
    assert r14 == r15;
    var r13 := FilterFrom(ts, Colorful, 13);
    assert r13 == r14;
    var r12 := FilterFrom(ts, Colorful, 12);
    assert r12 == r13;
  }

  lemma ColorfulStepsFrom8(ts: seq<ThemeId>)
    requires PickerOrder(ts)
    ensures FilterFrom(ts, Colorful, 8) == [Amber, Cherry, Lavender, Teal]
  {
    ColorfulStepsFrom12(ts);
    var r12 := FilterFrom(ts, Colorful, 12);
    var r11 := FilterFrom(ts, Colorful, 11);
    assert r11 == [Teal] + r12;
    var r10 := FilterFrom(ts, Colorful, 10);
    assert r10 == [Lavender] + r11;
    var r9 := FilterFrom(ts, Colorful, 9);
    assert r9 == [Cherry] + r10;
    var r8 := FilterFrom(ts, Colorful, 8);
    assert r8 == [Amber] + r9;
  }

  lemma ColorfulStepsFrom4(ts: seq<ThemeId>)
    requires PickerOrder(ts)
    ensures FilterFrom(ts, Colorful, 4) == [Rose, Ocean, Forest, Amber, Cherry, Lavender, Teal]
  {
    ColorfulStepsFrom8(ts);
    var r8 := FilterFrom(ts, Colorful, 8);
    var r7 := FilterFrom(ts, Colorful, 7);
    assert r7 == [Forest] + r8;
    var r6 := FilterFrom(ts, Colorful, 6);
    assert r6 == [Ocean] + r7;
    var r5 := FilterFrom(ts, Colorful, 5);
    assert r5 == [Rose] + r6;
    var r4 := FilterFrom(ts, Colorful, 4);
    assert r4 == r5;
  }

  lemma ColorfulSteps(ts: seq<ThemeId>)
    requires PickerOrder(ts)
    ensures FilterFrom(ts, Colorful, 0) == [Rose, Ocean, Forest, Amber, Cherry, Lavender, Teal]
  {
    ColorfulStepsFrom4(ts);
    var r4 := FilterFrom(ts, Colorful, 4);
    var r3 := FilterFrom(ts, Colorful, 3);
    assert r3 == r4;
    var r2 := FilterFrom(ts, Colorful, 2);
    assert r2 == r3;
    var r1 := FilterFrom(ts, Colorful, 1);
    assert r1 == r2;
    var r0 := FilterFrom(ts, Colorful, 0);
    assert r0 == r1;
  }

  // ---------------------------------------------------------------------------
  // Persistence
  // ---------------------------------------------------------------------------

  const ThemeKey := "theme"

  /** The `customColors` entry. The site writes it with `JSON.stringify` of a
      colour record; what `JSON.parse` makes of the stored text is either
      that record or a parse failure. */
  datatype SavedColors = Parsed(colors: Colors) | Unparsable

  datatype ThemeState = ThemeState(
    activeTheme: string,
    category: Category,
    customColors: Colors,
    store: Store,
    savedCustom: Option<SavedColors>)

  /** The load effect: a saved theme id is restored, and only then are saved
      custom colours read; a parse failure keeps the defaults. */
  function Load(store: Store, savedCustom: Option<SavedColors>): (st: ThemeState)
    ensures st.store == store && st.savedCustom == savedCustom && st.category == All
    ensures !Truthy(GetItem(store, ThemeKey)) ==>
              st.activeTheme == "default" && st.customColors == DefaultCustomColors
    ensures Truthy(GetItem(store, ThemeKey)) ==> st.activeTheme == store[ThemeKey]
    ensures Truthy(GetItem(store, ThemeKey)) && savedCustom.Some? && savedCustom.value.Parsed? ==>
              st.customColors == savedCustom.value.colors
    ensures !(savedCustom.Some? && savedCustom.value.Parsed?) ==> st.customColors == DefaultCustomColors
  {
    var initial := ThemeState("default", All, DefaultCustomColors, store, savedCustom);
    var saved := GetItem(store, ThemeKey);
    if !Truthy(saved) then initial
    else
      var withTheme := initial.(activeTheme := saved.value);
      match savedCustom
      case Some(Parsed(c)) => withTheme.(customColors := c)
      case _ => withTheme
  }

  /** `saveTheme` */
  function SaveTheme(st: ThemeState, id: string): (st': ThemeState)
    ensures st'.activeTheme == id && st'.store == st.store[ThemeKey := id]
    ensures id == "custom" ==> st'.savedCustom == Some(Parsed(st.customColors))
    ensures id != "custom" ==> st'.savedCustom == st.savedCustom
    ensures st'.customColors == st.customColors
  {
    var chosen := st.(activeTheme := id, store := st.store[ThemeKey := id]);
    if id == "custom" then chosen.(savedCustom := Some(Parsed(st.customColors))) else chosen
  }

  /** `handleColorChange` */
  function ColorChange(st: ThemeState, f: ColorField, value: string): (st': ThemeState)
    ensures Get(st'.customColors, f) == value
    ensures forall g :: g != f ==> Get(st'.customColors, g) == Get(st.customColors, g)
    ensures st.activeTheme == "custom" ==> st'.savedCustom == Some(Parsed(st'.customColors))
    ensures st.activeTheme != "custom" ==> st'.savedCustom == st.savedCustom
    ensures st'.store == st.store && st'.activeTheme == st.activeTheme
  {
    var updated := With(st.customColors, f, value);
    if st.activeTheme == "custom" then st.(customColors := updated, savedCustom := Some(Parsed(updated)))
    else st.(customColors := updated)
  }

  /** Choosing the custom theme and editing it is what the next visit loads. */
  lemma CustomThemeSurvivesReload(st: ThemeState, f: ColorField, value: string)
    ensures var st' := ColorChange(SaveTheme(st, "custom"), f, value);
            Load(st'.store, st'.savedCustom).activeTheme == "custom"
            && Load(st'.store, st'.savedCustom).customColors == st'.customColors
  {
  }

  // ---------------------------------------------------------------------------
  // hexToRgb
  // ---------------------------------------------------------------------------

  predicate IsHexDigit(c: char) {
    ('0' <= c <= '9') || ('a' <= c <= 'f') || ('A' <= c <= 'F')
  }

  predicate AllHexDigits(s: string) {
    forall k :: 0 <= k < |s| ==> IsHexDigit(s[k])
  }

  function DigitValue(c: char): (v: nat)
    requires IsHexDigit(c)
    ensures v < 16
  {
    if '0' <= c <= '9' then c as int - '0' as int
    else if 'a' <= c <= 'f' then c as int - 'a' as int + 10
    else c as int - 'A' as int + 10
  }

  /** Length of the longest prefix made of hex digits. */
  function HexRun(s: string): (n: nat)
    ensures n <= |s| && AllHexDigits(s[..n])
    ensures n < |s| ==> !IsHexDigit(s[n])
    decreases |s|
  {
    if |s| == 0 || !IsHexDigit(s[0]) then 0
    else
      var n := 1 + HexRun(s[1..]);
      assert s[..n] == [s[0]] + s[1..][..n - 1];
      n
  }

  /** A string of hex digits is its own longest run. */
  lemma {:induction false} HexRunAll(s: string)
    requires AllHexDigits(s)
    ensures HexRun(s) == |s|
    decreases |s|
  {
    if |s| > 0 {
      assert AllHexDigits(s[1..]) by {
        forall k | 0 <= k < |s| - 1 ensures IsHexDigit(s[1..][k]) {
          assert s[1..][k] == s[k + 1];
        }
      }
      HexRunAll(s[1..]);
    }
  }

  /** The number a string of hex digits denotes, most significant first. */
  function HexValue(s: string): nat
    requires AllHexDigits(s)
    decreases |s|
  {
    if |s| == 0 then 0 else HexValue(s[..|s| - 1]) * 16 + DigitValue(s[|s| - 1])
  }

  /** Drops leading white space and line terminators. */
  function TrimStart(s: string): (r: string)
    ensures |r| <= |s| && r == s[|s| - |r|..]
    ensures |r| > 0 ==> !IsWhiteSpace(r[0])
    decreases |s|
  {
    if |s| > 0 && IsWhiteSpace(s[0]) then TrimStart(s[1..]) else s
  }

  /** One leading sign, if any, is dropped. */
  function SkipSign(t: string): string {
    if |t| > 0 && (t[0] == '-' || t[0] == '+') then t[1..] else t
  }

  /** A `0x`/`0X` prefix, if any, is dropped. */
  function SkipHexPrefix(u: string): string {
    if StartsWith(u, "0x") || StartsWith(u, "0X") then u[2..] else u
  }

  /** `parseInt(s, 16)`; `None` is NaN. Leading white space is skipped, one
      sign is read, a `0x`/`0X` prefix is dropped, and the longest run of hex
      digits that follows is the value. */
  function ParseHex(s: string): (r: Option<int>)
  {
    var t := TrimStart(s);
    var negative := |t| > 0 && t[0] == '-';
    var w := SkipHexPrefix(SkipSign(t));
    var n := HexRun(w);
    if n == 0 then None
    else if negative then Some(-(HexValue(w[..n]) as int))
    else Some(HexValue(w[..n]))
  }

  /** A hex digit is neither white space, a sign nor an `x`. */
  lemma HexDigitIsPlain(c: char)
    requires IsHexDigit(c)
    ensures !IsWhiteSpace(c) && c != '-' && c != '+' && c != 'x' && c != 'X'
  {
  }

  /** A string of hex digits has no `0x` prefix to drop. */
  lemma NoHexPrefix(s: string)
    requires AllHexDigits(s)
    ensures SkipHexPrefix(s) == s
  {
    if |s| >= 2 {
      HexDigitIsPlain(s[1]);
      assert s[..2][1] == s[1];
    }
  }

  /** A non-empty string of hex digits parses to the number it denotes. */
  lemma ParseHexDigits(s: string)
    requires |s| > 0 && AllHexDigits(s)
    ensures ParseHex(s) == Some(HexValue(s))
  {
    HexDigitIsPlain(s[0]);
    assert TrimStart(s) == s;
    assert SkipSign(s) == s;
    NoHexPrefix(s);
    HexRunAll(s);
    assert s[..|s|] == s;
  }

  datatype Rgb = Rgb(r: int, g: int, b: int)

  const TwoTo32 := 0x1_0000_0000

  /** `(n >> shift) & 255` on the 32-bit two's-complement form of `n`. */
  function ByteAt(n: int, shift: nat): (v: int)
    requires shift == 0 || shift == 8 || shift == 16
    ensures 0 <= v < 256
  {
    var u := n % TwoTo32;
    (if shift == 16 then u / 65536 else if shift == 8 then u / 256 else u) % 256
  }

  /** `hex.replace(/^#/, '')`: at most one leading `#` goes. */
  function StripHash(s: string): (r: string)
    ensures |s| > 0 && s[0] == '#' ==> r == s[1..]
    ensures !(|s| > 0 && s[0] == '#') ==> r == s
  {
    if |s| > 0 && s[0] == '#' then s[1..] else s
  }

  /** `hexToRgb`: NaN shifts and masks to zero, so every input gives three
      bytes. */
  function HexToRgb(hex: string): (c: Rgb)
    ensures 0 <= c.r < 256 && 0 <= c.g < 256 && 0 <= c.b < 256
    ensures ParseHex(StripHash(hex)).None? ==> c == Rgb(0, 0, 0)
  {
    var v := ParseHex(StripHash(hex)).GetOr(0);
    Rgb(ByteAt(v, 16), ByteAt(v, 8), ByteAt(v, 0))
  }

  /** A digit character for a value below 16, lower-case. */
  function HexChar(d: nat): (c: char)
    requires d < 16
    ensures IsHexDigit(c) && DigitValue(c) == d
  {
    if d < 10 then ('0' as int + d) as char else ('a' as int + d - 10) as char
  }

  /** Two hex digits for a byte. */
  function Hex2(n: nat): (s: string)
    requires n < 256
    ensures s == [HexChar(n / 16), HexChar(n % 16)]
    ensures AllHexDigits(s)
  {
    [HexChar(n / 16), HexChar(n % 16)]
  }

  /** The 24-bit number `0xrrggbb` of a colour. */
  function Packed(c: Rgb): int {
    c.r * 65536 + c.g * 256 + c.b
  }

  /** The `#rrggbb` form of three bytes. */
  function ToHex(c: Rgb): (s: string)
    requires 0 <= c.r < 256 && 0 <= c.g < 256 && 0 <= c.b < 256
    ensures |s| == 7 && s[0] == '#'
  {
    "#" + Hex2(c.r) + Hex2(c.g) + Hex2(c.b)
  }

  /** Appending a digit multiplies by sixteen and adds it. */
  lemma HexValueSnoc(p: string, c: char)
    requires AllHexDigits(p) && IsHexDigit(c)
    ensures AllHexDigits(p + [c])
    ensures HexValue(p + [c]) == HexValue(p) * 16 + DigitValue(c)
  {
    assert (p + [c])[..|p|] == p;
  }

  /** The value of six digits, most significant first. */
  lemma HexValueSix(c0: char, c1: char, c2: char, c3: char, c4: char, c5: char)
    requires IsHexDigit(c0) && IsHexDigit(c1) && IsHexDigit(c2)
    requires IsHexDigit(c3) && IsHexDigit(c4) && IsHexDigit(c5)
    ensures AllHexDigits([c0, c1, c2, c3, c4, c5])
    ensures HexValue([c0, c1, c2, c3, c4, c5])
            == (DigitValue(c0) * 16 + DigitValue(c1)) * 65536
               + (DigitValue(c2) * 16 + DigitValue(c3)) * 256
               + (DigitValue(c4) * 16 + DigitValue(c5))
  {
    HexValueSnoc([], c0);
    assert [] + [c0] == [c0];
    HexValueSnoc([c0], c1);
    assert [c0] + [c1] == [c0, c1];
    HexValueSnoc([c0, c1], c2);
    assert [c0, c1] + [c2] == [c0, c1, c2];
    HexValueSnoc([c0, c1, c2], c3);
    assert [c0, c1, c2] + [c3] == [c0, c1, c2, c3];
    HexValueSnoc([c0, c1, c2, c3], c4);
    assert [c0, c1, c2, c3] + [c4] == [c0, c1, c2, c3, c4];
    HexValueSnoc([c0, c1, c2, c3, c4], c5);
    assert [c0, c1, c2, c3, c4] + [c5] == [c0, c1, c2, c3, c4, c5];
  }

  /** Splits a number below 2^24 into its three bytes. */
  lemma Bytes(r: int, g: int, b: int, v: int)
    requires 0 <= r < 256 && 0 <= g < 256 && 0 <= b < 256
    requires v == r * 65536 + g * 256 + b
    ensures ByteAt(v, 16) == r && ByteAt(v, 8) == g && ByteAt(v, 0) == b
  {
    assert 0 <= v < TwoTo32;
    assert v % TwoTo32 == v;
    assert v / 65536 == r;
    assert v / 256 == r * 256 + g;
    assert (r * 256 + g) % 256 == g;
    assert v % 256 == b;
  }

  /** The two digits of a byte denote that byte. */
  lemma Hex2Digits(n: nat)
    requires n < 256
    ensures DigitValue(HexChar(n / 16)) * 16 + DigitValue(HexChar(n % 16)) == n
  {
  }

  /** The six digits of a colour denote its 24-bit number. */
  lemma HexDigitsOfColour(c: Rgb)
    requires 0 <= c.r < 256 && 0 <= c.g < 256 && 0 <= c.b < 256
    ensures AllHexDigits(Hex2(c.r) + Hex2(c.g) + Hex2(c.b))
    ensures HexValue(Hex2(c.r) + Hex2(c.g) + Hex2(c.b)) == Packed(c)
  {
    var c0, c1 := HexChar(c.r / 16), HexChar(c.r % 16);
    var c2, c3 := HexChar(c.g / 16), HexChar(c.g % 16);
    var c4, c5 := HexChar(c.b / 16), HexChar(c.b % 16);
    assert Hex2(c.r) + Hex2(c.g) + Hex2(c.b) == [c0, c1, c2, c3, c4, c5];
    HexValueSix(c0, c1, c2, c3, c4, c5);
    Hex2Digits(c.r);
    Hex2Digits(c.g);
    Hex2Digits(c.b);
  }

  /** The `#rrggbb` form parses to the 24-bit number of the colour. */
  lemma ToHexParses(c: Rgb)
    requires 0 <= c.r < 256 && 0 <= c.g < 256 && 0 <= c.b < 256
    ensures ParseHex(StripHash(ToHex(c))) == Some(Packed(c))
  {
    var d := Hex2(c.r) + Hex2(c.g) + Hex2(c.b);
    assert StripHash(ToHex(c)) == d by {
      assert ToHex(c) == "#" + d;
    }
    HexDigitsOfColour(c);
    ParsesTo(d, Packed(c));
  }

  /** A non-empty string of hex digits denoting `v` parses to `v`. */
  lemma ParsesTo(d: string, v: int)
    requires |d| > 0 && AllHexDigits(d) && HexValue(d) == v
    ensures ParseHex(d) == Some(v)
  {
    ParseHexDigits(d);
  }

  /** `hexToRgb` undoes the `#rrggbb` encoding of any colour. */
  lemma HexRoundTrip(c: Rgb)
    requires 0 <= c.r < 256 && 0 <= c.g < 256 && 0 <= c.b < 256
    ensures HexToRgb(ToHex(c)) == c
  {
    ToHexParses(c);
    HexToRgbOfColour(ToHex(c), c);
  }

  /** A string that parses to the 24-bit number of a colour converts back
      to that colour. */
  lemma HexToRgbOfColour(hex: string, c: Rgb)
    requires 0 <= c.r < 256 && 0 <= c.g < 256 && 0 <= c.b < 256
    requires ParseHex(StripHash(hex)) == Some(Packed(c))
    ensures HexToRgb(hex) == c
  {
    HexToRgbOfValue(hex, Packed(c));
    BytesOfColour(c);
  }

  /** The three bytes of a colour's 24-bit number are the colour. */
  lemma BytesOfColour(c: Rgb)
    requires 0 <= c.r < 256 && 0 <= c.g < 256 && 0 <= c.b < 256
    ensures Rgb(ByteAt(Packed(c), 16), ByteAt(Packed(c), 8), ByteAt(Packed(c), 0)) == c
  {
    Bytes(c.r, c.g, c.b, Packed(c));
  }

  /** `hexToRgb` of a string that parses to `v` is the low three bytes of `v`. */
  lemma HexToRgbOfValue(hex: string, v: int)
    requires ParseHex(StripHash(hex)) == Some(v)
    ensures HexToRgb(hex) == Rgb(ByteAt(v, 16), ByteAt(v, 8), ByteAt(v, 0))
  {
  }

  /** Three-digit shorthand is not expanded: `fff` and `#fff` are the number
      0xfff. */
  lemma ShorthandNotExpanded(hex: string)
    requires hex == "fff" || hex == "#fff"
    ensures HexToRgb(hex) == Rgb(0, 15, 255)
  {
    var s := StripHash(hex);
    assert s == ['f', 'f', 'f'];
    HexValueSnoc([], 'f');
    HexValueSnoc(['f'], 'f');
    HexValueSnoc(['f', 'f'], 'f');
    assert s == ['f', 'f'] + ['f'] && ['f', 'f'] == ['f'] + ['f'] && ['f'] == [] + ['f'];
    assert HexValue(s) == 4095;
    ParseHexDigits(s);
    HexToRgbOfColour(hex, Rgb(0, 15, 255));
  }
}
